=== FILE: README.md ===
# Apex Kube Manager: a Dafny model of its decision logic

Apex Kube Manager is a desktop Kubernetes client. It has a Rust back end built on Tauri and a Svelte/TypeScript front end. This project models the parts of it that decide things. Everything else is glue over the Kubernetes API, the operating system and the UI.

- **Port forwarding** (`src-tauri/src/portforward.rs`):
  - the forward registry (`PortForwardManager`), with its public operations and the status updates made by each forward's runner task;
  - the per-forward connection statistics;
  - resolving a service to a running pod;
  - the list of ports a pod or service offers.

  The registry is a map from forward id to info and statistics. Each lock-protected section is one atomic transition. The OS port probe, the bind result and the cluster's answers are inputs. Module `Lifecycle` puts the registry together with its runner tasks and the local ports they hold. It proves an invariant of every reachable state.
- **Cluster summaries** (`src-tauri/src/kubernetes.rs`):
  - CPU and memory quantity parsing;
  - the age label;
  - job, container and node status;
  - the OK/FAIL counts of the pulse view;
  - endpoint flattening.
- **Login-shell environment import** (`src-tauri/src/lib.rs`, `fix_path_env`). This covers the `KEY=VALUE` line filter of the macOS and Linux variants, and which variables end up set.
- **Window labels and titles** (`src-tauri/src/commands.rs`) for resource-detail and terminal windows, and the focus-instead-of-open rule.
- **Front-end stores and utilities**:
  - the table sort (`sort.ts`);
  - the search filter and global search (`search.ts`);
  - the start-up check list (`startup.ts`);
  - the theme store (`theme.ts`);
  - the derived pod views, the refresh counter, the loaders' readiness guard and context polling (`stores/kubernetes.ts`).

JavaScript values that matter to the front end are modelled as a small datatype (`JsValues.Value`). This covers strings, integers, booleans, null, undefined, arrays and objects, with `String(v)` printing as JavaScript does. Rust integer widths are written out where they matter:
- `u16` casts are `% 65536`;
- the atomic counters wrap modulo 2^64;
- `i64` parsing checks the range;
- integer division truncates toward zero.

Rust's and JavaScript's `trim` use different whitespace sets. Both are modelled.

Several behaviours are proved and worth knowing:
- Only an `Active` forward blocks its local port in the registry. After one runner's client set-up fails, a second forward on the same port can also become `Active`. Both then show `Active`, although only one listener exists (`Lifecycle.TwoActiveOnOnePort`).
- A forward is never seen with status `Stopped` (`Lifecycle.NeverStopped`). A runner returns `Ok` only after its shutdown signal fires, and every stop removes the entry first. The completion callback never re-inserts an entry.
- Detail-window labels can collide. The separators are not escaped, and `.`, `/`, `\` and space all become `-`. So `("a", "b-c")` and `("a-b", "c")` give the same label (`Windows.DetailLabelsCollide`).
- A negative age label such as `"-5s"` (a creation time slightly ahead of the clock) sorts as 5 seconds, because the sort's age parser reads digits only (`Sorting.NegativeAgeReadsPositive`).
- In search, a `null` element of an array field prints as `"null"`, so the query `"null"` finds it. A `null` field never matches. The query is lower-cased but not trimmed.

## Model

| member | source | states |
|---|---|---|
| ForwardStats.Opened | src-tauri/src/portforward.rs:57-60 | opening a connection raises the active and total counters by one modulo 2^64, so each wraps to 0 from 2^64-1, and leaves the byte counters alone |
| ForwardStats.Closed | src-tauri/src/portforward.rs:62-64 | closing lowers only the active counter by one, wrapping to 2^64-1 from zero as `fetch_sub` does |
| ForwardStats.AddSent | src-tauri/src/portforward.rs:66-68 | bytes sent are added to the sent counter only, modulo 2^64 as `fetch_add` wraps |
| ForwardStats.AddReceived | src-tauri/src/portforward.rs:70-72 | bytes received are added to the received counter only, modulo 2^64 as `fetch_add` wraps |
| ForwardStats.OpenedThenClosed | src-tauri/src/portforward.rs:57-64 | an open followed by a close restores the active count and leaves one more connection in the total |
| ForwardStats.ApplyAllClosedForm | src-tauri/src/portforward.rs:57-72 | after any sequence of events, each counter equals its start value plus opens (minus closes for active), plus bytes, modulo 2^64 |
| ForwardStats.ApplyAllConcat | src-tauri/src/portforward.rs:57-72 | applying two event runs one after the other equals applying their concatenation |
| ForwardStats.SwapAdjacent | src-tauri/src/portforward.rs:57-72 | the relaxed atomic updates commute: swapping two adjacent events anywhere in a run gives the same statistics |
| ForwardStats.OpensThenCloses | src-tauri/src/portforward.rs:57-64 | n opens followed by n closes restore the active count, raise the total by n and leave the byte counters unchanged |
| ForwardStats.ByteEvents | src-tauri/src/portforward.rs:370-383 | a connection produces at most one byte event, and it is a sent or received event |
| ForwardStats.ConnectionEvents | src-tauri/src/portforward.rs:291-389 | a served connection is one open, then at most one byte event, then one close; bytes are sent only when the client-to-server copy finished first and succeeded, and received only when the server-to-client copy did |
| ForwardStats.ServeOneConnection | src-tauri/src/portforward.rs:291-389 | serving one connection leaves the active count as it was and adds one to the total; only the direction that finished first, and only if its copy succeeded, adds bytes, so at most one byte counter moves |
| ForwardStats.ServeConnections | src-tauri/src/portforward.rs:291-338 | any number of fully served connections leave the active count unchanged and raise the total by their number |
| Cluster.FindService | src-tauri/src/portforward.rs:516-519 | finds a service with the asked name, or reports that none in the namespace has it |
| Cluster.FindPod | src-tauri/src/portforward.rs:422-424 | finds a pod with the asked name, or reports that none has it |
| Cluster.SelectPods | src-tauri/src/portforward.rs:528-538 | the selected pods are the listed pods whose labels carry every selector pair, in list order, each as often as it is listed, and no others |
| Resolver.FirstRunningName | src-tauri/src/portforward.rs:541-555 | the name of the first pod that has a name and phase exactly "Running", and none only when no pod qualifies |
| Resolver.ServiceSelector | src-tauri/src/portforward.rs:521-526 | a selector is found exactly when the service exists and has a spec holding a selector, and it is that selector |
| Resolver.ResolveServiceToPod | src-tauri/src/portforward.rs:508-562 | a client failure is a client error; an unknown service is service-not-found; a service without a spec or a selector is the no-selector error; a failed pod listing is a list error; otherwise the result is the name of the first running, named pod among the selected pods in list order, and no-running-pod when there is none |
| Resolver.ResolvePodName | src-tauri/src/portforward.rs:150-157 | a pod target resolves to its own name unchanged; a service target resolves through the service's running pods |
| Resolver.ResolvesToRunningPod | src-tauri/src/portforward.rs:541-555 | a pending pod listed before a running one is skipped and the running pod's name is returned |
| Resolver.SortByPortProperties | src-tauri/src/portforward.rs:441 | sorting by port gives an ascending permutation that keeps, for every port, the entries of that port in their original order (a stable sort) |
| Resolver.DedupStrictlyAscending | src-tauri/src/portforward.rs:441-442 | de-duplicating an ascending list leaves strictly ascending ports |
| Resolver.DedupKeepsPorts | src-tauri/src/portforward.rs:442 | de-duplication loses no port |
| Resolver.DedupKeepsFirst | src-tauri/src/portforward.rs:441-442 | each kept entry is the first entry of its port in the sorted list |
| Resolver.PodPorts | src-tauri/src/portforward.rs:426-443 | a pod's ports come out strictly ascending, one per distinct container port, each the first occurrence of its port among the containers' ports |
| Resolver.LookupNamed | src-tauri/src/portforward.rs:487-490 | finds the number of the first named container port with the asked name, or reports that none has it |
| Resolver.LookupPodPorts | src-tauri/src/portforward.rs:454-476 | no selector, a failed pod listing or no selected pod gives no named ports; otherwise they are the named container ports of the first selected pod, in order, or none when that pod has no spec |
| Resolver.TargetPort | src-tauri/src/portforward.rs:483-493 | an integer target port is used as given; a named one is looked up among the named container ports of the first selected pod, falling back to the service port; a missing one is the service port |
| Resolver.ServicePorts | src-tauri/src/portforward.rs:478-502 | one entry per service port, in order, with its resolved target port, its name and its protocol, TCP by default |
| Resolver.GetResourcePorts | src-tauri/src/portforward.rs:411-506 | a client failure is an error; an unknown pod or service is not-found; a pod with a spec yields its containers' ports sorted by port with the first of each port kept, and one without a spec yields none; a service with a spec and ports yields its service-port entries resolved against the first selected pod's named ports, and otherwise none |
| Resolver.NamedTargetPortExample | src-tauri/src/portforward.rs:483-493 | a named target port resolves to the matching container port and falls back to the service port when no container port has that name |
| Registry.StartForward | src-tauri/src/portforward.rs:118-225 | fails with the registry unchanged when an Active forward holds the local port, when the probe finds it taken, or when resolution fails; otherwise adds exactly one entry under the new id, status Starting, zero counters, equal to the info returned, and changes nothing else |
| Registry.StartAddsOne | src-tauri/src/portforward.rs:181-189 | a start adds one entry on success and none on failure |
| Registry.OnlyActiveBlocks | src-tauri/src/portforward.rs:129-140 | forwards in Starting, Error or Stopped on the same port do not block a new one |
| Registry.StopForward | src-tauri/src/portforward.rs:227-236 | stopping a registered id removes exactly that entry; an unknown id is a not-found error with no change; other entries are untouched |
| Registry.StopTwice | src-tauri/src/portforward.rs:227-236 | a second stop of the same id fails with not-found |
| Registry.StopAll | src-tauri/src/portforward.rs:252-257 | stopping all leaves the registry empty |
| Registry.Listed | src-tauri/src/portforward.rs:238-250 | a listed info equals the stored info except the four counters, which come from the forward's statistics |
| Registry.ListForwards | src-tauri/src/portforward.rs:238-250 | one info per registered forward, each id once, each info the listed form of its entry |
| Registry.OnBound | src-tauri/src/portforward.rs:279-285 | a successful bind marks the forward Active if it is still registered, never re-inserting one, and changes nothing else |
| Registry.OnRunnerExit | src-tauri/src/portforward.rs:211-221 | the completion callback sets Stopped after Ok and Error after Err, only on a still-registered forward, and changes nothing else |
| Registry.OnTraffic | src-tauri/src/portforward.rs:291-338 | connection events update only that forward's statistics |
| Registry.StartKeepsValid | src-tauri/src/portforward.rs:165-189 | a start keeps every entry stored under its own id with zero stored counters |
| Registry.StopKeepsValid | src-tauri/src/portforward.rs:227-257 | stop and stop-all keep the registry well formed |
| Registry.StatusUpdatesKeepValid | src-tauri/src/portforward.rs:211-285 | the runner's status updates keep the registry well formed |
| Registry.TrafficKeepsValid | src-tauri/src/portforward.rs:291-338 | statistics updates keep the registry well formed |
| Lifecycle.NextFrame | src-tauri/src/portforward.rs:118-341 | a step never forgets a runner; only a start registers a forward and a start with a used id changes nothing; only a bind takes a new port, for its own runner; a stop of a known runner unregisters its forward; stopping everything empties the registry; traffic changes only counters |
| Lifecycle.InitInv | src-tauri/src/portforward.rs:112-116 | the empty manager satisfies the lifecycle invariant |
| Lifecycle.NextKeepsInv | src-tauri/src/portforward.rs:118-341 | every step (start, stop, stop-all, bind, client failure, shutdown, completion, traffic) keeps the invariant: each registered forward has an unsignalled runner on its port whose phase fits its status, and bound ports are exactly those of listening runners |
| Lifecycle.RunKeepsInv | src-tauri/src/portforward.rs:118-341 | every run of steps from a state satisfying the invariant keeps it |
| Lifecycle.NextStatusLegal | src-tauri/src/portforward.rs:211-285 | a registered forward's status stays put or moves Starting to Active, Starting to Error or Active to Error; no step moves it to Stopped |
| Lifecycle.NeverStopped | src-tauri/src/portforward.rs:211-236 | in every reachable state no registered forward has status Stopped |
| Lifecycle.ActiveSamePort | src-tauri/src/portforward.rs:273-289 | when two registered forwards are Active on one port, one of their runners has already returned |
| Lifecycle.SecondStartWhileStarting | src-tauri/src/portforward.rs:129-148 | a second start on a port whose first forward is still Starting is accepted, giving two entries on one port |
| Lifecycle.TwoActiveOnOnePort | src-tauri/src/portforward.rs:129-289 | after a runner binds, fails its client set-up and releases the port, a second forward on the same port becomes Active, so two Active entries share one port |
| Quantity.ParseCpuQuantity | src-tauri/src/kubernetes.rs:2540-2552 | after trimming, "m" is checked before "n": millicores are read as given and nanocores are divided by 1,000,000 truncating, a bad number before either suffix reading 0; a plain integer of cores the double holds exactly is multiplied by 1000 |
| Quantity.CpuExactFitsI64 | src-tauri/src/kubernetes.rs:2549-2551 | every core count the double holds exactly still fits a 64-bit integer after multiplying by 1000 |
| Quantity.CpuOfRenderedMillis | src-tauri/src/kubernetes.rs:2542-2544 | a rendered 64-bit integer with "m" reads back as itself |
| Quantity.CpuOfRenderedNanos | src-tauri/src/kubernetes.rs:2545-2547 | a rendered integer with "n" reads back as its truncated quotient by one million |
| Quantity.CpuOfRenderedCores | src-tauri/src/kubernetes.rs:2549-2551 | a rendered plain integer reads back as a thousand times itself |
| Quantity.UnitOf | src-tauri/src/kubernetes.rs:2557-2584 | the chosen unit's suffix ends the quantity, and plain bytes are chosen only when no unit suffix ends it |
| Quantity.UnitUnique | src-tauri/src/kubernetes.rs:2557-2584 | any unit suffix that ends a quantity is the one chosen, so the order in which suffixes are tested does not matter |
| Quantity.ParseMemoryQuantity | src-tauri/src/kubernetes.rs:2555-2588 | after trimming, when a unit suffix ends the quantity, the number before it read as a 64-bit integer (0 when that fails) times the unit's factor: 1024 to the power 1 to 4 for Ki to Ti, 1000 to the power 1 to 4 for k to T; with no unit suffix, the whole quantity read as a 64-bit integer, or 0 |
| Quantity.UnitOfRendered | src-tauri/src/kubernetes.rs:2557-2584 | a number ending in a digit followed by a unit's suffix is read with that unit |
| Quantity.MemoryOfRendered | src-tauri/src/kubernetes.rs:2555-2588 | a rendered integer with any unit suffix reads back as the integer times the unit's factor |
| Quantity.DecimalReadsZero | src-tauri/src/kubernetes.rs:2555-2588 | a decimal amount such as "1.5Gi" reads as 0 |
| Quantity.LargeBinaryUnitsReadZero | src-tauri/src/kubernetes.rs:2555-2588 | "Pi" and "Ei" amounts read as 0 |
| Quantity.UnknownUnitReadsZero | src-tauri/src/kubernetes.rs:2555-2588 | an amount with an unknown binary prefix reads as 0 |
| Quantity.NotAnInteger | src-tauri/src/kubernetes.rs:2555-2588 | a number with a non-digit after its first digit does not parse |
| Summaries.FormatAge | src-tauri/src/kubernetes.rs:2517-2537 | a missing timestamp gives "Unknown" and only then; otherwise the age is written in days, hours or minutes with truncating division, whichever is the largest unit that fits, else in seconds |
| Summaries.AgeUnitIsLargestNonzero | src-tauri/src/kubernetes.rs:2526-2534 | the unit of a non-negative age is the largest one with a nonzero count |
| Summaries.ClassifyJob | src-tauri/src/kubernetes.rs:1317-1330 | with completions defaulting to 1 and counts to 0, a job is exactly one of Complete, Failed, Running and Pending, in that precedence |
| Summaries.JobDefaults | src-tauri/src/kubernetes.rs:1317-1330 | a job with no status is Pending, and one success out of one default completion is Complete |
| Summaries.ContainerStateName | src-tauri/src/kubernetes.rs:2453-2468 | running beats waiting beats terminated; waiting and terminated give their reason or their own name; no status or no state gives "Unknown" |
| Summaries.RunningWins | src-tauri/src/kubernetes.rs:2457-2458 | a running container is "Running" whatever else its state holds |
| Summaries.NodeStatus | src-tauri/src/kubernetes.rs:2093-2110 | the status ends in ",SchedulingDisabled" exactly when the node is marked unschedulable; before that it is "Ready", "NotReady" or "Unknown": "Unknown" exactly when no condition has type Ready, and "Ready" exactly when the first such condition has status "True" |
| Summaries.NodeReadyIff | src-tauri/src/kubernetes.rs:2093-2110 | a node reads "Ready" exactly when its first Ready condition has status "True" and it is schedulable |
| Summaries.NodeRoles | src-tauri/src/kubernetes.rs:2076-2125 | the roles are the label keys with the role prefix stripped, or "<none>" when no key has the prefix |
| Summaries.ControlPlaneRole | src-tauri/src/kubernetes.rs:2076-2090 | a control-plane label gives the role "control-plane" and other labels are ignored |
| Seqs.CountWhere | src-tauri/src/kubernetes.rs:2360-2415 | the count is 0 exactly when no item qualifies and the length exactly when all do |
| Summaries.TallyOf | src-tauri/src/kubernetes.rs:2360-2400 | ok plus fail is the number of items, and fail is 0 exactly when every item is ok |
| Summaries.PulseCounts | src-tauri/src/kubernetes.rs:2360-2415 | each ok count is the number of items of its kind that pass that kind's health test, and for pods and the four workload kinds ok plus fail is the item count; job ok and job fail count completed and failed jobs separately |
| Summaries.JobCountsIndependent | src-tauri/src/kubernetes.rs:2404-2415 | one job can count as both ok and failed, and a job with no status counts as neither |
| Summaries.CrossAt | src-tauri/src/kubernetes.rs:1583-1611 | one endpoint per address and port, addresses in the outer loop and ports in the inner one: the pair of address i and port j sits at i times the port count plus j |
| Summaries.SubsetEndpoints | src-tauri/src/kubernetes.rs:1578-1612 | a subset gives one endpoint per (address, port) pair, ready addresses first: each entry carries its address's ip, pod and node names and its port's number and protocol (TCP by default), and is ready exactly when it falls in the first group |
| Summaries.ServiceEndpoints | src-tauri/src/kubernetes.rs:1571-1616 | a failed endpoints lookup gives no endpoints; otherwise the subsets are flattened in order |
| Summaries.FlattenConcat | src-tauri/src/kubernetes.rs:1578-1614 | flattening two runs of subsets one after the other gives their endpoints one after the other |
| Summaries.PortlessSubset | src-tauri/src/kubernetes.rs:1578-1612 | a subset without ports gives no endpoints |
| ShellEnv.Lines | src-tauri/src/lib.rs:30 | no line contains a newline, and empty output has no lines |
| ShellEnv.LinesOfTerminated | src-tauri/src/lib.rs:30 | splitting newline-terminated lines gives back exactly those lines |
| ShellEnv.ParseLine | src-tauri/src/lib.rs:32-44 | an accepted line is key "=" value with the key before the first "=", 1 to 63 bytes long, made of ASCII letters, digits and "_", and not PWD, _, SHLVL or OLDPWD; a line without "=" is skipped |
| ShellEnv.ParseLineRoundTrip | src-tauri/src/lib.rs:32-44 | a valid key joined to any value, even one holding "=", is read back as that key and value |
| ShellEnv.LongKeyRejected | src-tauri/src/lib.rs:33 | a key of 64 characters or more is skipped |
| ShellEnv.Accepted | src-tauri/src/lib.rs:29-47 | the accepted pairs are exactly the parses of the lines that pass every filter, one per such line |
| ShellEnv.AcceptedAppend | src-tauri/src/lib.rs:29-47 | lines are read in order: one more line appends its pair at the end exactly when it sets a variable |
| ShellEnv.SetAll | src-tauri/src/lib.rs:42 | setting the pairs defines exactly the old variables plus the keys set |
| ShellEnv.SetAllLastWins | src-tauri/src/lib.rs:42 | a variable ends with the value of its last assignment, or keeps its old value when never assigned |
| ShellEnv.ProtectedUntouched | src-tauri/src/lib.rs:37-39 | PWD, _, SHLVL and OLDPWD keep their values whatever the shell prints |
| ShellEnv.ShellToRun | src-tauri/src/lib.rs:18-66 | the SHELL variable wins, else /bin/zsh on macOS and /bin/bash on Linux |
| ShellEnv.FixPathEnv | src-tauri/src/lib.rs:14-106 | on Windows nothing changes; a failed shell or non-UTF-8 output changes nothing; otherwise the accepted pairs are set and their number is reported |
| ShellEnv.MacAndLinuxAgree | src-tauri/src/lib.rs:14-102 | the macOS and Linux variants import the same variables and report the same count; only the default shell differs |
| Windows.Sanitize | src-tauri/src/commands.rs:463-464 | each ".", "/", "\" and space becomes "-", and every other character is kept in place |
| Windows.SanitizeClean | src-tauri/src/commands.rs:463-464 | the result holds no separator, and sanitising twice equals sanitising once |
| Windows.SanitizeIdentity | src-tauri/src/commands.rs:463-464 | a text without separators is left unchanged |
| Windows.DetailLabel | src-tauri/src/commands.rs:460-465 | "detail-", then the resource type unsanitised, then the sanitised namespace and name, each after a "-" |
| Windows.DetailLabelSanitized | src-tauri/src/commands.rs:460-465 | only the resource type can put a separator into a detail label: sanitising the label equals building it from the sanitised type |
| Windows.TerminalLabel | src-tauri/src/commands.rs:520-533 | "terminal-", the sanitised namespace, "-", the sanitised pod, and "-" with the sanitised container only when one is given |
| Windows.TerminalLabelClean | src-tauri/src/commands.rs:520-533 | a terminal label holds no ".", "/", "\" or space, whatever the namespace, pod and container hold |
| Windows.DetailTitle | src-tauri/src/commands.rs:484-493 | the resource type with only its first character capitalised (empty stays empty), then ": ", the name, and the context and namespace in parentheses separated by "/" |
| Windows.TerminalTitle | src-tauri/src/commands.rs:561-565 | the container appears in parentheses only when given |
| Windows.OpenOrFocus | src-tauri/src/commands.rs:467-508 | an existing label is focused and nothing is created; otherwise a window is created, or the build error is returned and nothing changes |
| Windows.OpenResourceDetail | src-tauri/src/commands.rs:451-509 | an existing detail window is focused with no change; success leaves the detail label open; no open window is altered |
| Windows.OpenTerminal | src-tauri/src/commands.rs:511-540 | an existing terminal window is focused with no change; success leaves the terminal label open; no open window is altered |
| Windows.OpenDetailTwice | src-tauri/src/commands.rs:467-472 | opening the same detail twice only focuses the first window the second time |
| Windows.DetailIgnoresContext | src-tauri/src/commands.rs:460-472 | the detail label does not include the context, so the same resource in another cluster focuses the open window |
| Windows.DetailLabelsCollide | src-tauri/src/commands.rs:460-465 | different resources can share a label, because separators are not escaped and different characters sanitise to "-" |
| Sorting.ToggleSort | src/lib/utils/sort.ts:10-15 | the result is always on the asked field: on the current field the direction flips, on another field it is ascending |
| Sorting.ToggleTwice | src/lib/utils/sort.ts:10-15 | toggling the current field twice restores the state; toggling a new field twice gives descending |
| Sorting.GetPathConcat | src/lib/utils/sort.ts:48-50 | looking up a dotted path equals looking up its prefix and then the rest |
| Sorting.PlainFieldLookup | src/lib/utils/sort.ts:48-50 | a field without dots reads the object's own property, or undefined |
| Sorting.MatchUnitIsLeftmost | src/lib/utils/sort.ts:56-59 | a unit is found exactly when some run of digits is followed by it, and the number read is that of the leftmost such run |
| Sorting.ParseAge | src/lib/utils/sort.ts:52-67 | the total counts at least the first day match times 86400 and the first seconds match |
| Sorting.AgeWithoutNumberIsZero | src/lib/utils/sort.ts:52-67 | a string without digits reads as 0 seconds |
| Sorting.AgeExamples | src/lib/utils/sort.ts:52-67 | "5d" reads 432000 and "2h30m" reads 9000 |
| Sorting.ParseFormattedAge | src/lib/utils/sort.ts:52-67 | reading back an age label gives the age rounded down to the label's unit |
| Sorting.FormattedAgeWithinUnit | src/lib/utils/sort.ts:52-67 | the read-back age is at most the true age and less than one label unit below it |
| Sorting.FormattedAgeOrder | src/lib/utils/sort.ts:33-67 | sorting by age labels never puts an older resource before a younger one |
| Sorting.NegativeAgeReadsPositive | src/lib/utils/sort.ts:52-67 | a negative age label such as "-5s" reads as 5 seconds |
| Sorting.Compare | src/lib/utils/sort.ts:18-45 | two nullish values tie and a nullish value goes last ascending and first descending; two numbers tie exactly when equal and otherwise order by value in the chosen direction; on an age field other values order by parsed seconds; all else orders by lower-case printed form, tying exactly when those are equal |
| Sorting.CompareAntisymmetric | src/lib/utils/sort.ts:18-45 | the comparator is antisymmetric, and descending is ascending negated |
| Sorting.CompareNullish | src/lib/utils/sort.ts:23-25 | null and undefined compare after every value ascending and before it descending |
| Sorting.CompareNumbers | src/lib/utils/sort.ts:28-30 | two numbers compare by value, in the chosen direction |
| Sorting.CompareAges | src/lib/utils/sort.ts:33-37 | on an age field, non-numbers compare by their parsed seconds |
| Sorting.CompareIgnoresCase | src/lib/utils/sort.ts:39-44 | other values compare by their lower-case printed form |
| Sorting.SortData | src/lib/utils/sort.ts:17-18 | the result is a permutation of the input, and the input itself is not changed |
| Sorting.SortDataOrdered | src/lib/utils/sort.ts:17-46 | neighbours in the result are in comparator order; already ordered data is returned as it is; sorting twice equals sorting once |
| Sorting.NullsLastAscending | src/lib/utils/sort.ts:23-25 | ascending, every null or undefined value comes after all present ones |
| Sorting.NullsFirstDescending | src/lib/utils/sort.ts:23-25 | descending, every null or undefined value comes before all present ones |
| Sorting.NumbersSorted | src/lib/utils/sort.ts:28-30 | when every value is a number the result is non-decreasing ascending and non-increasing descending |
| Search.FilterBySearch | src/lib/stores/search.ts:46-63 | a blank query keeps every row; otherwise each row is kept, as often as it occurs, exactly when a listed field matches the lower-cased untrimmed query |
| Search.FilterBySearchIsSubsequence | src/lib/stores/search.ts:53 | the kept rows keep their order |
| Search.FilterBySearchIdempotent | src/lib/stores/search.ts:53-62 | filtering twice with the same query and fields equals filtering once |
| Search.StringHitKept | src/lib/stores/search.ts:52-61 | a row whose string field contains the query, ignoring case, is kept |
| Search.FieldMatches | src/lib/stores/search.ts:54-61 | a missing, null or undefined field never matches; a string field matches exactly when its lower-cased text contains the query; an array matches exactly when some element's lower-cased printed form contains it, so one holding null matches every query contained in "null" |
| Search.EveryKindSearchedByName | src/lib/stores/search.ts:134-151 | all eighteen resource kinds are searched, each first by name |
| Search.GlobalSearch | src/lib/stores/search.ts:131-152 | there are no results exactly when the query is blank; otherwise there is one sub-list per kind, each that kind's rows filtered by the query on that kind's search fields |
| Search.FoundByName | src/lib/stores/search.ts:131-152 | a resource whose name holds the query shows up in its kind's results |
| Search.CountResults | src/lib/stores/search.ts:157-179 | no results count 0 |
| Search.CountZero | src/lib/stores/search.ts:157-179 | the count is 0 exactly when there are no results or every list is empty |
| Search.CountBounded | src/lib/stores/search.ts:131-179 | the count is 0 for a blank query and never exceeds the number of loaded rows |
| Seqs.FilterIsSubsequence | src/lib/stores/search.ts:53 | a filter keeps the order of what it keeps |
| Seqs.FilterIdempotent | src/lib/stores/search.ts:53 | filtering a filtered list again changes nothing |
| Startup.InitialChecksShape | src/lib/stores/startup.ts:10-16 | five checks with distinct ids in a fixed order, all pending |
| Startup.UpdateCheck | src/lib/stores/startup.ts:21-25 | length, order, ids and titles are kept; entries with another id are unchanged; an entry with the id takes the new status, and the new message when one is given, else keeps its own |
| Startup.UpdateCheckIdempotent | src/lib/stores/startup.ts:21-25 | applying the same update twice equals applying it once |
| Startup.MarkFailed | src/lib/stores/startup.ts:96-101 | every running check becomes failed with the error message, the others are unchanged, and nothing is left running |
| Startup.Progress | src/lib/stores/startup.ts:107-110 | the share of successful checks, as a percentage rounded half up, at most 100 |
| Startup.ProgressOfFive | src/lib/stores/startup.ts:107-110 | with five checks the progress is 20 times the number of successes |
| Startup.CurrentCheck | src/lib/stores/startup.ts:112-114 | the empty string when nothing is running |
| Startup.CurrentCheckIsFirstRunning | src/lib/stores/startup.ts:112-114 | the title of the first running check |
| Startup.RunStartup | src/lib/stores/startup.ts:31-105 | start-up succeeds exactly when there is no error; outside Tauri it fails at once with the list untouched |
| Startup.RunStartupOutcome | src/lib/stores/startup.ts:31-114 | the checks before the first failing step succeed; that step fails with the error; later steps stay pending; progress is 20 per success and nothing is left running |
| ThemeStore.InitialTheme | src/lib/stores/theme.ts:10-20 | a stored value is used only when it names a theme exactly; otherwise, and without a window, the theme is "system" |
| ThemeStore.PersistRoundTrip | src/lib/stores/theme.ts:10-68 | a persisted theme is read back unchanged |
| ThemeStore.SystemAppearance | src/lib/stores/theme.ts:23-31 | light only with a window whose system does not prefer dark |
| ThemeStore.Resolve | src/lib/stores/theme.ts:37-61 | light and dark resolve to themselves; system resolves to the system appearance |
| ThemeStore.ResolveFollowsSystem | src/lib/stores/theme.ts:43-55 | a system change shows at once while following the system and is ignored otherwise |
| ThemeStore.ToggleTheme | src/lib/stores/theme.ts:92-100 | the result is never "system"; light and dark swap; the applied appearance always changes |
| ThemeStore.ToggleTwice | src/lib/stores/theme.ts:92-100 | toggling twice restores a fixed theme, and from "system" lands on what the system shows |
| KubeStore.FilteredPods | src/lib/stores/kubernetes.ts:695-701 | no selection or an empty one shows every pod; otherwise exactly the pods of that namespace, each as often as it occurs |
| KubeStore.FilteredPodsOrder | src/lib/stores/kubernetes.ts:695-701 | the shown pods keep their order, and filtering again changes nothing |
| KubeStore.FilteredPodsOfEmptyNamespace | src/lib/stores/kubernetes.ts:698-699 | a namespace without pods shows none |
| KubeStore.PodsByStatus | src/lib/stores/kubernetes.ts:703-711 | "all" is the pod list, and each bucket holds only pods of its status |
| KubeStore.BucketsPartition | src/lib/stores/kubernetes.ts:703-711 | every pod of a bucket's status is in that bucket; buckets are pairwise disjoint; other statuses are in none; buckets keep pod order |
| KubeStore.BucketsFit | src/lib/stores/kubernetes.ts:703-711 | the four buckets together hold no more pods than the list |
| KubeStore.TriggerRefresh | src/lib/stores/kubernetes.ts:291-293 | only the refresh counter moves, upward |
| KubeStore.RefreshNeverFalls | src/lib/stores/kubernetes.ts:291-293 | the refresh counter never decreases and rises by at least one per refresh |
| KubeStore.LoadPods | src/lib/stores/kubernetes.ts:376-387 | without a current context nothing changes; otherwise the pods or the error are stored and loading ends |
| KubeStore.LoadNamespaces | src/lib/stores/kubernetes.ts:366-374 | without a current context nothing changes; otherwise the namespaces are stored on success |
| KubeStore.NothingLoadedWithoutContext | src/lib/stores/kubernetes.ts:329-387 | without a context and without poll ticks, no pods or namespaces ever appear |
| KubeStore.StartPolling | src/lib/stores/kubernetes.ts:298-316 | starting while already polling changes nothing; otherwise one interval is created |
| KubeStore.StopPolling | src/lib/stores/kubernetes.ts:318-323 | after stopping, nothing is polling |
| KubeStore.Tick | src/lib/stores/kubernetes.ts:301-315 | an error, the same context or an empty one changes nothing; a new non-empty context is adopted, the namespace selection is cleared and a refresh is triggered |
| KubeStore.TickKeepsReady | src/lib/stores/kubernetes.ts:301-315 | a poll tick never loses a known context |
| KubeStore.NeverTwoTimers | src/lib/stores/kubernetes.ts:298-323 | at most one polling interval is ever live |
| JsValues.JsString | src/lib/utils/sort.ts:34-41 | strings print as themselves, integers in decimal, null as "null", undefined as "undefined", an empty array as "" |
| JsValues.SingletonPrintsLikeElement | src/lib/stores/search.ts:58-60 | a one-element array prints like its element |
| JsValues.NullElementPrintsEmpty | src/lib/stores/search.ts:58 | a null element prints as "null" on its own but as "" inside an array |
| Text.NatToStringRoundTrip | src-tauri/src/kubernetes.rs:2526-2534 | the decimal rendering of a number reads back as that number |
| Text.ParseI64 | src-tauri/src/kubernetes.rs:2543-2551 | a parsed value lies in the 64-bit range, a digit string in range reads as its value, and the empty string does not parse |
| Text.ParseI64OfIntToString | src-tauri/src/kubernetes.rs:2543-2551 | every rendered 64-bit integer parses back to itself |
| Text.TruncDiv | src-tauri/src/kubernetes.rs:2547 | division rounds toward zero: for a non-negative dividend q*b <= a < (q+1)*b, and for a negative one (q-1)*b < a <= q*b |
| Text.SplitJoin | src/lib/utils/sort.ts:49 | splitting a path on a separator and joining it back gives the path |
| Text.LessThanTotal | src/lib/utils/sort.ts:42-44 | of two different strings one is less than the other |

## Left out

- Sockets, spawned tasks, `tokio::select!`, the `RwLock` and the oneshot channels of the port forwarder. The probe, the bind, the client set-up and the cluster's answers are step inputs.
- Lifecycle.NextKeepsInv: a start is one atomic step. In the source its active-port check (portforward.rs lines 129-140), port probe (line 143), target resolution (lines 151-157) and insertion (lines 182-189) are separate sections, and stops, completions or other starts can run between them. Those interleavings are not modelled. Stop, stop-all and the runner's status updates are each one lock-protected section and one step.
- Fresh forward ids. The UUID is an input, and a start with an id already used is treated as impossible.
- The Kubernetes API calls, kubeconfig reading, client construction, YAML and JSON handling. Resources are small records with optional fields.
- `src-tauri/src/watch.rs` and `src-tauri/src/pty.rs`. They are event streaming and process management. They are not part of this model.
- `src/lib/stores/portforward.ts`. It holds thin wrappers over back-end calls. It is not part of this model.
- The `get_*`/`list_*` field mappers, `src-tauri/src/error.rs` and the Tauri command wrappers. They only copy fields.
- Quantity.ParseCpuQuantity: the floating-point branch for decimal core counts is an input (`floatCores`). Only integers the double holds exactly are stated.
- Quantity.ParseMemoryQuantity: the product is unbounded. The `i64` overflow of large amounts times a unit factor is not modelled.
- Sorting.ParseAge: its contract gives lower bounds on the total only. What each unit's match reads is stated by Sorting.MatchUnitIsLeftmost.
- Summaries.FormatAge: the clock read is left out. The age is an input.
- Unicode case mapping, `toLowerCase` and `to_uppercase` are modelled on ASCII only. UTF-16 code-unit order in string comparison is modelled as character order.
- URL encoding of window URLs, window sizes and window building. The build result is an input.
- JavaScript numbers are integers in the model. Floating-point values, `NaN` and `Infinity` are left out.
- Startup.Progress: a list with no checks gives no value, where the source computes `NaN`.
- Sorting.SortData: the comparator is run through a stable insertion sort. The engine's own algorithm is not modelled. The `age` comparison of non-numbers is used as the source writes it.
- Sorting.GetPath: a path step into a primitive or an array reads as undefined. JavaScript's property lookup on strings and arrays (such as `length`) is not modelled.
- ShellEnv.FixPathEnv: `std::env::set_var` is modelled as a map update. Its platform panics are not modelled, and neither is the reading of the process's own variables.
- Lifecycle.NextKeepsInv: a client failure is allowed at any point while a runner listens. This over-approximates when the source can fail.
- Summaries.PulseCounts: `usize` counts converted to `i32` are treated as unbounded.
- KubeStore.Tick: the reloads a tick starts (`loadContexts`, `loadNamespaces`) are separate steps. The promise scheduling between them is not modelled.
- Startup.RunStartup: the step delays and the promise scheduling are left out. Each step's back-end answer is an input.
- The DOM class changes, `localStorage` writes and `matchMedia` listeners of the theme store. Their values are inputs.

=== FILE: cluster.dfy ===
/** The cluster as the port-forward code sees it: small records holding only
    the fields src-tauri/src/portforward.rs reads from the Kubernetes `Pod`
    and `Service` objects, and the answers of the cluster queries for one
    (context, namespace) pair. The queries themselves (the `kube` client,
    the kubeconfig) are not modelled; their outcomes are inputs. */
module Cluster {
  import opened Wrappers
  import opened Seqs

  /** A TCP/UDP port number, the range of Rust's `u16`. */
  type Port = p: int | 0 <= p < 0x1_0000

  /** Rust's `i32 as u16`: keeps the low 16 bits (Dafny's `%` is Euclidean,
      which is exactly two's-complement truncation for negatives too). */
  function AsU16(x: int): (p: Port)
    ensures 0 <= x < 0x1_0000 ==> p == x
  {
    x % 0x1_0000
  }

  datatype ContainerPort = ContainerPort(containerPort: int, name: Option<string>, protocol: Option<string>)

  datatype Container = Container(ports: Option<seq<ContainerPort>>)

  datatype PodSpec = PodSpec(containers: seq<Container>)

  /** A pod: `metadata.name`, `metadata.labels`, `status.phase` (absent when
      `status` is absent) and `spec`. */
  datatype Pod = Pod(name: Option<string>, labels: map<string, string>, phase: Option<string>, spec: Option<PodSpec>)

  /** `IntOrString` of a service's `targetPort`. */
  datatype IntOrString = IntPort(number: int) | NamedPort(portName: string)

  datatype ServicePort = ServicePort(name: Option<string>, port: int, targetPort: Option<IntOrString>, protocol: Option<string>)

  datatype ServiceSpec = ServiceSpec(selector: Option<map<string, string>>, ports: Option<seq<ServicePort>>)

  datatype Service = Service(name: string, spec: Option<ServiceSpec>)

  /** What the cluster answers, for one context and namespace:
      whether a client could be built from the kubeconfig, the services and
      pods it holds (pods in the order a list returns them), and whether
      pod list calls succeed. */
  datatype Namespace = Namespace(clientOk: bool, services: seq<Service>, pods: seq<Pod>, podListOk: bool)

  /** The error kinds the port-forward code reports (all are
      `AppError::Custom` messages or client errors in the source). */
  datatype AppError =
    | ClientError
    | ServiceNotFound(service: string)
    | NoSelector(service: string)
    | PodListFailed
    | NoRunningPod(service: string)
    | PodNotFound(pod: string)
    | PortForwardedByApp(port: Port)
    | PortInUseBySystem(port: Port)
    | ForwardNotFound(id: string)

  /** `Api::get` by name: the first object carrying that name. */
  function FindService(services: seq<Service>, name: string): (r: Option<Service>)
    ensures r.Some? ==> r.value in services && r.value.name == name
    ensures r.None? ==> forall i :: 0 <= i < |services| ==> services[i].name != name
  {
    if |services| == 0 then None
    else if services[0].name == name then Some(services[0])
    else FindService(services[1..], name)
  }

  function FindPod(pods: seq<Pod>, name: string): (r: Option<Pod>)
    ensures r.Some? ==> r.value in pods && r.value.name == Some(name)
    ensures r.None? ==> forall i :: 0 <= i < |pods| ==> pods[i].name != Some(name)
  {
    if |pods| == 0 then None
    else if pods[0].name == Some(name) then Some(pods[0])
    else FindPod(pods[1..], name)
  }

  /** Label-equality selection: every selector label is on the pod with the
      same value. The empty selector selects every pod. */
  predicate Selects(selector: map<string, string>, p: Pod) {
    forall k :: k in selector ==> k in p.labels && p.labels[k] == selector[k]
  }

  /** A pod list with a label selector: the selected pods, in list order. */
  function SelectPods(pods: seq<Pod>, selector: map<string, string>): (r: seq<Pod>)
    ensures |r| <= |pods|
    ensures forall p :: p in r <==> p in pods && Selects(selector, p)
    ensures SubsequenceOf(r, pods)
    ensures forall p :: multiset(r)[p] == if Selects(selector, p) then multiset(pods)[p] else 0
  {
    if |pods| == 0 then []
    else
      var rest := SelectPods(pods[1..], selector);
      assert pods == [pods[0]] + pods[1..];
      if Selects(selector, pods[0]) then
        assert ([pods[0]] + rest)[1..] == rest;
        [pods[0]] + rest
      else
        assert |rest| > 0 ==> rest[0] in rest && rest[0] != pods[0];
        rest
  }
}

=== FILE: forward_stats.dfy ===
/** Per-forward connection statistics (`ForwardStats` in
    src-tauri/src/portforward.rs) and the byte accounting of one proxied
    connection (`handle_connection`).

    The source keeps four atomic counters (`AtomicUsize` for active
    connections, `AtomicU64` for the rest) updated with relaxed
    `fetch_add` / `fetch_sub`, which wrap modulo 2^64 on a 64-bit target.
    Every update is a single commutative addition, so concurrent proxies are
    modelled as an interleaved sequence of events applied one at a time. */
module ForwardStats {

  const Modulus: int := 0x1_0000_0000_0000_0000

  /** A 64-bit unsigned counter value. */
  type Counter = x: int | 0 <= x < Modulus

  /** `fetch_add(delta)` (or `fetch_sub` with a negative delta) on a 64-bit atomic. */
  function Wrap(x: int): Counter {
    x % Modulus
  }

  datatype Stats = Stats(active: Counter, total: Counter, sent: Counter, received: Counter)

  /** `ForwardStats::new`. */
  const Fresh: Stats := Stats(0, 0, 0, 0)

  /** `connection_opened`: one more active and one more total connection. */
  function Opened(s: Stats): (r: Stats)
    ensures s.active < Modulus - 1 ==> r.active == s.active + 1
    ensures s.total < Modulus - 1 ==> r.total == s.total + 1
    ensures s.active == Modulus - 1 ==> r.active == 0
    ensures s.total == Modulus - 1 ==> r.total == 0
    ensures r.sent == s.sent && r.received == s.received
  {
    s.(active := Wrap(s.active + 1), total := Wrap(s.total + 1))
  }

  /** `connection_closed`: one fewer active connection; nothing else moves. */
  function Closed(s: Stats): (r: Stats)
    ensures s.active > 0 ==> r.active == s.active - 1
    ensures s.active == 0 ==> r.active == Modulus - 1
    ensures r.total == s.total && r.sent == s.sent && r.received == s.received
  {
    s.(active := Wrap(s.active - 1))
  }

  /** `add_bytes_sent`. */
  function AddSent(s: Stats, n: nat): (r: Stats)
    ensures s.sent + n < Modulus ==> r.sent == s.sent + n
    ensures s.sent < Modulus && n < Modulus && s.sent + n >= Modulus ==> r.sent == s.sent + n - Modulus
    ensures r.active == s.active && r.total == s.total && r.received == s.received
  {
    s.(sent := Wrap(s.sent + n))
  }

  /** `add_bytes_received`. */
  function AddReceived(s: Stats, n: nat): (r: Stats)
    ensures s.received + n < Modulus ==> r.received == s.received + n
    ensures s.received < Modulus && n < Modulus && s.received + n >= Modulus ==> r.received == s.received + n - Modulus
    ensures r.active == s.active && r.total == s.total && r.sent == s.sent
  {
    s.(received := Wrap(s.received + n))
  }

  /** Opening then closing a connection leaves the active count where it was. */
  lemma OpenedThenClosed(s: Stats)
    ensures Closed(Opened(s)).active == s.active
    ensures Closed(Opened(s)).total == Wrap(s.total + 1)
  {
    ModAddAssoc(s.active, 1, -1);
  }

  /** One counter update, as performed by one proxy or by the accept loop. */
  datatype Event = Open | Close | Sent(bytes: nat) | Received(bytes: nat)

  function Step(s: Stats, e: Event): Stats {
    match e
    case Open => Opened(s)
    case Close => Closed(s)
    case Sent(n) => AddSent(s, n)
    case Received(n) => AddReceived(s, n)
  }

  function ApplyAll(s: Stats, es: seq<Event>): Stats
    decreases |es|
  {
    if |es| == 0 then s else ApplyAll(Step(s, es[0]), es[1..])
  }

  function Opens(es: seq<Event>): nat {
    if |es| == 0 then 0 else (if es[0].Open? then 1 else 0) + Opens(es[1..])
  }

  function Closes(es: seq<Event>): nat {
    if |es| == 0 then 0 else (if es[0].Close? then 1 else 0) + Closes(es[1..])
  }

  function SentBytes(es: seq<Event>): nat {
    if |es| == 0 then 0 else (if es[0].Sent? then es[0].bytes else 0) + SentBytes(es[1..])
  }

  function ReceivedBytes(es: seq<Event>): nat {
    if |es| == 0 then 0 else (if es[0].Received? then es[0].bytes else 0) + ReceivedBytes(es[1..])
  }

  lemma ModAddAssoc(a: int, x: int, y: int)
    ensures Wrap(Wrap(a + x) + y) == Wrap(a + x + y)
  {
    var q := (a + x) / Modulus;
    assert Wrap(a + x) == a + x - q * Modulus;
    ModShift(a + x + y, q);
  }

  lemma ModShift(z: int, q: int)
    ensures (z - q * Modulus) % Modulus == z % Modulus
  {
    var r := z % Modulus;
    var d := z / Modulus;
    assert z == d * Modulus + r;
    assert z - q * Modulus == (d - q) * Modulus + r;
  }

  /** The counters after any sequence of events depend only on how many
      opens and closes it holds and how many bytes it adds in each direction:
      the order in which concurrent proxies touch the counters is invisible. */
  lemma ApplyAllClosedForm(s: Stats, es: seq<Event>)
    ensures ApplyAll(s, es) == Stats(
      Wrap(s.active + Opens(es) - Closes(es)),
      Wrap(s.total + Opens(es)),
      Wrap(s.sent + SentBytes(es)),
      Wrap(s.received + ReceivedBytes(es)))
  {
    ActiveClosedForm(s, es);
    TotalClosedForm(s, es);
    SentClosedForm(s, es);
    ReceivedClosedForm(s, es);
  }

  lemma {:induction false} ActiveClosedForm(s: Stats, es: seq<Event>)
    ensures ApplyAll(s, es).active == Wrap(s.active + Opens(es) - Closes(es))
    decreases |es|
  {
    if |es| > 0 {
      var rest := es[1..];
      ActiveClosedForm(Step(s, es[0]), rest);
      var d := if es[0].Open? then 1 else if es[0].Close? then -1 else 0;
      assert Step(s, es[0]).active == Wrap(s.active + d);
      ModAddAssoc(s.active, d, Opens(rest) - Closes(rest));
    }
  }

  lemma {:induction false} TotalClosedForm(s: Stats, es: seq<Event>)
    ensures ApplyAll(s, es).total == Wrap(s.total + Opens(es))
    decreases |es|
  {
    if |es| > 0 {
      var rest := es[1..];
      TotalClosedForm(Step(s, es[0]), rest);
      var d := if es[0].Open? then 1 else 0;
      assert Step(s, es[0]).total == Wrap(s.total + d);
      ModAddAssoc(s.total, d, Opens(rest));
    }
  }

  lemma {:induction false} SentClosedForm(s: Stats, es: seq<Event>)
    ensures ApplyAll(s, es).sent == Wrap(s.sent + SentBytes(es))
    decreases |es|
  {
    if |es| > 0 {
      var rest := es[1..];
      SentClosedForm(Step(s, es[0]), rest);
      var d := if es[0].Sent? then es[0].bytes else 0;
      assert Step(s, es[0]).sent == Wrap(s.sent + d);
      ModAddAssoc(s.sent, d, SentBytes(rest));
    }
  }

  lemma {:induction false} ReceivedClosedForm(s: Stats, es: seq<Event>)
    ensures ApplyAll(s, es).received == Wrap(s.received + ReceivedBytes(es))
    decreases |es|
  {
    if |es| > 0 {
      var rest := es[1..];
      ReceivedClosedForm(Step(s, es[0]), rest);
      var d := if es[0].Received? then es[0].bytes else 0;
      assert Step(s, es[0]).received == Wrap(s.received + d);
      ModAddAssoc(s.received, d, ReceivedBytes(rest));
    }
  }

  lemma {:induction false} CountsOfConcat(a: seq<Event>, b: seq<Event>)
    ensures Opens(a + b) == Opens(a) + Opens(b)
    ensures Closes(a + b) == Closes(a) + Closes(b)
    ensures SentBytes(a + b) == SentBytes(a) + SentBytes(b)
    ensures ReceivedBytes(a + b) == ReceivedBytes(a) + ReceivedBytes(b)
  {
    if |a| == 0 {
      assert a + b == b;
    } else {
      assert (a + b)[1..] == a[1..] + b;
      CountsOfConcat(a[1..], b);
    }
  }

  /** Two adjacent updates from different proxies may be swapped without
      changing the result: any interleaving of the same updates gives the
      same counters. */
  lemma SwapAdjacent(s: Stats, pre: seq<Event>, x: Event, y: Event, post: seq<Event>)
    ensures ApplyAll(s, pre + [x, y] + post) == ApplyAll(s, pre + [y, x] + post)
  {
    var t := ApplyAll(s, pre);
    TwoStepsCommute(t, x, y);
    ApplyAllConcat(s, pre, [x, y]);
    ApplyAllConcat(s, pre, [y, x]);
    ApplyAllConcat(s, pre + [x, y], post);
    ApplyAllConcat(s, pre + [y, x], post);
  }

  lemma TwoStepsCommute(t: Stats, x: Event, y: Event)
    ensures ApplyAll(t, [x, y]) == ApplyAll(t, [y, x])
  {
    var xy, yx := [x] + [y], [y] + [x];
    assert xy == [x, y] && yx == [y, x];
    CountsOfConcat([x], [y]);
    CountsOfConcat([y], [x]);
    assert Opens(xy) == Opens(yx) && Closes(xy) == Closes(yx);
    assert SentBytes(xy) == SentBytes(yx) && ReceivedBytes(xy) == ReceivedBytes(yx);
    ApplyAllClosedForm(t, xy);
    ApplyAllClosedForm(t, yx);
  }

  /** Applying two event sequences in turn is applying their concatenation. */
  lemma {:induction false} ApplyAllConcat(s: Stats, a: seq<Event>, b: seq<Event>)
    ensures ApplyAll(s, a + b) == ApplyAll(ApplyAll(s, a), b)
    decreases |a|
  {
    if |a| == 0 {
      assert a + b == b;
    } else {
      assert (a + b)[1..] == a[1..] + b;
      ApplyAllConcat(Step(s, a[0]), a[1..], b);
    }
  }

  function Repeat(e: Event, n: nat): (r: seq<Event>)
    ensures |r| == n && forall i :: 0 <= i < n ==> r[i] == e
  {
    if n == 0 then [] else [e] + Repeat(e, n - 1)
  }

  lemma {:induction false} CountsOfRepeat(e: Event, n: nat)
    ensures Opens(Repeat(e, n)) == (if e.Open? then n else 0)
    ensures Closes(Repeat(e, n)) == (if e.Close? then n else 0)
  {
    if n > 0 {
      CountsOfRepeat(e, n - 1);
    }
  }

  /** Accounting conservation: n accepted connections followed by their n
      completions restore the active count and raise the total by n. */
  lemma OpensThenCloses(s: Stats, n: nat)
    ensures ApplyAll(s, Repeat(Open, n) + Repeat(Close, n)).active == s.active
    ensures ApplyAll(s, Repeat(Open, n) + Repeat(Close, n)).total == Wrap(s.total + n)
    ensures ApplyAll(s, Repeat(Open, n) + Repeat(Close, n)).sent == s.sent
    ensures ApplyAll(s, Repeat(Open, n) + Repeat(Close, n)).received == s.received
  {
    var es := Repeat(Open, n) + Repeat(Close, n);
    ApplyAllClosedForm(s, es);
    CountsOfConcat(Repeat(Open, n), Repeat(Close, n));
    CountsOfRepeat(Open, n);
    CountsOfRepeat(Close, n);
    CountsOfRepeat0(Open, n);
    CountsOfRepeat0(Close, n);
  }

  lemma {:induction false} CountsOfRepeat0(e: Event, n: nat)
    ensures SentBytes(Repeat(e, n)) == (if e.Sent? then n * e.bytes else 0)
    ensures ReceivedBytes(Repeat(e, n)) == (if e.Received? then n * e.bytes else 0)
  {
    if n > 0 {
      CountsOfRepeat0(e, n - 1);
    }
  }

  /** The result of one `tokio::io::copy` direction. */
  datatype CopyResult = Copied(bytes: nat) | CopyFailed

  /** How one proxied connection ends: the tunnel could not be opened, or
      the `select!` was won by the client-to-server copy or by the
      server-to-client copy (the loser is dropped and never counted). */
  datatype ConnectionOutcome =
    | TunnelFailed
    | ClientToServerFirst(upload: CopyResult)
    | ServerToClientFirst(download: CopyResult)

  /** The byte updates `handle_connection` performs. */
  function ByteEvents(o: ConnectionOutcome): (es: seq<Event>)
    ensures |es| <= 1
    ensures forall i :: 0 <= i < |es| ==> es[i].Sent? || es[i].Received?
  {
    match o
    case ClientToServerFirst(Copied(n)) => [Sent(n)]
    case ServerToClientFirst(Copied(n)) => [Received(n)]
    case _ => []
  }

  /** All updates one accepted connection causes: the accept loop's
      `connection_opened`, the proxy's byte count, and the
      `connection_closed` that runs whatever the proxy returned. */
  function ConnectionEvents(o: ConnectionOutcome): (es: seq<Event>)
    ensures 2 <= |es| <= 3 && es[0] == Open && es[|es| - 1] == Close
    ensures Opens(es) == 1 && Closes(es) == 1
    ensures SentBytes(es) == if o.ClientToServerFirst? && o.upload.Copied? then o.upload.bytes else 0
    ensures ReceivedBytes(es) == if o.ServerToClientFirst? && o.download.Copied? then o.download.bytes else 0
  {
    var es := [Open] + ByteEvents(o) + [Close];
    CountsOfConcat([Open] + ByteEvents(o), [Close]);
    CountsOfConcat([Open], ByteEvents(o));
    es
  }

  /** One connection, served without interference: active is restored, the
      total grows by one, and at most one byte counter moves — the one of
      the direction that finished first with success. */
  lemma ServeOneConnection(s: Stats, o: ConnectionOutcome)
    ensures var r := ApplyAll(s, ConnectionEvents(o));
      && r.active == s.active
      && r.total == Wrap(s.total + 1)
      && (r.sent == s.sent || r.received == s.received)
      && r.sent == (if o.ClientToServerFirst? && o.upload.Copied? then Wrap(s.sent + o.upload.bytes) else s.sent)
      && r.received == (if o.ServerToClientFirst? && o.download.Copied? then Wrap(s.received + o.download.bytes) else s.received)
  {
    ApplyAllClosedForm(s, ConnectionEvents(o));
  }

  function Flatten(os: seq<ConnectionOutcome>): seq<Event> {
    if |os| == 0 then [] else ConnectionEvents(os[0]) + Flatten(os[1..])
  }

  /** Any number of connections served one after another: the active
      count comes back to where it started and the total grows by their
      number. */
  lemma {:induction false} ServeConnections(s: Stats, os: seq<ConnectionOutcome>)
    ensures ApplyAll(s, Flatten(os)).active == s.active
    ensures ApplyAll(s, Flatten(os)).total == Wrap(s.total + |os|)
  {
    ApplyAllClosedForm(s, Flatten(os));
    FlattenCounts(os);
  }

  lemma {:induction false} FlattenCounts(os: seq<ConnectionOutcome>)
    ensures Opens(Flatten(os)) == |os| && Closes(Flatten(os)) == |os|
  {
    if |os| > 0 {
      var o := os[0];
      FlattenCounts(os[1..]);
      CountsOfConcat(ConnectionEvents(o), Flatten(os[1..]));
      CountsOfConcat([Open] + ByteEvents(o), [Close]);
      CountsOfConcat([Open], ByteEvents(o));
    }
  }
}

=== FILE: js_values.dfy ===
/** The JavaScript values the front end's table utilities look at, and
    JavaScript's `String(value)` on them. Numbers are integers here; a plain
    object is a map from property name to value. */
module JsValues {
  import opened Text

  datatype Value =
    | Undefined
    | Null
    | Bool(b: bool)
    | Num(n: int)
    | Str(s: string)
    | Arr(items: seq<Value>)
    | Obj(fields: map<string, Value>)

  /** `value == null`: null or undefined. */
  predicate IsNullish(v: Value) {
    v == Null || v == Undefined
  }

  /** `String(value)`. An array prints its elements joined by ",", with
      null and undefined elements printed as the empty string. */
  function JsString(v: Value): (r: string)
    ensures v.Str? ==> r == v.s
    ensures v.Num? ==> r == IntToString(v.n)
    ensures v == Null ==> r == "null"
    ensures v == Undefined ==> r == "undefined"
    ensures v.Arr? && |v.items| == 0 ==> r == ""
    decreases v, 1
  {
    match v
    case Undefined => "undefined"
    case Null => "null"
    case Bool(b) => if b then "true" else "false"
    case Num(n) => IntToString(n)
    case Str(s) => s
    case Arr(items) => Join(items)
    case Obj(_) => "[object Object]"
  }

  /** `Array.prototype.join(",")`. */
  function Join(items: seq<Value>): (r: string)
    ensures |items| == 1 && !IsNullish(items[0]) ==> r == JsString(items[0])
    decreases items, 0
  {
    if |items| == 0 then ""
    else
      var head := if IsNullish(items[0]) then "" else JsString(items[0]);
      if |items| == 1 then head else head + "," + Join(items[1..])
  }

  /** A one-element array prints like its element, so `[x]` and `x` match
      the same searches and sort alike. */
  lemma SingletonPrintsLikeElement(v: Value)
    requires !IsNullish(v)
    ensures JsString(Arr([v])) == JsString(v)
  {
  }

  /** An array holding only null prints as the empty string, not "null". */
  lemma NullElementPrintsEmpty()
    ensures JsString(Arr([Null])) == ""
    ensures JsString(Null) == "null"
  {
  }
}

=== FILE: kube_store.dfy ===
/** The parts of the cluster store of src/lib/stores/kubernetes.ts that
    decide something: the pods shown for the selected namespace, the pods
    grouped by phase, the refresh counter, the readiness guard of the
    loaders and the context-polling timer. Back-end replies are inputs; a
    timer is counted, not run. */
module KubeStore {
  import opened Wrappers
  import opened Seqs

  /** The pod fields the store's derivations read. */
  datatype PodRow = PodRow(name: string, namespace: string, status: string)

  /** The store's state: the current context, the namespace selection, the
      loaded pods and namespaces, the refresh counter, the loading flag and
      error, and the polling handle with the number of live intervals. */
  datatype Store = Store(
    currentContext: string,
    selectedNamespace: Option<string>,
    pods: seq<PodRow>,
    namespaces: seq<string>,
    refresh: nat,
    isLoading: bool,
    error: Option<string>,
    polling: bool,
    timers: nat)

  const Initial: Store := Store("", None, [], [], 0, false, None, false, 0)

  /** `filteredPods`: without a selection (null or the empty string) every
      pod; otherwise the pods of the selected namespace, in order. */
  function FilteredPods(pods: seq<PodRow>, selected: Option<string>): (r: seq<PodRow>)
    ensures selected.None? || selected.value == "" ==> r == pods
    ensures selected.Some? && selected.value != "" ==>
      forall p :: multiset(r)[p] == if p.namespace == selected.value then multiset(pods)[p] else 0
  {
    if selected.None? || selected.value == "" then pods
    else Filter(pods, (p: PodRow) => p.namespace == selected.value)
  }

  /** The filtered list keeps the pods' order, and filtering it again by
      the same selection changes nothing. */
  lemma FilteredPodsOrder(pods: seq<PodRow>, selected: Option<string>)
    ensures SubsequenceOf(FilteredPods(pods, selected), pods)
    ensures FilteredPods(FilteredPods(pods, selected), selected) == FilteredPods(pods, selected)
  {
    if selected.None? || selected.value == "" {
      SubsequenceReflexive(pods);
    } else {
      FilterIsSubsequence(pods, (p: PodRow) => p.namespace == selected.value);
      FilterIdempotent(pods, (p: PodRow) => p.namespace == selected.value);
    }
  }

  /** Selecting a namespace no pod is in shows nothing. */
  lemma FilteredPodsOfEmptyNamespace(pods: seq<PodRow>, ns: string)
    requires ns != "" && forall i :: 0 <= i < |pods| ==> pods[i].namespace != ns
    ensures FilteredPods(pods, Some(ns)) == []
  {
    FilterNone(pods, (p: PodRow) => p.namespace == ns);
  }

  datatype Buckets = Buckets(
    all: seq<PodRow>,
    running: seq<PodRow>,
    pending: seq<PodRow>,
    failed: seq<PodRow>,
    succeeded: seq<PodRow>)

  function WithStatus(pods: seq<PodRow>, status: string): seq<PodRow> {
    Filter(pods, (p: PodRow) => p.status == status)
  }

  /** `podsByStatus`: every pod, and the pods of each of four phases. */
  function PodsByStatus(pods: seq<PodRow>): (b: Buckets)
    ensures b.all == pods
    ensures forall p :: p in b.running ==> p in pods && p.status == "Running"
    ensures forall p :: p in b.pending ==> p in pods && p.status == "Pending"
    ensures forall p :: p in b.failed ==> p in pods && p.status == "Failed"
    ensures forall p :: p in b.succeeded ==> p in pods && p.status == "Succeeded"
  {
    Buckets(pods, WithStatus(pods, "Running"), WithStatus(pods, "Pending"),
            WithStatus(pods, "Failed"), WithStatus(pods, "Succeeded"))
  }

  /** Each bucket holds every pod of its phase, in order; no pod is in two
      buckets; a pod of any other phase is in none. */
  lemma BucketsPartition(pods: seq<PodRow>)
    ensures var b := PodsByStatus(pods);
      && (forall p :: p in pods && p.status == "Running" ==> p in b.running)
      && (forall p :: p in pods && p.status == "Pending" ==> p in b.pending)
      && (forall p :: p in pods && p.status == "Failed" ==> p in b.failed)
      && (forall p :: p in pods && p.status == "Succeeded" ==> p in b.succeeded)
      && (forall p :: p in b.running ==> p !in b.pending && p !in b.failed && p !in b.succeeded)
      && (forall p :: p in b.pending ==> p !in b.failed && p !in b.succeeded)
      && (forall p :: p in b.failed ==> p !in b.succeeded)
      && (forall p: PodRow ::
            (p.status != "Running" && p.status != "Pending" && p.status != "Failed" && p.status != "Succeeded") ==>
            (p !in b.running && p !in b.pending && p !in b.failed && p !in b.succeeded))
      && SubsequenceOf(b.running, pods) && SubsequenceOf(b.pending, pods)
      && SubsequenceOf(b.failed, pods) && SubsequenceOf(b.succeeded, pods)
  {
    var b := PodsByStatus(pods);
    forall p | p in pods
      ensures p.status == "Running" ==> p in b.running
      ensures p.status == "Pending" ==> p in b.pending
      ensures p.status == "Failed" ==> p in b.failed
      ensures p.status == "Succeeded" ==> p in b.succeeded
    {
      assert multiset(pods)[p] > 0;
    }
    FilterIsSubsequence(pods, (p: PodRow) => p.status == "Running");
    FilterIsSubsequence(pods, (p: PodRow) => p.status == "Pending");
    FilterIsSubsequence(pods, (p: PodRow) => p.status == "Failed");
    FilterIsSubsequence(pods, (p: PodRow) => p.status == "Succeeded");
  }

  /** The four buckets together hold no more pods than there are. */
  lemma {:induction false} BucketsFit(pods: seq<PodRow>)
    ensures var b := PodsByStatus(pods);
      |b.running| + |b.pending| + |b.failed| + |b.succeeded| <= |pods|
    decreases |pods|
  {
    if |pods| > 0 {
      BucketsFit(pods[1..]);
    }
  }

  /** `triggerRefresh`: only the counter moves, by one. */
  function TriggerRefresh(s: Store): (r: Store)
    ensures r.refresh > s.refresh
    ensures r.(refresh := s.refresh) == s
  {
    s.(refresh := s.refresh + 1)
  }

  /** `isContextReady`. */
  predicate IsContextReady(s: Store) {
    s.currentContext != ""
  }

  /** `loadPods` with the back end's reply: nothing happens before a
      context is known; otherwise the pods or the error are stored and
      loading ends. */
  function LoadPods(s: Store, reply: Result<seq<PodRow>, string>): (r: Store)
    ensures !IsContextReady(s) ==> r == s
    ensures IsContextReady(s) && reply.Ok? ==> r == s.(pods := reply.value, isLoading := false)
    ensures IsContextReady(s) && reply.Err? ==> r == s.(error := Some(reply.error), isLoading := false)
  {
    if !IsContextReady(s) then s
    else
      match reply
      case Ok(list) => s.(pods := list, isLoading := false)
      case Err(e) => s.(error := Some(e), isLoading := false)
  }

  /** `loadNamespaces`: the same guard; it does not touch the loading flag. */
  function LoadNamespaces(s: Store, reply: Result<seq<string>, string>): (r: Store)
    ensures !IsContextReady(s) ==> r == s
    ensures r.isLoading == s.isLoading && r.pods == s.pods && r.currentContext == s.currentContext
    ensures IsContextReady(s) && reply.Ok? ==> r.namespaces == reply.value
  {
    if !IsContextReady(s) then s
    else
      match reply
      case Ok(list) => s.(namespaces := list)
      case Err(e) => s.(error := Some(e))
  }

  /** `startContextPolling`: a no-op while an interval exists. */
  function StartPolling(s: Store): (r: Store)
    ensures s.polling ==> r == s
    ensures r.polling
    ensures !s.polling ==> r == s.(polling := true, timers := s.timers + 1)
  {
    if s.polling then s else s.(polling := true, timers := s.timers + 1)
  }

  /** `stopContextPolling`: clears the interval, if any. */
  function StopPolling(s: Store): (r: Store)
    ensures !r.polling
    ensures !s.polling ==> r == s
  {
    if s.polling then s.(polling := false, timers := if s.timers > 0 then s.timers - 1 else 0) else s
  }

  /** One polling tick with the back end's current context: a different,
      non-empty context replaces the current one, clears the namespace
      selection and bumps the refresh counter; an error, the same context
      or an empty one changes nothing. (Reloading contexts and namespaces is
      a back-end call the model leaves out.) */
  function Tick(s: Store, current: Result<string, string>): (r: Store)
    ensures current.Err? ==> r == s
    ensures current.Ok? && (current.value == s.currentContext || current.value == "") ==> r == s
    ensures current.Ok? && current.value != s.currentContext && current.value != "" ==>
      && r.currentContext == current.value && r.selectedNamespace.None? && r.refresh == s.refresh + 1
  {
    match current
    case Ok(c) =>
      if c != s.currentContext && c != "" then
        TriggerRefresh(s.(currentContext := c, selectedNamespace := None))
      else s
    case Err(_) => s
  }

  /** A tick never loses a known context. */
  lemma TickKeepsReady(s: Store, current: Result<string, string>)
    requires IsContextReady(s)
    ensures IsContextReady(Tick(s, current))
  {
  }

  datatype Op =
    | Refresh
    | StartPoll
    | StopPoll
    | PollTick(current: Result<string, string>)
    | Pods(reply: Result<seq<PodRow>, string>)
    | Namespaces(names: Result<seq<string>, string>)
    | SelectNamespace(ns: Option<string>)

  /** One event; a tick happens only while an interval is live. */
  function Step(s: Store, op: Op): Store {
    match op
    case Refresh => TriggerRefresh(s)
    case StartPoll => StartPolling(s)
    case StopPoll => StopPolling(s)
    case PollTick(current) => if s.polling then Tick(s, current) else s
    case Pods(reply) => LoadPods(s, reply)
    case Namespaces(names) => LoadNamespaces(s, names)
    case SelectNamespace(ns) => s.(selectedNamespace := ns)
  }

  function Run(s: Store, ops: seq<Op>): Store
    decreases |ops|
  {
    if |ops| == 0 then s else Run(Step(s, ops[0]), ops[1..])
  }

  /** At most one polling interval is ever live: exactly one while polling,
      none otherwise. */
  ghost predicate OneTimer(s: Store) {
    s.timers == if s.polling then 1 else 0
  }

  lemma StepKeepsOneTimer(s: Store, op: Op)
    requires OneTimer(s)
    ensures OneTimer(Step(s, op))
  {
  }

  lemma {:induction false} RunKeepsOneTimer(s: Store, ops: seq<Op>)
    requires OneTimer(s)
    ensures OneTimer(Run(s, ops))
    decreases |ops|
  {
    if |ops| > 0 {
      StepKeepsOneTimer(s, ops[0]);
      RunKeepsOneTimer(Step(s, ops[0]), ops[1..]);
    }
  }

  /** From the initial store, however often polling is started and
      stopped, at most one interval is live. */
  lemma NeverTwoTimers(ops: seq<Op>)
    ensures Run(Initial, ops).timers <= 1
  {
    RunKeepsOneTimer(Initial, ops);
  }

  /** Before a context is known, loading pods or namespaces and polling
      ticks that bring no context leave the pods and namespaces empty. */
  lemma {:induction false} NothingLoadedWithoutContext(s: Store, ops: seq<Op>)
    requires !IsContextReady(s) && s.pods == [] && s.namespaces == []
    requires forall i :: 0 <= i < |ops| ==> !ops[i].PollTick?
    ensures Run(s, ops).pods == [] && Run(s, ops).namespaces == []
    decreases |ops|
  {
    if |ops| > 0 {
      NothingLoadedWithoutContext(Step(s, ops[0]), ops[1..]);
    }
  }

  /** The refresh counter rises by one per refresh request and per tick
      that brings a new context, and never falls. */
  lemma {:induction false} RefreshNeverFalls(s: Store, ops: seq<Op>)
    ensures Run(s, ops).refresh >= s.refresh
    ensures Run(s, ops).refresh >= s.refresh + CountRefresh(ops)
    decreases |ops|
  {
    if |ops| > 0 {
      RefreshNeverFalls(Step(s, ops[0]), ops[1..]);
    }
  }

  function CountRefresh(ops: seq<Op>): nat {
    if |ops| == 0 then 0 else (if ops[0].Refresh? then 1 else 0) + CountRefresh(ops[1..])
  }
}

=== FILE: lifecycle.dfy ===
/** The port-forward registry together with the runner tasks it spawns
    (src-tauri/src/portforward.rs `start_forward`'s spawned task and
    `run_port_forward`) and the local ports those runners hold. Every step is
    one atomic action: a public operation, or one thing a runner does between
    two awaits. Steps that are not enabled leave the world unchanged. */
module Lifecycle {
  import opened Wrappers
  import opened Cluster
  import opened Resolver
  import opened ForwardStats
  import opened Registry

  /** Where a runner task is: about to bind, listening (client set-up and
      the accept loop), returned with `Ok` or `Err` but its completion
      callback not yet run, or finished. */
  datatype Phase = Binding | Listening | Returned(ok: bool) | Done

  /** A runner: its local port, its phase and whether its shutdown channel
      has fired (the sender was used or dropped by a stop). */
  datatype Runner = Runner(port: Port, phase: Phase, signalled: bool)

  /** The registry, every runner ever spawned (by id) and the local ports
      currently bound by runners' listeners. */
  datatype World = World(reg: Forwards, runners: map<string, Runner>, bound: map<Port, string>)

  datatype Op =
    | Start(id: string, context: string, namespace: string, kind: ResourceType, resourceName: string,
            localPort: Port, remotePort: Port, heldElsewhere: bool, ns: Namespace)
    | Stop(id: string)
    | StopEverything
      /** The runner's `TcpListener::bind`; `heldElsewhere` says whether
          another process holds the port. */
    | Bind(id: string, heldElsewhere: bool)
      /** `create_client_config` or `Client::try_from` fails. */
    | ClientFails(id: string)
      /** The accept loop sees the shutdown channel fire. */
    | Shutdown(id: string)
      /** The spawned task's completion callback. */
    | Complete(id: string)
    | Traffic(id: string, e: Event)

  const Init: World := World(Empty, map[], map[])

  /** Marks the runners of every registered forward as signalled. */
  function SignalAll(runners: map<string, Runner>, reg: Forwards): (r: map<string, Runner>)
    ensures r.Keys == runners.Keys
    ensures forall id :: id in runners ==>
      r[id] == (if id in reg then runners[id].(signalled := true) else runners[id])
  {
    map id | id in runners :: if id in reg then runners[id].(signalled := true) else runners[id]
  }

  /** One step of the world. */
  function Next(w: World, op: Op): World {
    match op
    case Start(id, context, namespace, kind, resourceName, localPort, remotePort, heldElsewhere, ns) =>
      // UUIDs are fresh: an id already used is not a possible start.
      if id in w.runners then w
      else
        var probeOk := localPort !in w.bound && !heldElsewhere;
        var (res, reg) := StartForward(w.reg, id, context, namespace, kind, resourceName,
                                       localPort, remotePort, probeOk, ns);
        if res.Ok? then World(reg, w.runners[id := Runner(localPort, Binding, false)], w.bound) else w
    case Stop(id) =>
      if id in w.reg && id in w.runners then
        World(StopForward(w.reg, id).1, w.runners[id := w.runners[id].(signalled := true)], w.bound)
      else w
    case StopEverything =>
      World(StopAll(w.reg), SignalAll(w.runners, w.reg), w.bound)
    case Bind(id, heldElsewhere) =>
      if id in w.runners && w.runners[id].phase == Binding then
        var r := w.runners[id];
        if r.port !in w.bound && !heldElsewhere then
          World(OnBound(w.reg, id), w.runners[id := r.(phase := Listening)], w.bound[r.port := id])
        else
          World(w.reg, w.runners[id := r.(phase := Returned(false))], w.bound)
      else w
    case ClientFails(id) =>
      if id in w.runners && w.runners[id].phase == Listening then
        var r := w.runners[id];
        World(w.reg, w.runners[id := r.(phase := Returned(false))], w.bound - {r.port})
      else w
    case Shutdown(id) =>
      if id in w.runners && w.runners[id].phase == Listening && w.runners[id].signalled then
        var r := w.runners[id];
        World(w.reg, w.runners[id := r.(phase := Returned(true))], w.bound - {r.port})
      else w
    case Complete(id) =>
      if id in w.runners && w.runners[id].phase.Returned? then
        var r := w.runners[id];
        World(OnRunnerExit(w.reg, id, r.phase.ok), w.runners[id := r.(phase := Done)], w.bound)
      else w
    case Traffic(id, e) =>
      World(OnTraffic(w.reg, id, e), w.runners, w.bound)
  }

  /** What one step from `w` to `r` may change: runners are never forgotten;
      only a start registers a forward and only a bind takes a port; a stop
      unregisters its forward and stopping everything empties the registry;
      traffic touches nothing but the forward's counters. */
  ghost predicate Framed(w: World, op: Op, r: World) {
    && w.runners.Keys <= r.runners.Keys
    && r.reg.Keys <= w.reg.Keys + (if op.Start? then {op.id} else {})
    && (op.Start? && op.id in w.runners ==> r == w)
    && (forall p :: p in r.bound && p !in w.bound ==> op.Bind? && r.bound[p] == op.id)
    && (op.Stop? && op.id in w.runners ==> op.id !in r.reg)
    && (op.StopEverything? ==> |r.reg| == 0)
    && (op.Traffic? ==> r.runners == w.runners && r.bound == w.bound && r.reg.Keys == w.reg.Keys
                        && forall id :: id in w.reg ==> r.reg[id].info == w.reg[id].info)
  }

  /** Every step stays inside its frame. */
  lemma NextFrame(w: World, op: Op)
    ensures Framed(w, op, Next(w, op))
  {
    match op
    case Start(_, _, _, _, _, _, _, _, _) => StartFrame(w, op);
    case Stop(_) => StopFrame(w, op);
    case StopEverything => StopEverythingFrame(w);
    case Bind(_, _) => BindFrame(w, op);
    case ClientFails(_) => RunnerFrame(w, op);
    case Shutdown(_) => RunnerFrame(w, op);
    case Complete(_) => RunnerFrame(w, op);
    case Traffic(_, _) =>
  }

  lemma StartFrame(w: World, op: Op)
    requires op.Start?
    ensures Framed(w, op, Next(w, op))
  {
  }

  lemma StopFrame(w: World, op: Op)
    requires op.Stop?
    ensures Framed(w, op, Next(w, op))
  {
  }

  lemma StopEverythingFrame(w: World)
    ensures Framed(w, StopEverything, Next(w, StopEverything))
  {
  }

  lemma BindFrame(w: World, op: Op)
    requires op.Bind?
    ensures Framed(w, op, Next(w, op))
  {
  }

  lemma RunnerFrame(w: World, op: Op)
    requires op.ClientFails? || op.Shutdown? || op.Complete?
    ensures Framed(w, op, Next(w, op))
  {
  }

  function Run(w: World, ops: seq<Op>): World
    decreases |ops|
  {
    if |ops| == 0 then w else Run(Next(w, ops[0]), ops[1..])
  }

  /** The status a registered forward has while its runner is in a phase. */
  predicate StatusFits(s: Status, r: Runner) {
    match r.phase
    case Binding => s == Starting
    case Listening => s == Active
    case Returned(ok) => !ok && (s == Starting || s == Active)
    case Done => s == Error
  }

  /** The invariant of every reachable world. */
  ghost predicate Inv(w: World) {
    && Valid(w.reg)
    // every registered forward has an unsignalled runner on its port, in a fitting phase
    && (forall id :: id in w.reg ==>
          && id in w.runners && w.runners[id].port == w.reg[id].info.localPort
          && !w.runners[id].signalled && StatusFits(w.reg[id].info.status, w.runners[id]))
    // a runner that returned `Ok` was signalled
    && (forall id :: id in w.runners && w.runners[id].phase == Returned(true) ==> w.runners[id].signalled)
    // a signalled runner's forward has been removed
    && (forall id :: id in w.runners && w.runners[id].signalled ==> id !in w.reg)
    // the bound ports are exactly those of listening runners
    && (forall p :: p in w.bound ==>
          w.bound[p] in w.runners && w.runners[w.bound[p]].phase == Listening && w.runners[w.bound[p]].port == p)
    && (forall id :: id in w.runners && w.runners[id].phase == Listening ==>
          w.runners[id].port in w.bound && w.bound[w.runners[id].port] == id)
  }

  lemma InitInv()
    ensures Inv(Init)
  {
  }

  lemma StartKeepsInv(w: World, id: string, context: string, namespace: string, kind: ResourceType,
                      resourceName: string, localPort: Port, remotePort: Port, heldElsewhere: bool, ns: Namespace)
    requires Inv(w)
    ensures Inv(Next(w, Start(id, context, namespace, kind, resourceName, localPort, remotePort, heldElsewhere, ns)))
  {
    if id !in w.runners {
      var probeOk := localPort !in w.bound && !heldElsewhere;
      var (res, reg) := StartForward(w.reg, id, context, namespace, kind, resourceName,
                                     localPort, remotePort, probeOk, ns);
      if res.Ok? {
        StartKeepsValid(w.reg, id, context, namespace, kind, resourceName, localPort, remotePort, probeOk, ns);
        AddForwardKeepsInv(w, id, reg);
      }
    }
  }

  /** Registering a new forward with a fresh runner waiting to bind its
      port keeps the invariant. */
  lemma AddForwardKeepsInv(w: World, id: string, reg: Forwards)
    requires Inv(w) && id !in w.runners && Valid(reg)
    requires reg.Keys == w.reg.Keys + {id} && reg[id].info.status == Starting
    requires forall other :: other in w.reg && other != id ==> reg[other] == w.reg[other]
    ensures Inv(World(reg, w.runners[id := Runner(reg[id].info.localPort, Binding, false)], w.bound))
  {
    var runners := w.runners[id := Runner(reg[id].info.localPort, Binding, false)];
    forall x | x in reg
      ensures x in runners && runners[x].port == reg[x].info.localPort
      ensures !runners[x].signalled && StatusFits(reg[x].info.status, runners[x])
    {
      if x != id {
        assert x in w.reg && runners[x] == w.runners[x] && reg[x] == w.reg[x];
      }
    }
    forall x | x in runners && runners[x].signalled ensures x !in reg {
      assert x != id && x in w.runners && w.runners[x].signalled;
    }
    forall p | p in w.bound
      ensures w.bound[p] in runners && runners[w.bound[p]].phase == Listening && runners[w.bound[p]].port == p
    {
      assert w.bound[p] in w.runners && w.bound[p] != id;
    }
  }

  lemma StopKeepsInv(w: World, id: string)
    requires Inv(w)
    ensures Inv(Next(w, Stop(id)))
  {
    StopKeepsValid(w.reg, id);
  }

  lemma StopEverythingKeepsInv(w: World)
    requires Inv(w)
    ensures Inv(Next(w, StopEverything))
  {
    StopKeepsValid(w.reg, "");
    var w' := Next(w, StopEverything);
    forall id | id in w'.runners && w'.runners[id].phase == Returned(true)
      ensures w'.runners[id].signalled
    {
      assert w.runners[id].phase == Returned(true);
    }
  }

  /** A successful bind: the runner listens, holds its port, and its
      forward (if still registered) turns `Active`. */
  lemma BindOkKeepsInv(w: World, id: string)
    requires Inv(w)
    requires id in w.runners && w.runners[id].phase == Binding && w.runners[id].port !in w.bound
    ensures Inv(Next(w, Bind(id, false)))
  {
    StatusUpdatesKeepValid(w.reg, id, false);
    var r := w.runners[id];
    var w' := Next(w, Bind(id, false));
    assert w'.reg == OnBound(w.reg, id);
    assert w'.runners == w.runners[id := r.(phase := Listening)];
    assert w'.bound == w.bound[r.port := id];
    forall x | x in w'.reg
      ensures x in w'.runners && w'.runners[x].port == w'.reg[x].info.localPort
      ensures !w'.runners[x].signalled && StatusFits(w'.reg[x].info.status, w'.runners[x])
    {
      assert x in w.reg;
      if x != id {
        assert w'.reg[x] == w.reg[x] && w'.runners[x] == w.runners[x];
      }
    }
    forall x | x in w'.runners && w'.runners[x].signalled ensures x !in w'.reg {
      assert w.runners[x].signalled;
    }
    forall p | p in w'.bound
      ensures w'.bound[p] in w'.runners && w'.runners[w'.bound[p]].phase == Listening
      ensures w'.runners[w'.bound[p]].port == p
    {
      if p != r.port {
        assert w'.bound[p] == w.bound[p];
        assert w.bound[p] != id;
      }
    }
    forall other | other in w'.runners && w'.runners[other].phase == Listening
      ensures w'.runners[other].port in w'.bound && w'.bound[w'.runners[other].port] == other
    {
      if other != id {
        assert w.bound[w.runners[other].port] == other;
      }
    }
  }

  lemma BindKeepsInv(w: World, id: string, heldElsewhere: bool)
    requires Inv(w)
    ensures Inv(Next(w, Bind(id, heldElsewhere)))
  {
    if id in w.runners && w.runners[id].phase == Binding {
      if w.runners[id].port !in w.bound && !heldElsewhere {
        BindOkKeepsInv(w, id);
      }
    }
  }

  lemma ClientFailsKeepsInv(w: World, id: string)
    requires Inv(w)
    ensures Inv(Next(w, ClientFails(id)))
  {
    if id in w.runners && w.runners[id].phase == Listening {
      var r := w.runners[id];
      var w' := Next(w, ClientFails(id));
      forall other | other in w'.runners && w'.runners[other].phase == Listening
        ensures w'.runners[other].port in w'.bound && w'.bound[w'.runners[other].port] == other
      {
        assert other != id;
        assert w.bound[w.runners[other].port] == other;
      }
    }
  }

  lemma ShutdownKeepsInv(w: World, id: string)
    requires Inv(w)
    ensures Inv(Next(w, Shutdown(id)))
  {
    if id in w.runners && w.runners[id].phase == Listening && w.runners[id].signalled {
      var w' := Next(w, Shutdown(id));
      forall other | other in w'.runners && w'.runners[other].phase == Listening
        ensures w'.runners[other].port in w'.bound && w'.bound[w'.runners[other].port] == other
      {
        assert other != id;
        assert w.bound[w.runners[other].port] == other;
      }
    }
  }

  lemma CompleteKeepsInv(w: World, id: string)
    requires Inv(w)
    ensures Inv(Next(w, Complete(id)))
  {
    if id in w.runners && w.runners[id].phase.Returned? {
      StatusUpdatesKeepValid(w.reg, id, w.runners[id].phase.ok);
      FinishKeepsInv(w, id);
    }
  }

  /** The completion callback: the runner is done and its forward, if
      still registered, shows `Error` (it cannot have returned `Ok`). */
  lemma FinishKeepsInv(w: World, id: string)
    requires Inv(w) && id in w.runners && w.runners[id].phase.Returned?
    requires Valid(OnRunnerExit(w.reg, id, w.runners[id].phase.ok))
    ensures Inv(Next(w, Complete(id)))
  {
    var r := w.runners[id];
    var w' := Next(w, Complete(id));
    assert w'.reg == OnRunnerExit(w.reg, id, r.phase.ok);
    assert w'.runners == w.runners[id := r.(phase := Done)];
    assert w'.bound == w.bound;
    forall x | x in w'.reg
      ensures x in w'.runners && w'.runners[x].port == w'.reg[x].info.localPort
      ensures !w'.runners[x].signalled && StatusFits(w'.reg[x].info.status, w'.runners[x])
    {
      assert x in w.reg;
      if x != id {
        assert w'.reg[x] == w.reg[x] && w'.runners[x] == w.runners[x];
      } else {
        assert !r.phase.ok;
      }
    }
    forall x | x in w'.runners && w'.runners[x].signalled ensures x !in w'.reg {
      assert w.runners[x].signalled;
    }
    forall p | p in w'.bound
      ensures w'.bound[p] in w'.runners && w'.runners[w'.bound[p]].phase == Listening
      ensures w'.runners[w'.bound[p]].port == p
    {
      assert w.bound[p] != id;
    }
  }

  lemma TrafficKeepsInv(w: World, id: string, e: Event)
    requires Inv(w)
    ensures Inv(Next(w, Traffic(id, e)))
  {
    var reg := OnTraffic(w.reg, id, e);
    CountersOnlyKeepInv(w, id, e, reg);
    TrafficStep(w, id, e);
  }

  lemma TrafficStep(w: World, id: string, e: Event)
    ensures Next(w, Traffic(id, e)) == World(OnTraffic(w.reg, id, e), w.runners, w.bound)
  {
  }

  /** Traffic changes only a forward's counters, never what the invariant
      looks at. */
  lemma CountersOnlyKeepInv(w: World, id: string, e: Event, reg: Forwards)
    requires Inv(w) && reg == OnTraffic(w.reg, id, e)
    ensures Inv(World(reg, w.runners, w.bound))
  {
    TrafficKeepsValid(w.reg, id, e);
  }

  /** Every step keeps the invariant. */
  lemma NextKeepsInv(w: World, op: Op)
    requires Inv(w)
    ensures Inv(Next(w, op))
  {
    match op
    case Start(id, context, namespace, kind, resourceName, localPort, remotePort, heldElsewhere, ns) =>
      StartKeepsInv(w, id, context, namespace, kind, resourceName, localPort, remotePort, heldElsewhere, ns);
    case Stop(id) => StopKeepsInv(w, id);
    case StopEverything => StopEverythingKeepsInv(w);
    case Bind(id, heldElsewhere) => BindKeepsInv(w, id, heldElsewhere);
    case ClientFails(id) => ClientFailsKeepsInv(w, id);
    case Shutdown(id) => ShutdownKeepsInv(w, id);
    case Complete(id) => CompleteKeepsInv(w, id);
    case Traffic(id, e) => TrafficKeepsInv(w, id, e);
  }

  /** Every world reachable from the initial one satisfies the invariant. */
  lemma {:induction false} RunKeepsInv(w: World, ops: seq<Op>)
    requires Inv(w)
    ensures Inv(Run(w, ops))
    decreases |ops|
  {
    if |ops| > 0 {
      NextKeepsInv(w, ops[0]);
      RunKeepsInv(Next(w, ops[0]), ops[1..]);
    }
  }

  /** The status moves a registered forward makes: Starting to Active or
      Error, Active to Error, nothing else. */
  predicate LegalMove(a: Status, b: Status) {
    a == b || (a == Starting && (b == Active || b == Error)) || (a == Active && b == Error)
  }

  /** No step moves a forward's status other than along the legal moves. */
  lemma NextStatusLegal(w: World, op: Op, id: string)
    requires Inv(w)
    requires id in w.reg && id in Next(w, op).reg
    ensures LegalMove(w.reg[id].info.status, Next(w, op).reg[id].info.status)
  {
  }

  /** `Stopped` never shows: a runner returns `Ok` only after its forward was
      removed, so the completion callback never finds it. */
  lemma NeverStopped(w: World, id: string)
    requires Inv(w) && id in w.reg
    ensures w.reg[id].info.status != Stopped
  {
  }

  /** At most one registered forward per port is listening: two `Active`
      forwards on one port can only coexist while one of them has already
      released the port and awaits its completion callback. */
  lemma ActiveSamePort(w: World, a: string, b: string)
    requires Inv(w)
    requires a in w.reg && b in w.reg && a != b
    requires w.reg[a].info.status == Active && w.reg[b].info.status == Active
    requires w.reg[a].info.localPort == w.reg[b].info.localPort
    ensures w.runners[a].phase.Returned? || w.runners[b].phase.Returned?
  {
    if w.runners[a].phase == Listening {
      assert w.bound[w.runners[a].port] == a;
    }
  }

  lemma RunStep(w: World, ops: seq<Op>)
    requires |ops| > 0
    ensures Run(w, ops) == Run(Next(w, ops[0]), ops[1..])
  {
  }

  /** A second start on a port whose first forward is still `Starting`
      passes the duplicate check, which only looks for `Active` forwards. */
  lemma SecondStartWhileStarting(ns: Namespace)
    ensures var w := Run(Init, [Start("a", "ctx", "default", PodResource, "web", 8080, 80, false, ns),
                                Start("b", "ctx", "default", PodResource, "web", 8080, 80, false, ns)]);
      && "a" in w.reg && "b" in w.reg
      && w.reg["a"].info.localPort == w.reg["b"].info.localPort == 8080
  {
    var ops := [Start("a", "ctx", "default", PodResource, "web", 8080, 80, false, ns),
                Start("b", "ctx", "default", PodResource, "web", 8080, 80, false, ns)];
    var w1 := Next(Init, ops[0]);
    assert "a" in w1.reg && w1.reg["a"].info.status == Starting;
    assert w1.reg.Keys == {"a"};
    assert !ForwardedByApp(w1.reg, 8080);
    var w2 := Next(w1, ops[1]);
    RunStep(Init, ops);
    RunStep(w1, ops[1..]);
    assert ops[1..][1..] == [];
    assert Run(Init, ops) == w2;
  }

  /** Running a concatenation runs its halves one after the other. */
  lemma {:induction false} RunConcat(w: World, a: seq<Op>, b: seq<Op>)
    ensures Run(w, a + b) == Run(Run(w, a), b)
    decreases |a|
  {
    if |a| > 0 {
      assert (a + b)[0] == a[0] && (a + b)[1..] == a[1..] + b;
      RunConcat(Next(w, a[0]), a[1..], b);
    } else {
      assert a + b == b;
    }
  }

  /** Two forwards waiting to bind the same port, nothing bound yet. */
  predicate BothBinding(w: World, a: string, b: string, port: Port) {
    && a != b && a in w.reg && b in w.reg && a in w.runners && b in w.runners
    && w.reg[a].info.status == Starting && w.reg[b].info.status == Starting
    && w.reg[a].info.localPort == port && w.reg[b].info.localPort == port
    && w.runners[a] == Runner(port, Binding, false) && w.runners[b] == Runner(port, Binding, false)
    && port !in w.bound
  }

  lemma TwoStartsBinding(ns: Namespace)
    ensures BothBinding(Run(Init, [Start("a", "ctx", "default", PodResource, "web", 8080, 80, false, ns),
                                   Start("b", "ctx", "default", PodResource, "web", 8080, 80, false, ns)]),
                        "a", "b", 8080)
  {
    SecondStartWhileStarting(ns);
    var ops := [Start("a", "ctx", "default", PodResource, "web", 8080, 80, false, ns),
                Start("b", "ctx", "default", PodResource, "web", 8080, 80, false, ns)];
    var w1 := Next(Init, ops[0]);
    assert w1.reg.Keys == {"a"} && w1.runners.Keys == {"a"};
    var w2 := Next(w1, ops[1]);
    RunStep(Init, ops);
    RunStep(w1, ops[1..]);
    assert ops[1..][1..] == [];
    assert Run(Init, ops) == w2;
  }

  /** From two forwards waiting on one port: the first binds and loses its
      client, then the second binds the port the first released; both are
      `Active`. */
  lemma BindFailBind(w: World, a: string, b: string, port: Port)
    requires BothBinding(w, a, b, port)
    ensures var v := Run(w, [Bind(a, false), ClientFails(a), Bind(b, false)]);
      && a in v.reg && b in v.reg
      && v.reg[a].info.status == Active && v.reg[b].info.status == Active
      && v.reg[a].info.localPort == v.reg[b].info.localPort == port
  {
    var ops := [Bind(a, false), ClientFails(a), Bind(b, false)];
    var w1 := Next(w, ops[0]);
    assert w1.runners[a].phase == Listening && w1.runners[b] == w.runners[b];
    assert w1.reg[a].info.status == Active && w1.reg[b] == w.reg[b];
    var w2 := Next(w1, ops[1]);
    assert w2.reg == w1.reg && w2.runners[b] == w.runners[b] && port !in w2.bound;
    var w3 := Next(w2, ops[2]);
    assert w3.reg[b].info.status == Active && w3.reg[a] == w2.reg[a];
    RunStep(w, ops);
    RunStep(w1, ops[1..]);
    RunStep(w2, ops[2..]);
    assert ops[1..][1..] == ops[2..] && ops[2..][1..] == [];
    assert Run(w, ops) == w3;
  }

  /** The window `ActiveSamePort` allows is reachable: forward "a" binds,
      its client set-up fails (the port is released but "a" stays `Active`
      until its callback), and forward "b", started alongside, binds the
      same port. */
  lemma TwoActiveOnOnePort(ns: Namespace)
    ensures var w := Run(Init, [Start("a", "ctx", "default", PodResource, "web", 8080, 80, false, ns),
                                Start("b", "ctx", "default", PodResource, "web", 8080, 80, false, ns),
                                Bind("a", false), ClientFails("a"), Bind("b", false)]);
      && "a" in w.reg && "b" in w.reg
      && w.reg["a"].info.status == Active && w.reg["b"].info.status == Active
      && w.reg["a"].info.localPort == w.reg["b"].info.localPort
  {
    var starts := [Start("a", "ctx", "default", PodResource, "web", 8080, 80, false, ns),
                   Start("b", "ctx", "default", PodResource, "web", 8080, 80, false, ns)];
    var rest := [Bind("a", false), ClientFails("a"), Bind("b", false)];
    TwoStartsBinding(ns);
    BindFailBind(Run(Init, starts), "a", "b", 8080);
    RunConcat(Init, starts, rest);
    assert starts + rest == [Start("a", "ctx", "default", PodResource, "web", 8080, 80, false, ns),
                             Start("b", "ctx", "default", PodResource, "web", 8080, 80, false, ns),
                             Bind("a", false), ClientFails("a"), Bind("b", false)];
  }
}

=== FILE: quantity.dfy ===
/** The resource-quantity parsers of src-tauri/src/kubernetes.rs, used by
    the cluster pulse to turn Kubernetes quantities into millicores and
    bytes. */
module Quantity {
  import opened Wrappers
  import opened Text

  /** The largest magnitude an `f64` holds exactly for every integer below
      it: integers within it survive `parse::<f64>()` and `as i64` intact. */
  const F64Exact: int := 0x20_0000_0000_0000

  /** `parse_cpu_quantity`: millicores. After trimming, a trailing 'm' means
      millicores, a trailing 'n' nanocores (divided by one million, rounding
      toward zero); otherwise the string is whole cores, read as a float and
      truncated. A bad number gives 0. `floatCores` is what
      `parse::<f64>().unwrap_or(0.0) as i64` yields for a core count that is
      not an exactly representable integer (a decimal, an exponent form, or a
      huge value); integer counts are read exactly. */
  function ParseCpuQuantity(quantity: string, floatCores: int): (r: int)
    ensures var q := TrimRust(quantity);
      EndsWith(q, "m") ==> r == ParseI64(q[..|q| - 1]).GetOr(0)
    ensures var q := TrimRust(quantity);
      !EndsWith(q, "m") && EndsWith(q, "n") ==> r == TruncDiv(ParseI64(q[..|q| - 1]).GetOr(0), 1_000_000)
    ensures var q := TrimRust(quantity);
      (!EndsWith(q, "m") && !EndsWith(q, "n") && ParseI64(q).Some? && -F64Exact <= ParseI64(q).value <= F64Exact
       ==> r == ParseI64(q).value * 1000)
  {
    var q := TrimRust(quantity);
    if EndsWith(q, "m") then ParseI64(q[..|q| - 1]).GetOr(0)
    else if EndsWith(q, "n") then TruncDiv(ParseI64(q[..|q| - 1]).GetOr(0), 1_000_000)
    else
      match ParseI64(q)
      case Some(n) => if -F64Exact <= n <= F64Exact then n * 1000 else floatCores * 1000
      case None => floatCores * 1000
  }

  /** Whole cores never overflow `i64` on the exact path. */
  lemma CpuExactFitsI64(n: int)
    requires -F64Exact <= n <= F64Exact
    ensures I64Min <= n * 1000 <= I64Max
  {
  }

  /** A rendered millicore count reads back unchanged. */
  lemma CpuOfRenderedMillis(n: int, floatCores: int)
    requires I64Min <= n <= I64Max
    ensures ParseCpuQuantity(IntToString(n) + "m", floatCores) == n
  {
    var s := IntToString(n);
    var q := s + "m";
    ParseI64OfIntToString(n);
    RenderedIsTrimmed(q);
    assert q[..|q| - 1] == s;
  }

  /** A rendered nanocore count comes back divided by a million, rounded
      toward zero. */
  lemma CpuOfRenderedNanos(n: int, floatCores: int)
    requires I64Min <= n <= I64Max
    ensures ParseCpuQuantity(IntToString(n) + "n", floatCores) == TruncDiv(n, 1_000_000)
  {
    var s := IntToString(n);
    var q := s + "n";
    ParseI64OfIntToString(n);
    RenderedIsTrimmed(q);
    assert !EndsWith(q, "m");
    assert q[..|q| - 1] == s;
  }

  /** A rendered whole-core count comes back times a thousand. */
  lemma CpuOfRenderedCores(n: int, floatCores: int)
    requires -F64Exact <= n <= F64Exact
    ensures ParseCpuQuantity(IntToString(n), floatCores) == n * 1000
  {
    var s := IntToString(n);
    ParseI64OfIntToString(n);
    assert IsDigit(s[|s| - 1]);
    RenderedIsTrimmed(s);
    assert !EndsWith(s, "m") && !EndsWith(s, "n");
    assert ParseI64(s) == Some(n);
  }

  /** A string starting with a digit or '-' and ending in a non-space is
      its own trim. */
  lemma RenderedIsTrimmed(s: string)
    requires |s| > 0 && (IsDigit(s[0]) || s[0] == '-') && !IsRustWhitespace(s[|s| - 1])
    ensures TrimRust(s) == s
  {
    TrimRustIdentity(s);
  }

  /** A rendered integer followed by any suffix ending in a non-space is its
      own trim. */
  lemma RenderedSuffixIsTrimmed(n: int, suffix: string)
    requires |suffix| > 0 ==> !IsRustWhitespace(suffix[|suffix| - 1])
    ensures TrimRust(IntToString(n) + suffix) == IntToString(n) + suffix
  {
    var s := IntToString(n);
    var q := s + suffix;
    if n >= 0 {
      assert IsDigit(s[0]);
    }
    assert q[0] == s[0];
    if |suffix| == 0 {
      assert IsDigit(s[|s| - 1]);
      assert q[|q| - 1] == s[|s| - 1];
    } else {
      assert q[|q| - 1] == suffix[|suffix| - 1];
    }
    RenderedIsTrimmed(q);
  }

  /** The memory suffixes `parse_memory_quantity` knows, binary then
      decimal, and `Bytes` for none. */
  datatype MemoryUnit = Ki | Mi | Gi | Ti | Kilo | Mega | Giga | Tera | Bytes

  function Suffix(u: MemoryUnit): string {
    match u
    case Ki => "Ki" case Mi => "Mi" case Gi => "Gi" case Ti => "Ti"
    case Kilo => "k" case Mega => "M" case Giga => "G" case Tera => "T"
    case Bytes => ""
  }

  function Factor(u: MemoryUnit): nat {
    match u
    case Ki => 1024 case Mi => 1024 * 1024 case Gi => 1024 * 1024 * 1024
    case Ti => 1024 * 1024 * 1024 * 1024
    case Kilo => 1000 case Mega => 1000 * 1000 case Giga => 1000 * 1000 * 1000
    case Tera => 1000 * 1000 * 1000 * 1000
    case Bytes => 1
  }

  /** The unit a trimmed quantity ends with, tried in the source's order. */
  function UnitOf(q: string): (u: MemoryUnit)
    ensures EndsWith(q, Suffix(u))
    ensures u == Bytes ==> forall v :: v != Bytes ==> !EndsWith(q, Suffix(v))
  {
    if EndsWith(q, "Ki") then Ki
    else if EndsWith(q, "Mi") then Mi
    else if EndsWith(q, "Gi") then Gi
    else if EndsWith(q, "Ti") then Ti
    else if EndsWith(q, "k") then Kilo
    else if EndsWith(q, "M") then Mega
    else if EndsWith(q, "G") then Giga
    else if EndsWith(q, "T") then Tera
    else Bytes
  }

  /** `parse_memory_quantity`: bytes. The number before the unit is an
      `i64`; anything unparseable (decimals, unknown suffixes) gives 0. */
  function ParseMemoryQuantity(quantity: string): (r: int)
    ensures var q := TrimRust(quantity);
      forall u: MemoryUnit :: u != Bytes && EndsWith(q, Suffix(u)) ==>
        r == ParseI64(q[..|q| - |Suffix(u)|]).GetOr(0) * Factor(u)
    ensures var q := TrimRust(quantity);
      (forall u: MemoryUnit :: u != Bytes ==> !EndsWith(q, Suffix(u))) ==> r == ParseI64(q).GetOr(0)
  {
    var q := TrimRust(quantity);
    var u := UnitOf(q);
    UnitUnique(q);
    assert q[..|q|] == q;
    ParseI64(q[..|q| - |Suffix(u)|]).GetOr(0) * Factor(u)
  }

  /** A quantity ends with the suffix of at most one unit besides `Bytes`,
      and that unit is the one `UnitOf` finds. */
  lemma UnitUnique(q: string)
    ensures forall v: MemoryUnit :: v != Bytes && EndsWith(q, Suffix(v)) ==> UnitOf(q) == v
  {
    forall v: MemoryUnit | v != Bytes && EndsWith(q, Suffix(v)) ensures UnitOf(q) == v {
      var number := q[..|q| - |Suffix(v)|];
      assert q == number + Suffix(v);
      UnitOfRendered(number, v);
    }
  }

  /** After a number, the unit is recognised from its suffix. */
  lemma UnitOfRendered(s: string, u: MemoryUnit)
    requires u != Bytes || (|s| > 0 && IsDigit(s[|s| - 1]))
    ensures UnitOf(s + Suffix(u)) == u
  {
    if u == Bytes {
      assert s + Suffix(u) == s;
      UnitOfNumber(s);
    } else if |Suffix(u)| == 1 {
      UnitOfOneLetter(s, u);
    } else {
      UnitOfTwoLetters(s, u);
    }
  }

  lemma UnitOfNumber(s: string)
    requires |s| > 0 && IsDigit(s[|s| - 1])
    ensures UnitOf(s) == Bytes
  {
    UnitOfEnd(s);
  }

  lemma UnitOfOneLetter(s: string, u: MemoryUnit)
    requires |Suffix(u)| == 1
    ensures UnitOf(s + Suffix(u)) == u
  {
    var q := s + Suffix(u);
    assert q[|q| - 1] == Suffix(u)[0];
    UnitOfEnd(q);
  }

  lemma UnitOfTwoLetters(s: string, u: MemoryUnit)
    requires |Suffix(u)| == 2
    ensures UnitOf(s + Suffix(u)) == u
  {
    var q := s + Suffix(u);
    assert q[|q| - 1] == 'i' && q[|q| - 2] == Suffix(u)[0];
    UnitOfEnd(q);
  }

  /** `UnitOf` decided by the last two characters. */
  lemma UnitOfEnd(q: string)
    requires |q| > 0
    ensures var c := q[|q| - 1]; var d := if |q| >= 2 then q[|q| - 2] else '0';
      UnitOf(q) ==
        if c == 'i' && d == 'K' then Ki else if c == 'i' && d == 'M' then Mi
        else if c == 'i' && d == 'G' then Gi else if c == 'i' && d == 'T' then Ti
        else if c == 'k' then Kilo else if c == 'M' then Mega
        else if c == 'G' then Giga else if c == 'T' then Tera else Bytes
  {
    EndsWithTwo(q, 'K', 'i');
    EndsWithTwo(q, 'M', 'i');
    EndsWithTwo(q, 'G', 'i');
    EndsWithTwo(q, 'T', 'i');
    EndsWithOne(q, 'k');
    EndsWithOne(q, 'M');
    EndsWithOne(q, 'G');
    EndsWithOne(q, 'T');
  }

  lemma EndsWithOne(q: string, c: char)
    requires |q| > 0
    ensures EndsWith(q, [c]) <==> q[|q| - 1] == c
  {
    if q[|q| - 1] == c {
      assert q[|q| - 1..] == [c];
    }
  }

  lemma EndsWithTwo(q: string, a: char, b: char)
    requires |q| > 0
    ensures EndsWith(q, [a, b]) <==> |q| >= 2 && q[|q| - 2] == a && q[|q| - 1] == b
  {
    if |q| >= 2 && q[|q| - 2] == a && q[|q| - 1] == b {
      assert q[|q| - 2..] == [a, b];
    }
  }

  /** A trimmed quantity with unit `u` reads as its number times the
      unit's factor. */
  lemma ReadsAs(q: string, u: MemoryUnit, number: string)
    requires TrimRust(q) == q && UnitOf(q) == u
    requires |Suffix(u)| <= |q| && q[..|q| - |Suffix(u)|] == number
    ensures ParseMemoryQuantity(q) == ParseI64(number).GetOr(0) * Factor(u)
  {
  }

  /** A rendered count with any known unit reads back as count times the
      unit's factor. */
  lemma MemoryOfRendered(n: int, u: MemoryUnit)
    requires I64Min <= n <= I64Max
    ensures ParseMemoryQuantity(IntToString(n) + Suffix(u)) == n * Factor(u)
  {
    var s := IntToString(n);
    var q := s + Suffix(u);
    ParseI64OfIntToString(n);
    assert IsDigit(s[|s| - 1]);
    RenderedSuffixIsTrimmed(n, Suffix(u));
    UnitOfRendered(s, u);
    assert q[..|q| - |Suffix(u)|] == s;
    ReadsAs(q, u, s);
  }

  /** A text that starts with a digit and holds a non-digit is no `i64`. */
  lemma NotAnInteger(number: string, at: nat)
    requires |number| > 0 && IsDigit(number[0]) && at < |number| && !IsDigit(number[at])
    ensures ParseI64(number) == None
  {
  }

  /** A decimal count reads as 0 whatever its unit: the number must be an
      integer. */
  lemma DecimalReadsZero(whole: string, fraction: string, u: MemoryUnit)
    requires |whole| > 0 && AllDigits(whole) && |fraction| > 0 && AllDigits(fraction)
    ensures ParseMemoryQuantity(whole + "." + fraction + Suffix(u)) == 0
  {
    var number := whole + "." + fraction;
    DecimalShape(whole, fraction);
    var q := number + Suffix(u);
    UnitOfRendered(number, u);
    SuffixedIsTrimmed(number, u);
    assert q[..|q| - |Suffix(u)|] == number;
    ReadsAs(q, u, number);
  }

  /** A decimal starts and ends with a digit and is no `i64`. */
  lemma DecimalShape(whole: string, fraction: string)
    requires |whole| > 0 && AllDigits(whole) && |fraction| > 0 && AllDigits(fraction)
    ensures var number := whole + "." + fraction;
      IsDigit(number[0]) && IsDigit(number[|number| - 1]) && ParseI64(number) == None
  {
    var number := whole + "." + fraction;
    assert number[0] == whole[0] && number[|whole|] == '.';
    assert number[|number| - 1] == fraction[|fraction| - 1];
    NotAnInteger(number, |whole|);
  }

  /** A number between digits, followed by a unit, has nothing to trim. */
  lemma SuffixedIsTrimmed(number: string, u: MemoryUnit)
    requires |number| > 0 && IsDigit(number[0]) && IsDigit(number[|number| - 1])
    ensures TrimRust(number + Suffix(u)) == number + Suffix(u)
  {
    var q := number + Suffix(u);
    assert q[0] == number[0];
    if |Suffix(u)| == 0 {
      assert q[|q| - 1] == number[|number| - 1];
    } else {
      assert q[|q| - 1] == Suffix(u)[|Suffix(u)| - 1];
    }
    TrimRustIdentity(q);
  }

  /** Pebi and exbi counts read as 0: those units are not stripped and the
      number then does not parse. */
  lemma LargeBinaryUnitsReadZero(count: string)
    requires |count| > 0 && AllDigits(count)
    ensures ParseMemoryQuantity(count + "Pi") == 0
    ensures ParseMemoryQuantity(count + "Ei") == 0
  {
    UnknownUnitReadsZero(count, 'P');
    UnknownUnitReadsZero(count, 'E');
  }

  /** A count followed by "Xi" for a letter X other than K, M, G and T is
      read whole as bytes, and does not parse. */
  lemma UnknownUnitReadsZero(count: string, letter: char)
    requires |count| > 0 && AllDigits(count)
    requires letter != 'K' && letter != 'M' && letter != 'G' && letter != 'T' && !IsDigit(letter)
    ensures ParseMemoryQuantity(count + [letter, 'i']) == 0
  {
    var p := count + [letter, 'i'];
    assert p[0] == count[0] && p[|p| - 1] == 'i' && p[|p| - 2] == letter;
    TrimRustIdentity(p);
    assert TrimRust(p) == p;
    assert UnitOf(p) == Bytes;
    assert !IsDigit(p[|count|]);
    NotAnInteger(p, |count|);
    assert p[..|p| - 0] == p;
    ReadsAs(p, Bytes, p);
  }
}

=== FILE: registry.dfy ===
/** `PortForwardManager` (src-tauri/src/portforward.rs): the map from
    forward id to its info and live statistics, and the atomic transitions
    on it — the public operations and the status updates made by a forward's
    runner task. Each transition is one critical section of the source's
    `RwLock`; socket work and cluster queries happen outside them and enter
    the model as inputs (the OS port probe result, the cluster's answers). */
module Registry {
  import opened Wrappers
  import opened Cluster
  import opened Resolver
  import opened ForwardStats

  datatype Status = Starting | Active | Error | Stopped

  /** `PortForwardInfo`. */
  datatype Info = Info(
    id: string,
    context: string,
    namespace: string,
    kind: ResourceType,
    resourceName: string,
    podName: string,
    localPort: Port,
    remotePort: Port,
    status: Status,
    activeConnections: Counter,
    totalConnections: Counter,
    bytesSent: Counter,
    bytesReceived: Counter)

  /** `ActiveForward`, without its shutdown sender (signals are modelled by
      the lifecycle module). */
  datatype Forward = Forward(info: Info, stats: Stats)

  type Forwards = map<string, Forward>

  /** What every reachable registry satisfies: each entry is stored under
      its own id, and stored infos keep zero counters (live numbers are only
      read from the statistics). */
  ghost predicate Valid(reg: Forwards) {
    forall id :: id in reg ==>
      && reg[id].info.id == id
      && reg[id].info.activeConnections == 0 && reg[id].info.totalConnections == 0
      && reg[id].info.bytesSent == 0 && reg[id].info.bytesReceived == 0
  }

  /** Some registered forward is `Active` on the port. */
  predicate ForwardedByApp(reg: Forwards, port: Port) {
    exists id :: id in reg && reg[id].info.localPort == port && reg[id].info.status == Active
  }

  /** `PortForwardManager::new`. */
  const Empty: Forwards := map[]

  /** `start_forward`. `id` is the freshly generated UUID, `portFree` the
      result of the bind-and-release probe, `ns` the cluster's answers for
      the context and namespace. */
  function StartForward(reg: Forwards, id: string, context: string, namespace: string, kind: ResourceType,
                        resourceName: string, localPort: Port, remotePort: Port, portFree: bool, ns: Namespace)
    : (r: (Result<Info, AppError>, Forwards))
    ensures ForwardedByApp(reg, localPort) ==> r == (Err(PortForwardedByApp(localPort)), reg)
    ensures !ForwardedByApp(reg, localPort) && !portFree ==> r == (Err(PortInUseBySystem(localPort)), reg)
    ensures !ForwardedByApp(reg, localPort) && portFree && ResolvePodName(ns, kind, resourceName).Err? ==>
      r == (Err(ResolvePodName(ns, kind, resourceName).error), reg)
    ensures r.0.Err? ==> r.1 == reg
    ensures r.0.Ok? <==> !ForwardedByApp(reg, localPort) && portFree && ResolvePodName(ns, kind, resourceName).Ok?
    ensures r.0.Ok? ==>
      && r.0.value.id == id && r.0.value.status == Starting
      && r.0.value.localPort == localPort && r.0.value.remotePort == remotePort
      && r.0.value.kind == kind && r.0.value.resourceName == resourceName
      && r.0.value.context == context && r.0.value.namespace == namespace
      && r.0.value.podName == ResolvePodName(ns, kind, resourceName).value
      && r.0.value.activeConnections == 0 && r.0.value.totalConnections == 0
      && r.0.value.bytesSent == 0 && r.0.value.bytesReceived == 0
      && r.1.Keys == reg.Keys + {id}
      && r.1[id] == Forward(r.0.value, Fresh)
      && (forall other :: other in reg && other != id ==> r.1[other] == reg[other])
  {
    if ForwardedByApp(reg, localPort) then (Err(PortForwardedByApp(localPort)), reg)
    else if !portFree then (Err(PortInUseBySystem(localPort)), reg)
    else
      match ResolvePodName(ns, kind, resourceName)
      case Err(e) => (Err(e), reg)
      case Ok(podName) =>
        var info := Info(id, context, namespace, kind, resourceName, podName, localPort, remotePort,
                         Starting, 0, 0, 0, 0);
        (Ok(info), reg[id := Forward(info, Fresh)])
  }

  /** A fresh id makes the registry grow by exactly one entry. */
  lemma StartAddsOne(reg: Forwards, id: string, context: string, namespace: string, kind: ResourceType,
                     resourceName: string, localPort: Port, remotePort: Port, portFree: bool, ns: Namespace)
    requires id !in reg
    ensures var r := StartForward(reg, id, context, namespace, kind, resourceName, localPort, remotePort, portFree, ns);
      |r.1| == |reg| + (if r.0.Ok? then 1 else 0)
  {
  }

  /** Only an `Active` forward blocks a port: a same-port forward that is
      starting, failed or stopped does not. */
  lemma OnlyActiveBlocks(reg: Forwards, port: Port)
    requires forall id :: id in reg && reg[id].info.localPort == port ==> reg[id].info.status != Active
    ensures !ForwardedByApp(reg, port)
  {
  }

  /** `stop_forward`: removes exactly the named entry, or fails and changes
      nothing when there is none. */
  function StopForward(reg: Forwards, id: string): (r: (Result<(), AppError>, Forwards))
    ensures id in reg ==> r.0.Ok? && r.1.Keys == reg.Keys - {id}
    ensures id !in reg ==> r == (Err(ForwardNotFound(id)), reg)
    ensures forall other :: other in r.1 ==> other in reg && r.1[other] == reg[other]
  {
    if id in reg then (Ok(()), reg - {id}) else (Err(ForwardNotFound(id)), reg)
  }

  /** Stopping twice: the first stop succeeds, the second reports the id
      unknown and changes nothing. */
  lemma StopTwice(reg: Forwards, id: string)
    requires id in reg
    ensures StopForward(reg, id).0.Ok?
    ensures var once := StopForward(reg, id).1;
      StopForward(once, id) == (Err(ForwardNotFound(id)), once)
  {
  }

  /** `stop_all`: drains the registry. */
  function StopAll(reg: Forwards): (r: Forwards)
    ensures |r| == 0
  {
    map[]
  }

  /** The info `list_forwards` reports for one entry: the stored info with
      the four counters replaced by the statistics snapshot. */
  function Listed(f: Forward): (i: Info)
    ensures i.activeConnections == f.stats.active && i.totalConnections == f.stats.total
    ensures i.bytesSent == f.stats.sent && i.bytesReceived == f.stats.received
    ensures i.(activeConnections := 0, totalConnections := 0, bytesSent := 0, bytesReceived := 0)
         == f.info.(activeConnections := 0, totalConnections := 0, bytesSent := 0, bytesReceived := 0)
  {
    f.info.(activeConnections := f.stats.active, totalConnections := f.stats.total,
            bytesSent := f.stats.sent, bytesReceived := f.stats.received)
  }

  /** `list_forwards`: one info per entry, in the map's (unspecified)
      iteration order, which `ids` reports. */
  method ListForwards(reg: Forwards) returns (infos: seq<Info>, ids: seq<string>)
    ensures |infos| == |ids| == |reg|
    ensures forall i, j :: 0 <= i < j < |ids| ==> ids[i] != ids[j]
    ensures forall id :: id in reg <==> id in ids
    ensures forall i :: 0 <= i < |ids| ==> ids[i] in reg && infos[i] == Listed(reg[ids[i]])
  {
    infos, ids := [], [];
    var rest := reg.Keys;
    while rest != {}
      invariant rest <= reg.Keys
      invariant |infos| == |ids|
      invariant forall i, j :: 0 <= i < j < |ids| ==> ids[i] != ids[j]
      invariant forall id :: id in reg.Keys <==> id in ids || id in rest
      invariant forall id :: id in ids ==> id !in rest
      invariant forall i :: 0 <= i < |ids| ==> ids[i] in reg && infos[i] == Listed(reg[ids[i]])
      invariant |ids| + |rest| == |reg|
      decreases rest
    {
      var id :| id in rest;
      infos := infos + [Listed(reg[id])];
      ids := ids + [id];
      rest := rest - {id};
    }
  }

  /** The runner bound its listener: `Active`, if the forward is still
      registered. A stopped forward is never brought back. */
  function OnBound(reg: Forwards, id: string): (r: Forwards)
    ensures r.Keys == reg.Keys
    ensures id in reg ==> (r[id].info.status == Active && r[id].stats == reg[id].stats
      && r[id].info.(status := Starting) == reg[id].info.(status := Starting))
    ensures forall other :: other in reg && other != id ==> r[other] == reg[other]
  {
    if id in reg then reg[id := reg[id].(info := reg[id].info.(status := Active))] else reg
  }

  /** The runner task returned: `Stopped` for `Ok`, `Error` for `Err`, again
      only if the forward is still registered. */
  function OnRunnerExit(reg: Forwards, id: string, ok: bool): (r: Forwards)
    ensures r.Keys == reg.Keys
    ensures id in reg ==> (r[id].info.status == (if ok then Stopped else Error) && r[id].stats == reg[id].stats
      && r[id].info.(status := Starting) == reg[id].info.(status := Starting))
    ensures forall other :: other in reg && other != id ==> r[other] == reg[other]
  {
    if id in reg then reg[id := reg[id].(info := reg[id].info.(status := if ok then Stopped else Error))] else reg
  }

  /** A counter update by a connection of forward `id`. The counters live in
      an `Arc` the connection shares; once the forward is removed the update
      is invisible to the registry. */
  function OnTraffic(reg: Forwards, id: string, e: Event): (r: Forwards)
    ensures r.Keys == reg.Keys
    ensures id in reg ==> r[id].info == reg[id].info && r[id].stats == Step(reg[id].stats, e)
    ensures forall other :: other in reg && other != id ==> r[other] == reg[other]
  {
    if id in reg then reg[id := reg[id].(stats := Step(reg[id].stats, e))] else reg
  }

  /** A successful start stores a valid entry under the new id. */
  lemma StartKeepsValid(reg: Forwards, id: string, context: string, namespace: string, kind: ResourceType,
                        resourceName: string, localPort: Port, remotePort: Port, portFree: bool, ns: Namespace)
    requires Valid(reg)
    ensures Valid(StartForward(reg, id, context, namespace, kind, resourceName, localPort, remotePort, portFree, ns).1)
  {
    var r := StartForward(reg, id, context, namespace, kind, resourceName, localPort, remotePort, portFree, ns);
    if r.0.Ok? {
      InsertKeepsValid(reg, r.1, r.0.value);
    }
  }

  /** Adding a fresh forward under its own id, with zero counters, keeps
      the registry valid. */
  lemma InsertKeepsValid(reg: Forwards, next: Forwards, info: Info)
    requires Valid(reg)
    requires info.activeConnections == 0 && info.totalConnections == 0
    requires info.bytesSent == 0 && info.bytesReceived == 0
    requires next.Keys == reg.Keys + {info.id} && next[info.id] == Forward(info, Fresh)
    requires forall other :: other in reg && other != info.id ==> next[other] == reg[other]
    ensures Valid(next)
  {
    forall k | k in next
      ensures next[k].info.id == k
    {
      if k != info.id {
        assert next[k] == reg[k];
      }
    }
  }

  /** Removals keep the registry valid. */
  lemma StopKeepsValid(reg: Forwards, id: string)
    requires Valid(reg)
    ensures Valid(StopForward(reg, id).1) && Valid(StopAll(reg))
  {
  }

  /** The runner's status updates keep the registry valid. */
  lemma StatusUpdatesKeepValid(reg: Forwards, id: string, ok: bool)
    requires Valid(reg)
    ensures Valid(OnBound(reg, id)) && Valid(OnRunnerExit(reg, id, ok))
  {
    var b := OnBound(reg, id);
    forall k | k in b
      ensures b[k].info.id == k
    {
      assert b[k].info.id == reg[k].info.id;
    }
    var x := OnRunnerExit(reg, id, ok);
    forall k | k in x
      ensures x[k].info.id == k
    {
      assert x[k].info.id == reg[k].info.id;
    }
  }

  /** Counter updates never touch the stored infos. */
  lemma TrafficKeepsValid(reg: Forwards, id: string, e: Event)
    requires Valid(reg)
    ensures Valid(OnTraffic(reg, id, e))
  {
    var t := OnTraffic(reg, id, e);
    forall k | k in t
      ensures t[k].info == reg[k].info
    {
    }
  }
}

=== FILE: resolver.dfy ===
/** Resource resolution for port forwarding (src-tauri/src/portforward.rs):
    `resolve_service_to_pod`, the pod-name choice of `start_forward`, and
    `get_resource_ports` for pods and services. */
module Resolver {
  import opened Wrappers
  import opened Cluster

  datatype ResourceType = PodResource | ServiceResource

  /** `AvailablePort`: the pod-side port, its optional name, its protocol. */
  datatype AvailablePort = AvailablePort(port: Port, name: Option<string>, protocol: string)

  const DefaultProtocol: string := "TCP"

  predicate IsRunningNamed(p: Pod) {
    p.phase == Some("Running") && p.name.Some?
  }

  /** The loop of `resolve_service_to_pod`: the name of the first pod, in
      list order, that has a name and phase exactly "Running". */
  function FirstRunningName(pods: seq<Pod>): (r: Option<string>)
    ensures r.None? <==> forall i :: 0 <= i < |pods| ==> !IsRunningNamed(pods[i])
    ensures r.Some? ==> (exists i :: 0 <= i < |pods| && IsRunningNamed(pods[i]) && pods[i].name == r
                           && forall j :: 0 <= j < i ==> !IsRunningNamed(pods[j]))
  {
    if |pods| == 0 then None
    else if IsRunningNamed(pods[0]) then pods[0].name
    else
      var r := FirstRunningName(pods[1..]);
      if r.Some? then
        ghost var i :| 0 <= i < |pods[1..]| && IsRunningNamed(pods[1..][i]) && pods[1..][i].name == r
          && forall j :: 0 <= j < i ==> !IsRunningNamed(pods[1..][j]);
        assert IsRunningNamed(pods[i + 1]) && pods[i + 1].name == r;
        r
      else r
  }

  /** The label selector of the named service, when the service exists and
      its spec carries one. */
  function ServiceSelector(ns: Namespace, service: string): (r: Option<map<string, string>>)
    ensures r.Some? <==> FindService(ns.services, service).Some? && FindService(ns.services, service).value.spec.Some?
                         && FindService(ns.services, service).value.spec.value.selector.Some?
    ensures r.Some? ==> r == FindService(ns.services, service).value.spec.value.selector
  {
    match FindService(ns.services, service)
    case None => None
    case Some(svc) => if svc.spec.None? then None else svc.spec.value.selector
  }

  /** `resolve_service_to_pod`: fetch the service, require a selector, list
      the selected pods and take the first running one. */
  function ResolveServiceToPod(ns: Namespace, service: string): (r: Result<string, AppError>)
    ensures !ns.clientOk ==> r == Err(ClientError)
    ensures ns.clientOk && FindService(ns.services, service).None? ==> r == Err(ServiceNotFound(service))
    ensures ns.clientOk && FindService(ns.services, service).Some? && ServiceSelector(ns, service).None? ==>
      r == Err(NoSelector(service))
    ensures ns.clientOk && ServiceSelector(ns, service).Some? && !ns.podListOk ==> r == Err(PodListFailed)
    ensures ns.clientOk && ServiceSelector(ns, service).Some? && ns.podListOk ==>
      var selected := SelectPods(ns.pods, ServiceSelector(ns, service).value);
      && (r.Ok? <==> exists p :: p in selected && IsRunningNamed(p))
      && (r.Ok? ==> Some(r.value) == FirstRunningName(selected))
      && (r.Err? ==> r == Err(NoRunningPod(service)))
    ensures r.Ok? ==> (exists p :: p in ns.pods && IsRunningNamed(p) && p.name == Some(r.value)
                         && Selects(ServiceSelector(ns, service).value, p))
  {
    if !ns.clientOk then Err(ClientError)
    else
      match FindService(ns.services, service)
      case None => Err(ServiceNotFound(service))
      case Some(svc) =>
        if svc.spec.None? || svc.spec.value.selector.None? then Err(NoSelector(service))
        else if !ns.podListOk then Err(PodListFailed)
        else
          var selector := svc.spec.value.selector.value;
          assert ServiceSelector(ns, service) == Some(selector);
          var selected := SelectPods(ns.pods, selector);
          match FirstRunningName(selected)
          case None =>
            assert forall p :: p in selected ==> !IsRunningNamed(p) by {
              forall p | p in selected ensures !IsRunningNamed(p) {
                var i :| 0 <= i < |selected| && selected[i] == p;
              }
            }
            Err(NoRunningPod(service))
          case Some(name) =>
            assert exists p :: p in selected && IsRunningNamed(p) && p.name == Some(name) by {
              var i :| 0 <= i < |selected| && IsRunningNamed(selected[i]) && selected[i].name == Some(name);
              assert selected[i] in selected;
            }
            Ok(name)
  }

  /** The pod-name step of `start_forward`: a pod is its own target and is
      not looked up; a service is resolved to a running pod. */
  function ResolvePodName(ns: Namespace, kind: ResourceType, name: string): (r: Result<string, AppError>)
    ensures kind == PodResource ==> r == Ok(name)
    ensures kind == ServiceResource ==> r == ResolveServiceToPod(ns, name)
  {
    match kind
    case PodResource => Ok(name)
    case ServiceResource => ResolveServiceToPod(ns, name)
  }

  /** The example of a service selecting one running and one pending pod. */
  lemma ResolvesToRunningPod(selector: map<string, string>, pending: Pod, running: Pod)
    requires Selects(selector, pending) && Selects(selector, running)
    requires pending.phase == Some("Pending") && running.phase == Some("Running") && running.name == Some("web-1")
    ensures ResolveServiceToPod(Namespace(true, [Service("web", Some(ServiceSpec(Some(selector), None)))], [pending, running], true), "web")
            == Ok("web-1")
  {
    var ns := Namespace(true, [Service("web", Some(ServiceSpec(Some(selector), None)))], [pending, running], true);
    assert SelectPods(ns.pods, selector) == [pending, running] by {
      assert ns.pods[1..] == [running];
      assert ns.pods[1..][1..] == [];
    }
  }

  // ---------------------------------------------------------------------
  // Ports of a pod: all container ports, sorted by number, one per number.

  /** The flat list built by the loops of `get_resource_ports` for a pod. */
  function ContainerPortsOf(cs: seq<Container>): seq<AvailablePort> {
    if |cs| == 0 then []
    else
      var own := match cs[0].ports
        case None => []
        case Some(cps) => AsAvailable(cps);
      own + ContainerPortsOf(cs[1..])
  }

  function AsAvailable(cps: seq<ContainerPort>): (r: seq<AvailablePort>)
    ensures |r| == |cps|
    ensures forall i :: 0 <= i < |cps| ==>
      r[i] == AvailablePort(AsU16(cps[i].containerPort), cps[i].name, cps[i].protocol.GetOr(DefaultProtocol))
  {
    if |cps| == 0 then []
    else [AvailablePort(AsU16(cps[0].containerPort), cps[0].name, cps[0].protocol.GetOr(DefaultProtocol))] + AsAvailable(cps[1..])
  }

  /** The entries of `xs` carrying port number `k`, in order. */
  function WithPort(xs: seq<AvailablePort>, k: Port): (r: seq<AvailablePort>)
    ensures |r| <= |xs|
  {
    if |xs| == 0 then [] else (if xs[0].port == k then [xs[0]] else []) + WithPort(xs[1..], k)
  }

  lemma {:induction false} WithPortMembers(xs: seq<AvailablePort>, k: Port)
    ensures forall e :: e in WithPort(xs, k) <==> e in xs && e.port == k
  {
    if |xs| > 0 {
      WithPortMembers(xs[1..], k);
      assert xs == [xs[0]] + xs[1..];
    }
  }

  lemma {:induction false} WithPortAbsent(xs: seq<AvailablePort>, k: Port)
    requires forall i :: 0 <= i < |xs| ==> xs[i].port != k
    ensures WithPort(xs, k) == []
  {
    if |xs| > 0 {
      WithPortAbsent(xs[1..], k);
    }
  }

  lemma PortsOfCons(a: AvailablePort, xs: seq<AvailablePort>)
    ensures PortsOf([a] + xs) == {a.port} + PortsOf(xs)
  {
    forall p ensures p in PortsOf([a] + xs) <==> p in {a.port} + PortsOf(xs) {
      if p in PortsOf([a] + xs) {
        var e :| e in [a] + xs && e.port == p;
      }
    }
  }

  function PortsOf(xs: seq<AvailablePort>): set<Port> {
    set e | e in xs :: e.port
  }

  predicate Ascending(xs: seq<AvailablePort>) {
    forall i, j :: 0 <= i < j < |xs| ==> xs[i].port <= xs[j].port
  }

  predicate StrictlyAscending(xs: seq<AvailablePort>) {
    forall i, j :: 0 <= i < j < |xs| ==> xs[i].port < xs[j].port
  }

  lemma {:induction false} WithPortConcat(a: seq<AvailablePort>, b: seq<AvailablePort>, k: Port)
    ensures WithPort(a + b, k) == WithPort(a, k) + WithPort(b, k)
  {
    if |a| == 0 {
      assert a + b == b;
    } else {
      assert (a + b)[1..] == a[1..] + b;
      WithPortConcat(a[1..], b, k);
    }
  }

  /** Stable insertion: `x` goes after every entry whose port is not larger. */
  function Insert(s: seq<AvailablePort>, x: AvailablePort): (r: seq<AvailablePort>)
    ensures |r| == |s| + 1
  {
    if |s| == 0 then [x]
    else if s[0].port > x.port then [x] + s
    else [s[0]] + Insert(s[1..], x)
  }

  lemma {:induction false} InsertPermutes(s: seq<AvailablePort>, x: AvailablePort)
    ensures multiset(Insert(s, x)) == multiset(s) + multiset{x}
  {
    if |s| > 0 && s[0].port <= x.port {
      InsertPermutes(s[1..], x);
      assert s == [s[0]] + s[1..];
    }
  }

  lemma {:induction false} InsertAscending(s: seq<AvailablePort>, x: AvailablePort)
    requires Ascending(s)
    ensures Ascending(Insert(s, x))
  {
    if |s| > 0 && s[0].port <= x.port {
      var t := Insert(s[1..], x);
      InsertAscending(s[1..], x);
      InsertPermutes(s[1..], x);
      var r := [s[0]] + t;
      forall i, j | 0 <= i < j < |r| ensures r[i].port <= r[j].port {
        if i == 0 {
          assert r[j] in multiset(t);
        }
      }
    }
  }

  /** Among entries with one port number, the inserted entry comes last. */
  lemma {:induction false} InsertWithPort(s: seq<AvailablePort>, x: AvailablePort, k: Port)
    requires Ascending(s)
    ensures WithPort(Insert(s, x), k) == WithPort(s, k) + (if x.port == k then [x] else [])
  {
    if |s| == 0 {
    } else if s[0].port > x.port {
      WithPortConcat([x], s, k);
      if x.port == k {
        WithPortAbsent(s, k);
      }
    } else {
      InsertWithPort(s[1..], x, k);
      WithPortConcat([s[0]], Insert(s[1..], x), k);
      WithPortConcat([s[0]], s[1..], k);
      assert s == [s[0]] + s[1..];
    }
  }

  /** `sort_by_key(|p| p.port)`: a stable sort, built by inserting each entry
      in turn. */
  function SortByPort(s: seq<AvailablePort>): (r: seq<AvailablePort>)
    ensures |r| == |s|
  {
    if |s| == 0 then [] else Insert(SortByPort(s[..|s| - 1]), s[|s| - 1])
  }

  /** The sort is an ascending permutation, and entries with equal port
      numbers keep their relative order. */
  lemma {:induction false} SortByPortProperties(s: seq<AvailablePort>)
    ensures Ascending(SortByPort(s))
    ensures multiset(SortByPort(s)) == multiset(s)
    ensures forall k: Port :: WithPort(SortByPort(s), k) == WithPort(s, k)
  {
    if |s| > 0 {
      var init := s[..|s| - 1];
      var last := s[|s| - 1];
      assert s == init + [last];
      SortByPortProperties(init);
      InsertAscending(SortByPort(init), last);
      InsertPermutes(SortByPort(init), last);
      forall k: Port ensures WithPort(SortByPort(s), k) == WithPort(s, k) {
        InsertWithPort(SortByPort(init), last, k);
        WithPortConcat(init, [last], k);
      }
    }
  }

  /** `dedup_by_key(|p| p.port)`: of each run of equal port numbers only the
      first entry stays. */
  function DedupByPort(s: seq<AvailablePort>): (r: seq<AvailablePort>)
    ensures |r| <= |s|
    decreases |s|
  {
    if |s| <= 1 then s
    else if s[0].port == s[1].port then DedupByPort([s[0]] + s[2..])
    else [s[0]] + DedupByPort(s[1..])
  }

  lemma {:induction false} DedupKeepsHeadAndMembers(s: seq<AvailablePort>)
    ensures |s| > 0 ==> |DedupByPort(s)| > 0 && DedupByPort(s)[0] == s[0]
    ensures forall e :: e in DedupByPort(s) ==> e in s
    decreases |s|
  {
    if |s| <= 1 {
    } else if s[0].port == s[1].port {
      DedupKeepsHeadAndMembers([s[0]] + s[2..]);
    } else {
      DedupKeepsHeadAndMembers(s[1..]);
    }
  }

  /** On a sorted list the result is strictly ascending. */
  lemma {:induction false} DedupStrictlyAscending(s: seq<AvailablePort>)
    requires Ascending(s)
    ensures StrictlyAscending(DedupByPort(s))
    decreases |s|
  {
    if |s| <= 1 {
    } else if s[0].port == s[1].port {
      DedupStrictlyAscending([s[0]] + s[2..]);
    } else {
      var t := DedupByPort(s[1..]);
      DedupStrictlyAscending(s[1..]);
      DedupKeepsHeadAndMembers(s[1..]);
      var r := [s[0]] + t;
      forall i, j | 0 <= i < j < |r| ensures r[i].port < r[j].port {
        if i == 0 {
          assert r[j] in t;
          var m :| 0 <= m < |s[1..]| && s[1..][m] == r[j];
          assert s[1] == s[1..][0];
        }
      }
    }
  }

  /** Every port number of the input survives. */
  lemma {:induction false} DedupKeepsPorts(s: seq<AvailablePort>)
    ensures PortsOf(DedupByPort(s)) == PortsOf(s)
    decreases |s|
  {
    if |s| <= 1 {
    } else if s[0].port == s[1].port {
      var rest := [s[0]] + s[2..];
      DedupKeepsPorts(rest);
      assert s == [s[0]] + ([s[1]] + s[2..]);
      PortsOfCons(s[0], [s[1]] + s[2..]);
      PortsOfCons(s[1], s[2..]);
      PortsOfCons(s[0], s[2..]);
    } else {
      DedupKeepsPorts(s[1..]);
      assert s == [s[0]] + s[1..];
      PortsOfCons(s[0], s[1..]);
      PortsOfCons(s[0], DedupByPort(s[1..]));
    }
  }

  lemma AscendingTail(s: seq<AvailablePort>)
    requires Ascending(s) && |s| > 0
    ensures Ascending(s[1..])
  {
  }

  lemma AscendingSkipSecond(s: seq<AvailablePort>)
    requires Ascending(s) && |s| > 1
    ensures Ascending([s[0]] + s[2..])
  {
    var rest := [s[0]] + s[2..];
    forall i, j | 0 <= i < j < |rest| ensures rest[i].port <= rest[j].port {
      assert rest[j] == s[j + 1];
      if i > 0 { assert rest[i] == s[i + 1]; }
    }
  }

  /** On a sorted list each surviving entry is the first entry of the input
      with its port number. */
  lemma {:induction false} DedupKeepsFirst(s: seq<AvailablePort>, e: AvailablePort)
    requires Ascending(s)
    requires e in DedupByPort(s)
    ensures |WithPort(s, e.port)| > 0 && WithPort(s, e.port)[0] == e
    decreases |s|
  {
    var k := e.port;
    if |s| <= 1 {
      assert e == s[0];
      assert WithPort(s, k) == [s[0]] + WithPort(s[1..], k);
    } else if s[0].port == s[1].port {
      var rest := [s[0]] + s[2..];
      AscendingSkipSecond(s);
      DedupKeepsFirst(rest, e);
      assert s == [s[0], s[1]] + s[2..];
      WithPortConcat([s[0], s[1]], s[2..], k);
      WithPortConcat([s[0]], s[2..], k);
      assert [s[0], s[1]][1..] == [s[1]];
      if k == s[0].port {
        assert WithPort([s[0], s[1]], k) == [s[0], s[1]];
        assert WithPort([s[0]], k) == [s[0]];
      } else {
        assert WithPort([s[0], s[1]], k) == [];
        assert WithPort([s[0]], k) == [];
      }
    } else {
      assert s == [s[0]] + s[1..];
      WithPortConcat([s[0]], s[1..], k);
      if e == s[0] {
        assert WithPort([s[0]], k) == [s[0]];
      } else {
        var t := DedupByPort(s[1..]);
        assert e in t;
        AscendingTail(s);
        DedupKeepsHeadAndMembers(s[1..]);
        DedupKeepsFirst(s[1..], e);
        var m :| 0 <= m < |s[1..]| && s[1..][m] == e;
        assert s[0].port < s[1].port <= e.port;
        assert WithPort([s[0]], k) == [];
      }
    }
  }

  /** The port list of a pod: its container ports sorted, then
      deduplicated. It comes out strictly ascending, one entry per distinct
      port number of the containers, and that entry is the first one
      declared with that number. */
  function PodPorts(flat: seq<AvailablePort>): (r: seq<AvailablePort>)
    ensures StrictlyAscending(r)
    ensures PortsOf(r) == PortsOf(flat)
    ensures forall e :: e in r ==> e in flat && |WithPort(flat, e.port)| > 0 && WithPort(flat, e.port)[0] == e
  {
    var sorted := SortByPort(flat);
    SortByPortProperties(flat);
    DedupStrictlyAscending(sorted);
    DedupKeepsPorts(sorted);
    assert PortsOf(sorted) == PortsOf(flat) by {
      forall e ensures e in sorted <==> e in flat {
        assert e in sorted <==> e in multiset(sorted);
      }
    }
    assert forall e :: e in DedupByPort(sorted) ==>
      e in flat && |WithPort(flat, e.port)| > 0 && WithPort(flat, e.port)[0] == e by {
      forall e | e in DedupByPort(sorted)
        ensures e in flat && |WithPort(flat, e.port)| > 0 && WithPort(flat, e.port)[0] == e
      {
        DedupKeepsFirst(sorted, e);
        DedupKeepsHeadAndMembers(sorted);
        assert e in multiset(sorted);
        assert WithPort(sorted, e.port) == WithPort(flat, e.port);
      }
    }
    DedupByPort(sorted)
  }

  // ---------------------------------------------------------------------
  // Ports of a service: one entry per service port, named target ports
  // resolved against one selected pod.

  /** The (name, number) pairs of the named container ports of a pod. */
  function NamedPorts(cs: seq<Container>): seq<(string, int)> {
    if |cs| == 0 then []
    else
      var own := match cs[0].ports
        case None => []
        case Some(cps) => NamedOf(cps);
      own + NamedPorts(cs[1..])
  }

  function NamedOf(cps: seq<ContainerPort>): seq<(string, int)> {
    if |cps| == 0 then []
    else (if cps[0].name.Some? then [(cps[0].name.value, cps[0].containerPort)] else []) + NamedOf(cps[1..])
  }

  /** `iter().find(|(n, _)| n == name)`. */
  function LookupNamed(named: seq<(string, int)>, name: string): (r: Option<int>)
    ensures r.None? <==> forall i :: 0 <= i < |named| ==> named[i].0 != name
    ensures r.Some? ==> (exists i :: 0 <= i < |named| && named[i] == (name, r.value)
                           && forall j :: 0 <= j < i ==> named[j].0 != name)
  {
    if |named| == 0 then None
    else if named[0].0 == name then Some(named[0].1)
    else
      var r := LookupNamed(named[1..], name);
      if r.Some? then
        ghost var i :| 0 <= i < |named[1..]| && named[1..][i] == (name, r.value)
          && forall j :: 0 <= j < i ==> named[1..][j].0 != name;
        assert named[i + 1] == (name, r.value);
        r
      else r
  }

  /** The named ports used for `targetPort` names: those of the first pod
      of a selector list limited to one; none when the service has no
      selector, the list fails or the pod has no spec. */
  function LookupPodPorts(ns: Namespace, selector: Option<map<string, string>>): (r: seq<(string, int)>)
    ensures selector.None? || !ns.podListOk ==> r == []
    ensures selector.Some? && (forall i :: 0 <= i < |ns.pods| ==> !Selects(selector.value, ns.pods[i])) ==> r == []
    ensures selector.Some? && ns.podListOk ==>
      forall i :: 0 <= i < |ns.pods| && Selects(selector.value, ns.pods[i])
                  && (forall j :: 0 <= j < i ==> !Selects(selector.value, ns.pods[j])) ==>
        r == (if ns.pods[i].spec.Some? then NamedPorts(ns.pods[i].spec.value.containers) else [])
  {
    if selector.None? || !ns.podListOk then []
    else
      var selected := SelectPods(ns.pods, selector.value);
      assert |selected| > 0 ==> selected[0] in selected;
      assert forall i :: 0 <= i < |ns.pods| && Selects(selector.value, ns.pods[i])
                         && (forall j :: 0 <= j < i ==> !Selects(selector.value, ns.pods[j])) ==>
        |selected| > 0 && selected[0] == ns.pods[i] by {
        forall i | 0 <= i < |ns.pods| && Selects(selector.value, ns.pods[i])
                   && (forall j :: 0 <= j < i ==> !Selects(selector.value, ns.pods[j]))
          ensures |selected| > 0 && selected[0] == ns.pods[i]
        {
          FirstSelected(ns.pods, selector.value, i);
        }
      }
      if |selected| == 0 || selected[0].spec.None? then []
      else NamedPorts(selected[0].spec.value.containers)
  }

  /** The first pod a selector picks is the first pod of the selected list. */
  lemma {:induction false} FirstSelected(pods: seq<Pod>, selector: map<string, string>, i: nat)
    requires i < |pods| && Selects(selector, pods[i])
    requires forall j :: 0 <= j < i ==> !Selects(selector, pods[j])
    ensures |SelectPods(pods, selector)| > 0 && SelectPods(pods, selector)[0] == pods[i]
  {
    if i > 0 {
      FirstSelected(pods[1..], selector, i - 1);
    }
  }

  /** The pod-side port for one service port. */
  function TargetPort(sp: ServicePort, named: seq<(string, int)>): (p: Port)
    ensures sp.targetPort.None? ==> p == AsU16(sp.port)
    ensures sp.targetPort.Some? && sp.targetPort.value.IntPort? ==> p == AsU16(sp.targetPort.value.number)
    ensures sp.targetPort.Some? && sp.targetPort.value.NamedPort? ==>
      (if exists i :: 0 <= i < |named| && named[i].0 == sp.targetPort.value.portName
       then exists i :: 0 <= i < |named| && named[i].0 == sp.targetPort.value.portName && p == AsU16(named[i].1)
                        && forall j :: 0 <= j < i ==> named[j].0 != sp.targetPort.value.portName
       else p == AsU16(sp.port))
  {
    match sp.targetPort
    case Some(IntPort(n)) => AsU16(n)
    case Some(NamedPort(name)) => AsU16(LookupNamed(named, name).GetOr(sp.port))
    case None => AsU16(sp.port)
  }

  function ServicePorts(sps: seq<ServicePort>, named: seq<(string, int)>): (r: seq<AvailablePort>)
    ensures |r| == |sps|
    ensures forall i :: 0 <= i < |sps| ==>
      r[i] == AvailablePort(TargetPort(sps[i], named), sps[i].name, sps[i].protocol.GetOr(DefaultProtocol))
  {
    if |sps| == 0 then []
    else [AvailablePort(TargetPort(sps[0], named), sps[0].name, sps[0].protocol.GetOr(DefaultProtocol))]
         + ServicePorts(sps[1..], named)
  }

  /** `get_resource_ports`. */
  function GetResourcePorts(ns: Namespace, kind: ResourceType, name: string): (r: Result<seq<AvailablePort>, AppError>)
    ensures !ns.clientOk ==> r == Err(ClientError)
    ensures ns.clientOk && kind == PodResource ==>
      match FindPod(ns.pods, name)
      case None => r == Err(PodNotFound(name))
      case Some(pod) => (r.Ok? && StrictlyAscending(r.value)
                         && (pod.spec.None? ==> r.value == [])
                         && (pod.spec.Some? ==> r.value == PodPorts(ContainerPortsOf(pod.spec.value.containers)))
                         && (pod.spec.Some? ==> PortsOf(r.value) == PortsOf(ContainerPortsOf(pod.spec.value.containers))))
    ensures ns.clientOk && kind == ServiceResource ==>
      match FindService(ns.services, name)
      case None => r == Err(ServiceNotFound(name))
      case Some(svc) => (r.Ok?
                         && (svc.spec.None? || svc.spec.value.ports.None? ==> r.value == [])
                         && (svc.spec.Some? && svc.spec.value.ports.Some? ==> |r.value| == |svc.spec.value.ports.value|)
                         && (svc.spec.Some? && svc.spec.value.ports.Some? ==>
                               r.value == ServicePorts(svc.spec.value.ports.value, LookupPodPorts(ns, svc.spec.value.selector))))
  {
    if !ns.clientOk then Err(ClientError)
    else
      match kind
      case PodResource =>
        (match FindPod(ns.pods, name)
         case None => Err(PodNotFound(name))
         case Some(pod) =>
           if pod.spec.None? then Ok([])
           else
             Ok(PodPorts(ContainerPortsOf(pod.spec.value.containers))))
      case ServiceResource =>
        (match FindService(ns.services, name)
         case None => Err(ServiceNotFound(name))
         case Some(svc) =>
           if svc.spec.None? then Ok([])
           else
             var named := LookupPodPorts(ns, svc.spec.value.selector);
             match svc.spec.value.ports
             case None => Ok([])
             case Some(sps) => Ok(ServicePorts(sps, named)))
  }

  /** A service port whose `targetPort` is "http" reaches the pod's
      container port named "http"; with no such name it falls back to the
      service's own port. */
  lemma NamedTargetPortExample(svcPort: int)
    requires 0 <= svcPort < 0x1_0000
    ensures TargetPort(ServicePort(None, svcPort, Some(NamedPort("http")), None), [("http", 8080)]) == 8080
    ensures TargetPort(ServicePort(None, svcPort, Some(NamedPort("http")), None), [("metrics", 9090)]) == svcPort
  {
    assert LookupNamed([("http", 8080)], "http") == Some(8080);
  }
}

=== FILE: search.dfy ===
/** The search store of src/lib/stores/search.ts: the generic substring
    filter over resource rows, the global search across the eighteen
    resource lists and the result count. A row is a plain object, a map from
    property name to value; a missing property reads as undefined. */
module Search {
  import opened Wrappers
  import opened Text
  import opened JsValues
  import opened Seqs

  type Item = map<string, Value>

  /** `item[field]`. */
  function Property(item: Item, field: string): Value {
    if field in item then item[field] else Undefined
  }

  /** `String(v).toLowerCase().includes(q)`. */
  predicate Shows(v: Value, q: string) {
    Contains(ToLowerAscii(JsString(v)), q)
  }

  /** One field's rule: null and undefined never match; an array matches
      when one of its elements does (a null element prints "null" here);
      anything else matches by its printed form. */
  predicate FieldMatches(item: Item, field: string, q: string): (b: bool)
    ensures field !in item ==> !b
    ensures IsNullish(Property(item, field)) ==> !b
    ensures Property(item, field).Str? ==> (b <==> Contains(ToLowerAscii(Property(item, field).s), q))
    ensures Property(item, field).Arr? ==>
      (b <==> exists k :: 0 <= k < |Property(item, field).items| && Shows(Property(item, field).items[k], q))
    ensures Property(item, field).Arr? && Null in Property(item, field).items && Contains("null", q) ==> b
  {
    var v := Property(item, field);
    assert ToLowerAscii("null") == "null";
    assert OccursAt("null", "null", 0);
    if IsNullish(v) then false
    else if v.Arr? then exists k :: 0 <= k < |v.items| && Shows(v.items[k], q)
    else Shows(v, q)
  }

  /** Some listed field matches. */
  predicate ItemMatches(item: Item, fields: seq<string>, q: string) {
    exists f :: f in fields && FieldMatches(item, f, q)
  }

  /** The rows that match, in their original order. */
  function Keep(items: seq<Item>, fields: seq<string>, q: string): seq<Item> {
    Filter(items, (x: Item) => ItemMatches(x, fields, q))
  }

  /** `filterBySearch`: a blank query (JavaScript whitespace only) keeps
      every row; otherwise the query is lower-cased, without trimming, and
      the rows with a matching field are kept. */
  function FilterBySearch(items: seq<Item>, query: string, fields: seq<string>): (r: seq<Item>)
    ensures IsJsBlank(query) ==> r == items
    ensures !IsJsBlank(query) ==>
      forall x :: multiset(r)[x] == if ItemMatches(x, fields, ToLowerAscii(query)) then multiset(items)[x] else 0
  {
    if IsJsBlank(query) then items else Keep(items, fields, ToLowerAscii(query))
  }

  /** The filter keeps the rows' order. */
  lemma FilterBySearchIsSubsequence(items: seq<Item>, query: string, fields: seq<string>)
    ensures SubsequenceOf(FilterBySearch(items, query, fields), items)
  {
    if IsJsBlank(query) {
      SubsequenceReflexive(items);
    } else {
      FilterIsSubsequence(items, (x: Item) => ItemMatches(x, fields, ToLowerAscii(query)));
    }
  }

  /** Filtering twice with the same query and fields is filtering once. */
  lemma FilterBySearchIdempotent(items: seq<Item>, query: string, fields: seq<string>)
    ensures FilterBySearch(FilterBySearch(items, query, fields), query, fields) == FilterBySearch(items, query, fields)
  {
    if !IsJsBlank(query) {
      FilterIdempotent(items, (x: Item) => ItemMatches(x, fields, ToLowerAscii(query)));
    }
  }

  /** A row whose first listed field is a string holding the lower-cased
      query is kept, whatever its case. */
  lemma StringHitKept(items: seq<Item>, query: string, fields: seq<string>, i: nat, s: string)
    requires i < |items| && |fields| > 0 && !IsJsBlank(query)
    requires Property(items[i], fields[0]) == Str(s)
    requires Contains(ToLowerAscii(s), ToLowerAscii(query))
    ensures items[i] in FilterBySearch(items, query, fields)
  {
    assert fields[0] in fields && FieldMatches(items[i], fields[0], ToLowerAscii(query));
    assert items[i] in multiset(items);
  }

  /** The fields searched for each of the eighteen resource kinds, in the
      order of the result record. Every kind is searched by name. */
  const SearchFields: seq<seq<string>> := [
    ["name", "namespace", "status", "node"],
    ["name", "namespace"],
    ["name", "namespace"],
    ["name", "namespace"],
    ["name", "namespace", "owner"],
    ["name", "namespace"],
    ["name", "namespace", "schedule"],
    ["name", "namespace", "service_type", "cluster_ip"],
    ["name", "namespace", "hosts"],
    ["name", "namespace"],
    ["name", "namespace"],
    ["name", "namespace", "secret_type"],
    ["name", "namespace", "reference"],
    ["name", "status", "storage_class"],
    ["name", "namespace", "status", "volume"],
    ["name", "status"],
    ["name", "status", "roles"],
    ["name", "namespace"]
  ]

  /** The resource kinds, in the order of the result record. */
  const Kinds: seq<string> := [
    "pods", "deployments", "statefulsets", "daemonsets", "replicasets", "jobs",
    "cronjobs", "services", "ingresses", "networkPolicies", "configmaps", "secrets",
    "hpas", "pvs", "pvcs", "namespaces", "nodes", "serviceAccounts"
  ]

  lemma EveryKindSearchedByName()
    ensures |SearchFields| == |Kinds| == 18
    ensures forall k :: 0 <= k < |SearchFields| ==> |SearchFields[k]| > 0 && SearchFields[k][0] == "name"
  {
  }

  /** `globalSearchResults`: no results at all for a blank query, otherwise
      each kind's list filtered by its fields. */
  function GlobalSearch(query: string, lists: seq<seq<Item>>): (r: Option<seq<seq<Item>>>)
    requires |lists| == |SearchFields|
    ensures r.None? <==> IsJsBlank(query)
    ensures r.Some? ==> |r.value| == |lists|
    ensures r.Some? ==> forall k :: 0 <= k < |lists| ==> SubsequenceOf(r.value[k], lists[k])
    ensures r.Some? ==> forall k :: 0 <= k < |lists| ==> r.value[k] == FilterBySearch(lists[k], query, SearchFields[k])
  {
    if IsJsBlank(query) then None
    else
      var results := seq(|lists|, k requires 0 <= k < |lists| => FilterBySearch(lists[k], query, SearchFields[k]));
      assert forall k :: 0 <= k < |lists| ==> SubsequenceOf(results[k], lists[k]) by {
        forall k | 0 <= k < |lists| ensures SubsequenceOf(results[k], lists[k]) {
          FilterBySearchIsSubsequence(lists[k], query, SearchFields[k]);
        }
      }
      Some(results)
  }

  /** Every kind's list keeps each row whose name holds the query. */
  lemma FoundByName(query: string, lists: seq<seq<Item>>, k: nat, i: nat, name: string)
    requires |lists| == |SearchFields| && !IsJsBlank(query)
    requires k < |lists| && i < |lists[k]|
    requires Property(lists[k][i], "name") == Str(name)
    requires Contains(ToLowerAscii(name), ToLowerAscii(query))
    ensures lists[k][i] in GlobalSearch(query, lists).value[k]
  {
    EveryKindSearchedByName();
    StringHitKept(lists[k], query, SearchFields[k], i, name);
  }

  function TotalLength(lists: seq<seq<Item>>): nat {
    if |lists| == 0 then 0 else |lists[0]| + TotalLength(lists[1..])
  }

  /** `countResults`: 0 for no results, else the sum of the list lengths. */
  function CountResults(results: Option<seq<seq<Item>>>): (n: nat)
    ensures results.None? ==> n == 0
  {
    match results
    case None => 0
    case Some(lists) => TotalLength(lists)
  }

  lemma {:induction false} TotalLengthZero(lists: seq<seq<Item>>)
    ensures TotalLength(lists) == 0 <==> forall k :: 0 <= k < |lists| ==> |lists[k]| == 0
  {
    if |lists| > 0 {
      TotalLengthZero(lists[1..]);
      assert forall k :: 1 <= k < |lists| ==> lists[k] == lists[1..][k - 1];
    }
  }

  /** The count is 0 exactly when there are no results or every list is
      empty. */
  lemma CountZero(results: Option<seq<seq<Item>>>)
    ensures CountResults(results) == 0 <==>
      (results.None? || forall k :: 0 <= k < |results.value| ==> |results.value[k]| == 0)
  {
    if results.Some? {
      TotalLengthZero(results.value);
    }
  }

  lemma {:induction false} TotalLengthMonotone(a: seq<seq<Item>>, b: seq<seq<Item>>)
    requires |a| == |b|
    requires forall k :: 0 <= k < |a| ==> |a[k]| <= |b[k]|
    ensures TotalLength(a) <= TotalLength(b)
  {
    if |a| > 0 {
      TotalLengthMonotone(a[1..], b[1..]);
    }
  }

  /** The count is 0 for a blank query and never exceeds the number of rows
      loaded. */
  lemma CountBounded(query: string, lists: seq<seq<Item>>)
    requires |lists| == |SearchFields|
    ensures IsJsBlank(query) ==> CountResults(GlobalSearch(query, lists)) == 0
    ensures CountResults(GlobalSearch(query, lists)) <= TotalLength(lists)
  {
    var r := GlobalSearch(query, lists);
    if r.Some? {
      forall k | 0 <= k < |lists| ensures |r.value[k]| <= |lists[k]| {
        SubsequenceShorter(r.value[k], lists[k]);
      }
      TotalLengthMonotone(r.value, lists);
    }
  }
}

=== FILE: seqs.dfy ===
/** Filtering (`Array.prototype.filter`, the order it keeps) and counting
    (`iter().filter(..).count()`), shared by the back end's summaries and
    the front end's stores. */
module Seqs {
  /** The elements satisfying `p`, in their original order. */
  function Filter<T(==,!new)>(s: seq<T>, p: T -> bool): (r: seq<T>)
    ensures |r| <= |s|
    ensures forall x :: x in r ==> x in s && p(x)
    ensures forall x :: multiset(r)[x] == if p(x) then multiset(s)[x] else 0
    decreases |s|
  {
    if |s| == 0 then []
    else
      var rest := Filter(s[1..], p);
      assert s == [s[0]] + s[1..];
      if p(s[0]) then [s[0]] + rest else rest
  }

  /** `a` is `b` with some elements dropped, the rest in the same order. */
  predicate SubsequenceOf<T(==,!new)>(a: seq<T>, b: seq<T>)
    decreases |b|
  {
    if |a| == 0 then true
    else if |b| == 0 then false
    else if a[0] == b[0] then SubsequenceOf(a[1..], b[1..])
    else SubsequenceOf(a, b[1..])
  }

  lemma {:induction false} SubsequenceReflexive<T(!new)>(a: seq<T>)
    ensures SubsequenceOf(a, a)
  {
    if |a| > 0 {
      SubsequenceReflexive(a[1..]);
    }
  }

  lemma {:induction false} SubsequenceShorter<T(!new)>(a: seq<T>, b: seq<T>)
    requires SubsequenceOf(a, b)
    ensures |a| <= |b|
    decreases |b|
  {
    if |a| > 0 && |b| > 0 {
      if a[0] == b[0] {
        SubsequenceShorter(a[1..], b[1..]);
      } else {
        SubsequenceShorter(a, b[1..]);
      }
    }
  }

  /** Filtering keeps the order of what it keeps. */
  lemma {:induction false} FilterIsSubsequence<T(!new)>(s: seq<T>, p: T -> bool)
    ensures SubsequenceOf(Filter(s, p), s)
    decreases |s|
  {
    if |s| > 0 {
      FilterIsSubsequence(s[1..], p);
    }
  }

  /** Filtering what is already filtered changes nothing. */
  lemma {:induction false} FilterIdempotent<T(!new)>(s: seq<T>, p: T -> bool)
    ensures Filter(Filter(s, p), p) == Filter(s, p)
    decreases |s|
  {
    if |s| > 0 {
      FilterIdempotent(s[1..], p);
      var rest := Filter(s[1..], p);
      if p(s[0]) {
        assert ([s[0]] + rest)[1..] == rest;
      }
    }
  }

  /** When every element passes, the filter returns the input itself. */
  lemma {:induction false} FilterAll<T(!new)>(s: seq<T>, p: T -> bool)
    requires forall i :: 0 <= i < |s| ==> p(s[i])
    ensures Filter(s, p) == s
    decreases |s|
  {
    if |s| > 0 {
      FilterAll(s[1..], p);
      assert [s[0]] + s[1..] == s;
    }
  }

  /** When no element passes, the filter is empty. */
  lemma {:induction false} FilterNone<T(!new)>(s: seq<T>, p: T -> bool)
    requires forall i :: 0 <= i < |s| ==> !p(s[i])
    ensures Filter(s, p) == []
    decreases |s|
  {
    if |s| > 0 {
      FilterNone(s[1..], p);
    }
  }

  /** How many items satisfy a predicate (`iter().filter(..).count()`). */
  function CountWhere<T>(xs: seq<T>, p: T -> bool): (n: nat)
    ensures n <= |xs|
    ensures n == 0 <==> forall i :: 0 <= i < |xs| ==> !p(xs[i])
    ensures n == |xs| <==> forall i :: 0 <= i < |xs| ==> p(xs[i])
  {
    if |xs| == 0 then 0
    else
      var rest := CountWhere(xs[1..], p);
      assert forall i :: 1 <= i < |xs| ==> xs[i] == xs[1..][i - 1];
      (if p(xs[0]) then 1 else 0) + rest
  }

  /** Counting distributes over concatenation. */
  lemma {:induction false} CountWhereConcat<T>(a: seq<T>, b: seq<T>, p: T -> bool)
    ensures CountWhere(a + b, p) == CountWhere(a, p) + CountWhere(b, p)
  {
    if |a| == 0 {
      assert a + b == b;
    } else {
      assert (a + b)[1..] == a[1..] + b;
      CountWhereConcat(a[1..], b, p);
    }
  }
}

=== FILE: shell_env.dfy ===
/** `fix_path_env` (src-tauri/src/lib.rs): at start-up on macOS and Linux
    the app runs the user's login shell with `env` and copies the variables
    it prints into its own environment, so that exec-based cluster
    credentials find their helper binaries. The model covers which lines are
    accepted, what they set and the reported count; running the shell is an
    input. */
module ShellEnv {
  import opened Wrappers
  import opened Text
  import opened Seqs

  /** Bytes of a char in UTF-8. */
  function Utf8Len(c: char): (n: nat)
    ensures 1 <= n <= 4
    ensures n == 1 <==> (c as int) < 0x80
  {
    if (c as int) < 0x80 then 1
    else if (c as int) < 0x800 then 2
    else if (c as int) < 0x1_0000 then 3
    else 4
  }

  /** Bytes of a string in UTF-8. */
  function ByteLen(s: string): (n: nat)
    ensures n >= |s|
    ensures (forall i :: 0 <= i < |s| ==> (s[i] as int) < 0x80) ==> n == |s|
  {
    if |s| == 0 then 0 else ByteLen(s[..|s| - 1]) + Utf8Len(s[|s| - 1])
  }

  /** Removes one trailing carriage return. */
  function StripCr(line: string): (r: string)
    ensures r == line || line == r + ['\r']
  {
    if |line| > 0 && line[|line| - 1] == '\r' then line[..|line| - 1] else line
  }

  /** Rust's `str::lines`: split at "\n" or "\r\n"; a final line ending adds
      no empty line, and a lone '\r' not followed by '\n' stays in its line. */
  function Lines(text: string): (r: seq<string>)
    ensures forall i :: 0 <= i < |r| ==> '\n' !in r[i]
    ensures |text| == 0 ==> r == []
    decreases |text|
  {
    if |text| == 0 then []
    else
      match IndexOf(text, '\n')
      case None => [text]
      case Some(i) => [StripCr(text[..i])] + Lines(text[i + 1..])
  }

  /** Lines each followed by "\n", as `env` prints its variables. */
  function Terminated(lines: seq<string>): string {
    if |lines| == 0 then "" else lines[0] + "\n" + Terminated(lines[1..])
  }

  /** Splitting `env`'s output gives back its lines, provided no line holds
      a newline or ends in a carriage return. */
  lemma {:induction false} LinesOfTerminated(lines: seq<string>)
    requires forall i :: 0 <= i < |lines| ==> PlainLine(lines[i])
    ensures Lines(Terminated(lines)) == lines
  {
    if |lines| > 0 {
      var others := lines[1..];
      assert forall i :: 0 <= i < |others| ==> others[i] == lines[i + 1];
      LinesOfTerminated(others);
      LinesCons(lines[0], Terminated(others));
      assert lines == [lines[0]] + others;
    }
  }

  /** A plain line followed by a newline comes out as one line. */
  lemma LinesCons(first: string, rest: string)
    requires PlainLine(first)
    ensures Lines(first + "\n" + rest) == [first] + Lines(rest)
  {
    var text := first + "\n" + rest;
    assert text[|first|] == '\n' && text[..|first|] == first && text[|first| + 1..] == rest;
    LinesAt(text, |first|);
  }

  /** A line as `env` prints it: no newline inside, no carriage return at
      its end. */
  predicate PlainLine(line: string) {
    '\n' !in line && (|line| == 0 || line[|line| - 1] != '\r')
  }

  /** At the first newline, `Lines` yields the text before it, less a
      trailing carriage return, and then the lines after it. */
  lemma LinesAt(text: string, i: nat)
    requires i < |text| && text[i] == '\n' && '\n' !in text[..i]
    ensures Lines(text) == [StripCr(text[..i])] + Lines(text[i + 1..])
  {
    assert IndexOf(text, '\n') == Some(i);
  }

  /** The variables the app must keep its own values of. */
  predicate Protected(key: string) {
    key == "PWD" || key == "_" || key == "SHLVL" || key == "OLDPWD"
  }

  predicate IsNameChar(c: char) {
    ('a' <= c <= 'z') || ('A' <= c <= 'Z') || ('0' <= c <= '9') || c == '_'
  }

  predicate ValidName(key: string) {
    forall i :: 0 <= i < |key| ==> IsNameChar(key[i])
  }

  /** One line of the shell's output: the variable it sets, if any. The
      line needs an '=' whose first occurrence lies at a byte offset
      strictly between 0 and 64; the key before it must be a valid name and
      not protected; the value is everything after it. */
  function ParseLine(line: string): (r: Option<(string, string)>)
    ensures r.Some? ==> line == r.value.0 + "=" + r.value.1
    ensures r.Some? ==> 0 < ByteLen(r.value.0) < 64 && '=' !in r.value.0
    ensures r.Some? ==> ValidName(r.value.0) && !Protected(r.value.0)
    ensures '=' !in line ==> r.None?
  {
    match IndexOf(line, '=')
    case None => None
    case Some(eq) =>
      var key := line[..eq];
      var value := line[eq + 1..];
      assert line == key + "=" + value;
      if 0 < ByteLen(key) < 64 && !Protected(key) && ValidName(key) then Some((key, value)) else None
  }

  /** Round trip: a line `key=value` with a valid, unprotected key of 1 to 63
      characters sets exactly that variable to exactly that value, whatever
      '=' the value holds. */
  lemma ParseLineRoundTrip(key: string, value: string)
    requires 0 < |key| < 64 && ValidName(key) && !Protected(key)
    ensures ParseLine(key + "=" + value) == Some((key, value))
  {
    var line := key + "=" + value;
    assert '=' !in key by {
      forall i | 0 <= i < |key| ensures key[i] != '=' {
        assert IsNameChar(key[i]);
      }
    }
    assert line[|key|] == '=' && line[..|key|] == key;
    assert IndexOf(line, '=') == Some(|key|);
    assert line[|key| + 1..] == value;
    forall i | 0 <= i < |key| ensures (key[i] as int) < 0x80 {
      assert IsNameChar(key[i]);
    }
  }

  /** A key of 64 characters or more is never set. */
  lemma LongKeyRejected(key: string, value: string)
    requires |key| >= 64 && '=' !in key
    ensures ParseLine(key + "=" + value) == None
  {
    var line := key + "=" + value;
    assert line[|key|] == '=' && line[..|key|] == key;
    assert IndexOf(line, '=') == Some(|key|);
  }

  /** The line sets a variable. */
  predicate SetsVariable(line: string) {
    ParseLine(line).Some?
  }

  /** The variables set, in output order. */
  function Accepted(lines: seq<string>): (r: seq<(string, string)>)
    ensures |r| == CountWhere(lines, SetsVariable)
    ensures forall kv :: kv in r <==> exists i :: 0 <= i < |lines| && ParseLine(lines[i]) == Some(kv)
  {
    if |lines| == 0 then []
    else
      var rest := Accepted(lines[1..]);
      assert forall i :: 1 <= i < |lines| ==> lines[i] == lines[1..][i - 1];
      match ParseLine(lines[0])
      case Some(kv) => [kv] + rest
      case None => rest
  }

  /** The loop of `fix_path_env` read line by line: one more line of output
      adds its variable at the end when it sets one, and nothing otherwise. */
  lemma {:induction false} AcceptedAppend(lines: seq<string>, line: string)
    ensures Accepted(lines + [line]) == Accepted(lines) + (if SetsVariable(line) then [ParseLine(line).value] else [])
    decreases |lines|
  {
    if |lines| == 0 {
      assert lines + [line] == [line];
      assert [line][1..] == [];
    } else {
      var longer := lines + [line];
      assert longer[0] == lines[0] && longer[1..] == lines[1..] + [line];
      AcceptedAppend(lines[1..], line);
      AcceptedFirst(longer);
      AcceptedFirst(lines);
      var head := if SetsVariable(lines[0]) then [ParseLine(lines[0]).value] else [];
      var tail := if SetsVariable(line) then [ParseLine(line).value] else [];
      SeqAssoc(head, Accepted(lines[1..]), tail);
    }
  }

  lemma SeqAssoc<T>(a: seq<T>, b: seq<T>, c: seq<T>)
    ensures a + (b + c) == (a + b) + c
  {
  }

  lemma AcceptedFirst(lines: seq<string>)
    requires |lines| > 0
    ensures Accepted(lines) == (if SetsVariable(lines[0]) then [ParseLine(lines[0]).value] else []) + Accepted(lines[1..])
  {
  }

  /** The environment after `set_var` of each pair in order. */
  function SetAll(env: map<string, string>, pairs: seq<(string, string)>): (r: map<string, string>)
    ensures r.Keys == env.Keys + set kv | kv in pairs :: kv.0
    decreases |pairs|
  {
    if |pairs| == 0 then env else SetAll(env[pairs[0].0 := pairs[0].1], pairs[1..])
  }

  /** After setting, a variable holds the value of its last assignment, and
      a variable never assigned keeps its value. */
  lemma SetAllLastWins(env: map<string, string>, pairs: seq<(string, string)>, key: string)
    ensures (forall i :: 0 <= i < |pairs| ==> pairs[i].0 != key) && key in env ==> SetAll(env, pairs)[key] == env[key]
    ensures forall i :: (0 <= i < |pairs| && pairs[i].0 == key && (forall j :: i < j < |pairs| ==> pairs[j].0 != key)
                         ==> SetAll(env, pairs)[key] == pairs[i].1)
  {
    if (forall i :: 0 <= i < |pairs| ==> pairs[i].0 != key) && key in env {
      SetAllUnassigned(env, pairs, key);
    }
    forall i | 0 <= i < |pairs| && pairs[i].0 == key && (forall j :: i < j < |pairs| ==> pairs[j].0 != key)
      ensures SetAll(env, pairs)[key] == pairs[i].1
    {
      SetAllLastAssignment(env, pairs, key, i);
    }
  }

  lemma {:induction false} SetAllUnassigned(env: map<string, string>, pairs: seq<(string, string)>, key: string)
    requires key in env && forall i :: 0 <= i < |pairs| ==> pairs[i].0 != key
    ensures SetAll(env, pairs)[key] == env[key]
    decreases |pairs|
  {
    if |pairs| > 0 {
      assert forall j :: 0 <= j < |pairs[1..]| ==> pairs[1..][j] == pairs[j + 1];
      assert pairs[0].0 != key;
      SetAllUnassigned(env[pairs[0].0 := pairs[0].1], pairs[1..], key);
    }
  }

  lemma {:induction false} SetAllLastAssignment(env: map<string, string>, pairs: seq<(string, string)>, key: string, i: nat)
    requires i < |pairs| && pairs[i].0 == key
    requires forall j :: i < j < |pairs| ==> pairs[j].0 != key
    ensures SetAll(env, pairs)[key] == pairs[i].1
    decreases |pairs|
  {
    var next := env[pairs[0].0 := pairs[0].1];
    assert SetAll(env, pairs) == SetAll(next, pairs[1..]);
    assert forall j :: 0 <= j < |pairs[1..]| ==> pairs[1..][j] == pairs[j + 1];
    if i > 0 {
      SetAllLastAssignment(next, pairs[1..], key, i - 1);
    } else {
      SetAllUnassigned(next, pairs[1..], key);
    }
  }

  /** A protected variable is never changed by the shell's output. */
  lemma ProtectedUntouched(env: map<string, string>, output: string, key: string)
    requires Protected(key) && key in env
    ensures SetAll(env, Accepted(Lines(output)))[key] == env[key]
  {
    var pairs := Accepted(Lines(output));
    forall i | 0 <= i < |pairs| ensures pairs[i].0 != key {
      assert pairs[i] in pairs;
    }
    SetAllLastWins(env, pairs, key);
  }

  datatype Os = MacOs | Linux | Windows

  /** What running `$SHELL -l -c env` gave: the process could not run, it
      exited unsuccessfully, or it succeeded with standard output that is
      (`Some`) or is not (`None`) valid UTF-8. */
  datatype ShellRun = CouldNotRun | ExitFailure | Success(stdout: Option<string>)

  datatype Outcome = Outcome(env: map<string, string>, inherited: Option<nat>)

  function DefaultShell(os: Os): string {
    if os == MacOs then "/bin/zsh" else "/bin/bash"
  }

  /** The shell launched: `$SHELL`, or the platform default when unset. */
  function ShellToRun(os: Os, shellVar: Option<string>): (r: string)
    ensures shellVar.Some? ==> r == shellVar.value
    ensures shellVar.None? && os == MacOs ==> r == "/bin/zsh"
    ensures shellVar.None? && os != MacOs ==> r == "/bin/bash"
  {
    shellVar.GetOr(DefaultShell(os))
  }

  /** `fix_path_env` for a platform: the new environment and the count it
      logs (none when nothing was read). Windows does nothing. */
  function FixPathEnv(os: Os, env: map<string, string>, run: ShellRun): (r: Outcome)
    ensures os == Windows ==> r == Outcome(env, None)
    ensures !(run.Success? && run.stdout.Some?) ==> r.env == env && r.inherited.None?
    ensures os != Windows && run.Success? && run.stdout.Some? ==>
      && r.env == SetAll(env, Accepted(Lines(run.stdout.value)))
      && r.inherited == Some(|Accepted(Lines(run.stdout.value))|)
  {
    if os == Windows then Outcome(env, None)
    else
      match run
      case Success(Some(text)) =>
        var pairs := Accepted(Lines(text));
        Outcome(SetAll(env, pairs), Some(|pairs|))
      case _ => Outcome(env, None)
  }

  /** macOS and Linux filter identically; only the default shell differs. */
  lemma MacAndLinuxAgree(env: map<string, string>, run: ShellRun)
    ensures FixPathEnv(MacOs, env, run) == FixPathEnv(Linux, env, run)
    ensures DefaultShell(MacOs) != DefaultShell(Linux)
  {
  }
}

=== FILE: sorting.dfy ===
/** The table sorting utility of src/lib/utils/sort.ts: the sort-state
    toggle, the comparator `sortData` hands to `Array.prototype.sort`, the
    dotted-path field lookup and the age-string parser. The engine's sort is
    stable (ECMAScript 2019); it is modelled as a stable insertion sort. */
module Sorting {
  import opened Wrappers
  import opened Text
  import opened JsValues
  import Summaries

  datatype Direction = Asc | Desc

  datatype SortState = SortState(field: string, direction: Direction)

  function Flip(d: Direction): Direction {
    if d == Asc then Desc else Asc
  }

  /** `toggleSort`: clicking the sorted column flips its direction, clicking
      another column sorts it ascending. */
  function ToggleSort(current: SortState, field: string): (r: SortState)
    ensures r.field == field
    ensures current.field == field ==> r.direction != current.direction
    ensures current.field != field ==> r.direction == Asc
  {
    if current.field == field then SortState(field, Flip(current.direction))
    else SortState(field, Asc)
  }

  /** Clicking the sorted column twice restores the state; clicking a new
      column twice sorts it descending. */
  lemma ToggleTwice(current: SortState, field: string)
    ensures current.field == field ==> ToggleSort(ToggleSort(current, field), field) == current
    ensures current.field != field ==> ToggleSort(ToggleSort(current, field), field) == SortState(field, Desc)
  {
  }

  /** `getNestedValue`: follow a dotted path (`"metadata.name"`) with
      optional chaining; a missing property or a step from anything but an
      object gives undefined. */
  function GetPath(v: Value, path: seq<string>): (r: Value)
    ensures |path| == 0 ==> r == v
    ensures |path| > 0 && !v.Obj? ==> r == Undefined
    decreases |path|
  {
    if |path| == 0 then v
    else
      match v
      case Obj(fields) => GetPath(if path[0] in fields then fields[path[0]] else Undefined, path[1..])
      case _ => Undefined
  }

  /** Walking a path in two legs is walking it in one. */
  lemma {:induction false} GetPathConcat(v: Value, p: seq<string>, q: seq<string>)
    ensures GetPath(v, p + q) == GetPath(GetPath(v, p), q)
    decreases |p|
  {
    if |p| > 0 {
      assert (p + q)[0] == p[0] && (p + q)[1..] == p[1..] + q;
      match v
      case Obj(fields) =>
        GetPathConcat(if p[0] in fields then fields[p[0]] else Undefined, p[1..], q);
      case _ =>
        if |q| > 0 {
          assert GetPath(Undefined, q) == Undefined;
        }
    } else {
      assert p + q == q;
    }
  }

  /** The value a row shows in a column. */
  function FieldOf(row: Value, field: string): Value {
    GetPath(row, Split(field, '.'))
  }

  /** A field name without a dot is a plain property lookup. */
  lemma PlainFieldLookup(fields: map<string, Value>, field: string)
    requires '.' !in field
    ensures FieldOf(Obj(fields), field) == (if field in fields then fields[field] else Undefined)
  {
    assert Split(field, '.') == [field];
  }

  /** Columns sorted by age: "age" and any name ending in "_age". */
  predicate IsAgeField(field: string) {
    field == "age" || EndsWith(field, "_age")
  }

  /** The position after the run of digits starting at `i`. */
  function DigitRunEnd(s: string, i: nat): (e: nat)
    requires i <= |s|
    ensures i <= e <= |s|
    ensures AllDigits(s[i..e])
    ensures e == |s| || !IsDigit(s[e])
    decreases |s| - i
  {
    if i < |s| && IsDigit(s[i]) then
      var e := DigitRunEnd(s, i + 1);
      assert s[i..e] == [s[i]] + s[i + 1..e];
      e
    else i
  }

  /** The number captured by the leftmost match of `/(\d+)unit/` at or after
      `from`, if any. A match must take a whole run of digits, so the search
      can skip from one run to the next. */
  function MatchUnit(s: string, unit: char, from: nat): (r: Option<nat>)
    requires !IsDigit(unit)
    requires from <= |s|
    decreases |s| - from
  {
    if from == |s| then None
    else if !IsDigit(s[from]) then MatchUnit(s, unit, from + 1)
    else
      var e := DigitRunEnd(s, from);
      if e < |s| && s[e] == unit then Some(DigitsValue(s[from..e])) else MatchUnit(s, unit, e)
  }

  /** `/(\d+)unit/` matches `s` with the digits `s[i..e]`. */
  predicate MatchAt(s: string, unit: char, i: int, e: int) {
    0 <= i < e < |s| && AllDigits(s[i..e]) && s[e] == unit
  }

  /** `MatchUnit` finds the leftmost match: nothing when there is no match
      at or after `from`, and otherwise the digits of a match that no match
      starts before. */
  lemma {:induction false} MatchUnitIsLeftmost(s: string, unit: char, from: nat)
    requires !IsDigit(unit) && from <= |s|
    ensures MatchUnit(s, unit, from).None? <==> forall i, e :: from <= i ==> !MatchAt(s, unit, i, e)
    ensures MatchUnit(s, unit, from).Some? ==>
      exists i, e :: from <= i && MatchAt(s, unit, i, e) && MatchUnit(s, unit, from).value == DigitsValue(s[i..e])
                     && forall i', e' :: from <= i' < i ==> !MatchAt(s, unit, i', e')
    decreases |s| - from
  {
    if from == |s| {
    } else if !IsDigit(s[from]) {
      MatchUnitIsLeftmost(s, unit, from + 1);
      assert forall e :: !MatchAt(s, unit, from, e);
    } else {
      var e0 := DigitRunEnd(s, from);
      assert forall i, e :: from <= i < e0 && MatchAt(s, unit, i, e) ==> e == e0;
      if e0 < |s| && s[e0] == unit {
        assert MatchAt(s, unit, from, e0);
      } else {
        MatchUnitIsLeftmost(s, unit, e0);
      }
    }
  }

  /** A string with no digits matches no unit. */
  lemma {:induction false} NoDigitsNoMatch(s: string, unit: char, from: nat)
    requires !IsDigit(unit) && from <= |s|
    requires forall i :: 0 <= i < |s| ==> !IsDigit(s[i])
    ensures MatchUnit(s, unit, from) == None
    decreases |s| - from
  {
    if from < |s| {
      NoDigitsNoMatch(s, unit, from + 1);
    }
  }

  /** On a digit string followed by one letter, the number is captured for
      that letter and for no other. */
  lemma CountWithUnit(digits: string, unit: char, other: char)
    requires |digits| > 0 && AllDigits(digits)
    requires !IsDigit(unit) && !IsDigit(other) && other != unit
    ensures MatchUnit(digits + [unit], unit, 0) == Some(DigitsValue(digits))
    ensures MatchUnit(digits + [unit], other, 0) == None
  {
    var s := digits + [unit];
    assert s[..|digits|] == digits;
    assert DigitRunEnd(s, |digits|) == |digits|;
    RunFromStart(s, 0, |digits|);
    assert s[0..|digits|] == digits;
    assert MatchUnit(s, other, |digits| + 1) == None;
  }

  /** The digit run starting at `i` ends at the first non-digit. */
  lemma {:induction false} RunFromStart(s: string, i: nat, e: nat)
    requires i <= e < |s| && !IsDigit(s[e])
    requires forall k :: i <= k < e ==> IsDigit(s[k])
    ensures DigitRunEnd(s, i) == e
    decreases e - i
  {
    if i < e {
      RunFromStart(s, i + 1, e);
    }
  }

  /** `parseAge`: days, hours, minutes and seconds, each taken from the
      first number directly followed by its letter, weighted and summed. */
  function ParseAge(age: string): (r: nat)
    ensures r >= MatchUnit(age, 'd', 0).GetOr(0) * Summaries.SecondsPerDay
    ensures r >= MatchUnit(age, 's', 0).GetOr(0)
  {
    MatchUnit(age, 'd', 0).GetOr(0) * Summaries.SecondsPerDay
    + MatchUnit(age, 'h', 0).GetOr(0) * Summaries.SecondsPerHour
    + MatchUnit(age, 'm', 0).GetOr(0) * Summaries.SecondsPerMinute
    + MatchUnit(age, 's', 0).GetOr(0)
  }

  /** A string without digits, such as "Unknown", reads as age 0. */
  lemma AgeWithoutNumberIsZero(age: string)
    requires forall i :: 0 <= i < |age| ==> !IsDigit(age[i])
    ensures ParseAge(age) == 0
  {
    NoDigitsNoMatch(age, 'd', 0);
    NoDigitsNoMatch(age, 'h', 0);
    NoDigitsNoMatch(age, 'm', 0);
    NoDigitsNoMatch(age, 's', 0);
  }

  /** The unit a formatted age is written in. */
  function AgeUnit(secs: nat): (u: nat)
    ensures u > 0
  {
    if secs >= Summaries.SecondsPerDay then Summaries.SecondsPerDay
    else if secs >= Summaries.SecondsPerHour then Summaries.SecondsPerHour
    else if secs >= Summaries.SecondsPerMinute then Summaries.SecondsPerMinute
    else 1
  }

  /** Digit-free text before a match is skipped. */
  lemma {:induction false} SkipNonDigits(s: string, unit: char, from: nat, stop: nat)
    requires !IsDigit(unit) && from <= stop <= |s|
    requires forall k :: from <= k < stop ==> !IsDigit(s[k])
    ensures MatchUnit(s, unit, from) == MatchUnit(s, unit, stop)
    decreases stop - from
  {
    if from < stop {
      SkipNonDigits(s, unit, from + 1, stop);
    }
  }

  /** Behind a digit-free prefix, a number followed by a letter is captured
      for that letter and for no other. */
  lemma CountAfterPrefix(prefix: string, digits: string, unit: char, other: char)
    requires forall k :: 0 <= k < |prefix| ==> !IsDigit(prefix[k])
    requires |digits| > 0 && AllDigits(digits)
    requires !IsDigit(unit) && !IsDigit(other) && other != unit
    ensures MatchUnit(prefix + digits + [unit], unit, 0) == Some(DigitsValue(digits))
    ensures MatchUnit(prefix + digits + [unit], other, 0) == None
  {
    var s := prefix + digits + [unit];
    var e := |prefix| + |digits|;
    SkipNonDigits(s, unit, 0, |prefix|);
    SkipNonDigits(s, other, 0, |prefix|);
    RunFromStart(s, |prefix|, e);
    assert s[|prefix|..e] == digits;
    assert DigitRunEnd(s, e + 1) == e + 1;
    assert MatchUnit(s, other, e + 1) == None;
  }

  /** A non-negative age formatted by the back end and read back by the
      front end is the age rounded down to the unit shown. */
  lemma ParseFormattedAge(secs: nat)
    ensures ParseAge(Summaries.FormatAge(Some(secs))) == secs / AgeUnit(secs) * AgeUnit(secs)
  {
    var u := AgeUnit(secs);
    var digits := NatToString(secs / u);
    NatToStringRoundTrip(secs / u);
    var c := if u == Summaries.SecondsPerDay then 'd' else if u == Summaries.SecondsPerHour then 'h'
             else if u == Summaries.SecondsPerMinute then 'm' else 's';
    var r := Summaries.FormatAge(Some(secs));
    assert r == [] + digits + [c];
    CountAfterPrefix([], digits, c, if c == 'd' then 'h' else 'd');
    CountAfterPrefix([], digits, c, if c == 's' then 'm' else 's');
    CountAfterPrefix([], digits, c, if c == 'h' || c == 'd' then 'm' else 'h');
  }

  /** The read-back age lies within one unit below the true age. */
  lemma FormattedAgeWithinUnit(secs: nat)
    ensures var r := ParseAge(Summaries.FormatAge(Some(secs)));
      r <= secs < r + AgeUnit(secs)
  {
    ParseFormattedAge(secs);
    DivBracket(secs, AgeUnit(secs));
  }

  lemma FloorMonotone(a: nat, b: nat, u: nat)
    requires u > 0 && a <= b
    ensures a / u * u <= b / u * u
  {
    var qa, qb := a / u, b / u;
    assert qa * u <= a && b < qb * u + u;
    if qa > qb {
      MulMonotone(qb + 1, qa, u);
      assert false;
    }
    MulMonotone(qa, qb, u);
  }

  /** Sorting the age column of back-end rows agrees with the true ages:
      an older object never reads as younger. */
  lemma FormattedAgeOrder(a: nat, b: nat)
    requires a <= b
    ensures ParseAge(Summaries.FormatAge(Some(a))) <= ParseAge(Summaries.FormatAge(Some(b)))
  {
    FormattedAgeWithinUnit(a);
    FormattedAgeWithinUnit(b);
    ParseFormattedAge(a);
    ParseFormattedAge(b);
    if AgeUnit(a) == AgeUnit(b) {
      FloorMonotone(a, b, AgeUnit(a));
    } else {
      var u := AgeUnit(b);
      assert u <= b;
      assert b / u >= 1;
      assert b / u * u >= u;
    }
  }

  /** A creation time in the future gives a negative age, printed "-Ns";
      the parser skips the sign and reads it as N seconds old. */
  lemma NegativeAgeReadsPositive(secs: int)
    requires -(Summaries.SecondsPerMinute as int) < secs < 0
    ensures ParseAge(Summaries.FormatAge(Some(secs))) == -secs
  {
    var digits := NatToString(-secs);
    NatToStringRoundTrip(-secs);
    var r := Summaries.FormatAge(Some(secs));
    assert r == "-" + digits + ['s'];
    CountAfterPrefix("-", digits, 's', 'd');
    CountAfterPrefix("-", digits, 's', 'h');
    CountAfterPrefix("-", digits, 's', 'm');
  }

  /** The examples of the source's comment: "5d" and "2h30m". */
  lemma AgeExamples()
    ensures ParseAge("5d") == 432000
    ensures ParseAge("2h30m") == 9000
  {
    FiveDays();
    TwoHoursThirty();
  }

  lemma FiveDays()
    ensures ParseAge("5d") == 432000
  {
    assert "5d" == [] + "5" + ['d'];
    assert DigitsValue("5") == 5;
    CountAfterPrefix([], "5", 'd', 'h');
    CountAfterPrefix([], "5", 'd', 'm');
    CountAfterPrefix([], "5", 'd', 's');
  }

  lemma TwoHoursThirty()
    ensures ParseAge("2h30m") == 9000
  {
    var s := "2h30m";
    assert DigitsValue("2") == 2;
    assert DigitsValue("30") == 30;
    RunFromStart(s, 0, 1);
    RunFromStart(s, 2, 4);
    assert s[0..1] == "2" && s[2..4] == "30";
    assert MatchUnit(s, 'h', 0) == Some(2);
    assert MatchUnit(s, 'm', 2) == Some(30);
    assert MatchUnit(s, 'm', 0) == Some(30);
    assert MatchUnit(s, 'd', 2) == MatchUnit(s, 'd', 4);
    assert MatchUnit(s, 'd', 0) == None;
    assert MatchUnit(s, 's', 0) == None;
    assert ParseAge(s) == 2 * 3600 + 30 * 60;
  }

  /** The comparator of `sortData` on two field values: null and undefined
      go last ascending and first descending; two numbers compare
      numerically; in an age column anything else compares by `ParseAge` of
      its string; otherwise by lower-cased string. */
  function Compare(a: Value, b: Value, field: string, dir: Direction): (r: int)
    ensures IsNullish(a) && IsNullish(b) ==> r == 0
    ensures IsNullish(a) && !IsNullish(b) ==> r != 0 && (r > 0 <==> dir == Asc)
    ensures !IsNullish(a) && IsNullish(b) ==> r != 0 && (r < 0 <==> dir == Asc)
    ensures a.Num? && b.Num? ==>
      (r == 0 <==> a.n == b.n) && (r < 0 <==> if dir == Asc then a.n < b.n else b.n < a.n)
    ensures !IsNullish(a) && !IsNullish(b) && !(a.Num? && b.Num?) && IsAgeField(field) ==>
      var x, y := ParseAge(JsString(a)), ParseAge(JsString(b));
      (r == 0 <==> x == y) && (r < 0 <==> if dir == Asc then x < y else y < x)
    ensures !IsNullish(a) && !IsNullish(b) && !(a.Num? && b.Num?) && !IsAgeField(field) ==>
      var x, y := ToLowerAscii(JsString(a)), ToLowerAscii(JsString(b));
      (r == 0 <==> x == y) && (r < 0 <==> if dir == Asc then LessThan(x, y) else LessThan(y, x))
  {
    if IsNullish(a) && IsNullish(b) then 0
    else if IsNullish(a) then (if dir == Asc then 1 else -1)
    else if IsNullish(b) then (if dir == Asc then -1 else 1)
    else if a.Num? && b.Num? then (if dir == Asc then a.n - b.n else b.n - a.n)
    else if IsAgeField(field) then
      var x := ParseAge(JsString(a));
      var y := ParseAge(JsString(b));
      if dir == Asc then x - y else y - x
    else
      var x := ToLowerAscii(JsString(a));
      var y := ToLowerAscii(JsString(b));
      LessThanIrreflexive(x);
      LessThanAsymmetric(x, y);
      assert x != y ==> LessThan(x, y) || LessThan(y, x) by {
        if x != y { LessThanTotal(x, y); }
      }
      if LessThan(x, y) then (if dir == Asc then -1 else 1)
      else if LessThan(y, x) then (if dir == Asc then 1 else -1)
      else 0
  }

  /** The comparator is antisymmetric for every pair of values, and
      descending order is ascending order with the operands swapped. */
  lemma CompareAntisymmetric(a: Value, b: Value, field: string, dir: Direction)
    ensures Compare(a, b, field, dir) > 0 <==> Compare(b, a, field, dir) < 0
    ensures Compare(a, b, field, dir) == 0 <==> Compare(b, a, field, dir) == 0
    ensures Compare(a, b, field, Desc) == -Compare(a, b, field, Asc)
  {
    var x := ToLowerAscii(JsString(a));
    var y := ToLowerAscii(JsString(b));
    LessThanAsymmetric(x, y);
  }

  /** Null and undefined sort after every other value ascending, and before
      it descending, whatever the column. */
  lemma CompareNullish(a: Value, b: Value, field: string)
    requires IsNullish(a) && !IsNullish(b)
    ensures Compare(a, b, field, Asc) > 0 && Compare(b, a, field, Asc) < 0
    ensures Compare(a, b, field, Desc) < 0 && Compare(b, a, field, Desc) > 0
  {
  }

  /** Two numbers compare by their difference, in the direction's sense. */
  lemma CompareNumbers(a: int, b: int, field: string)
    ensures Compare(Num(a), Num(b), field, Asc) <= 0 <==> a <= b
    ensures Compare(Num(a), Num(b), field, Desc) <= 0 <==> a >= b
  {
  }

  /** In an age column, non-numeric values order by their parsed age. */
  lemma CompareAges(a: string, b: string, field: string)
    requires IsAgeField(field)
    ensures Compare(Str(a), Str(b), field, Asc) <= 0 <==> ParseAge(a) <= ParseAge(b)
  {
  }

  /** In other columns, strings order by their lower-case forms, so case
      does not matter. */
  lemma CompareIgnoresCase(a: string, b: string, field: string, dir: Direction)
    requires !IsAgeField(field)
    ensures Compare(Str(a), Str(b), field, dir) == Compare(Str(ToLowerAscii(a)), Str(ToLowerAscii(b)), field, dir)
  {
    LowerIdempotent(a);
    LowerIdempotent(b);
  }

  lemma LowerIdempotent(s: string)
    ensures ToLowerAscii(ToLowerAscii(s)) == ToLowerAscii(s)
  {
    forall i | 0 <= i < |s| ensures LowerChar(LowerChar(s[i])) == LowerChar(s[i]) {
    }
  }

  /** The comparator on two rows: the values of the column, looked up by
      the dotted path. */
  function RowOrder(field: string, dir: Direction): (Value, Value) -> int {
    (x: Value, y: Value) => Compare(FieldOf(x, field), FieldOf(y, field), field, dir)
  }

  /** `cmp(a, b) > 0` exactly when `cmp(b, a) < 0`, as `Array.prototype.sort`
      expects of a comparator. */
  ghost predicate Antisymmetric(cmp: (Value, Value) -> int) {
    forall a, b :: cmp(a, b) > 0 ==> cmp(b, a) < 0
  }

  lemma RowOrderAntisymmetric(field: string, dir: Direction)
    ensures Antisymmetric(RowOrder(field, dir))
  {
    forall a, b | RowOrder(field, dir)(a, b) > 0 ensures RowOrder(field, dir)(b, a) < 0 {
      CompareAntisymmetric(FieldOf(a, field), FieldOf(b, field), field, dir);
    }
  }

  /** Every row is in order with its successor. */
  ghost predicate Ordered(rows: seq<Value>, cmp: (Value, Value) -> int) {
    forall i :: 0 <= i && i + 1 < |rows| ==> cmp(rows[i], rows[i + 1]) <= 0
  }

  /** One step of a stable insertion sort: `x` goes after the trailing rows
      it does not sort before, so it stays behind every row it ties with. */
  function Insert(sorted: seq<Value>, x: Value, cmp: (Value, Value) -> int): (r: seq<Value>)
    ensures |r| == |sorted| + 1
    ensures multiset(r) == multiset(sorted) + multiset{x}
    ensures |sorted| == 0 ==> r == [x]
    ensures |sorted| > 0 ==> r[|r| - 1] == x || r[|r| - 1] == sorted[|sorted| - 1]
    decreases |sorted|
  {
    if |sorted| == 0 then [x]
    else
      var last := sorted[|sorted| - 1];
      if cmp(last, x) <= 0 then sorted + [x]
      else
        assert sorted == sorted[..|sorted| - 1] + [last];
        Insert(sorted[..|sorted| - 1], x, cmp) + [last]
  }

  /** A stable sort of the rows by `cmp`, into a new list. */
  function SortBy(data: seq<Value>, cmp: (Value, Value) -> int): (r: seq<Value>)
    ensures |r| == |data|
    ensures multiset(r) == multiset(data)
    decreases |data|
  {
    if |data| == 0 then []
    else
      assert data == data[..|data| - 1] + [data[|data| - 1]];
      Insert(SortBy(data[..|data| - 1], cmp), data[|data| - 1], cmp)
  }

  /** `sortData`: a sorted copy of the rows; the input is not touched. */
  function SortData(data: seq<Value>, field: string, dir: Direction): (r: seq<Value>)
    ensures |r| == |data|
    ensures multiset(r) == multiset(data)
  {
    SortBy(data, RowOrder(field, dir))
  }

  lemma OrderedFront(rows: seq<Value>, cmp: (Value, Value) -> int)
    requires |rows| > 0 && Ordered(rows, cmp)
    ensures Ordered(rows[..|rows| - 1], cmp)
  {
    var front := rows[..|rows| - 1];
    forall i | 0 <= i && i + 1 < |front| ensures cmp(front[i], front[i + 1]) <= 0 {
      assert front[i] == rows[i] && front[i + 1] == rows[i + 1];
    }
  }

  lemma OrderedSnoc(rows: seq<Value>, x: Value, cmp: (Value, Value) -> int)
    requires Ordered(rows, cmp)
    requires |rows| > 0 ==> cmp(rows[|rows| - 1], x) <= 0
    ensures Ordered(rows + [x], cmp)
  {
    var r := rows + [x];
    forall i | 0 <= i && i + 1 < |r| ensures cmp(r[i], r[i + 1]) <= 0 {
      if i + 1 < |rows| {
        assert r[i] == rows[i] && r[i + 1] == rows[i + 1];
      }
    }
  }

  /** Inserting into an ordered list keeps it ordered. The comparator need
      not be transitive: antisymmetry is enough for neighbours. */
  lemma {:induction false} InsertOrdered(sorted: seq<Value>, x: Value, cmp: (Value, Value) -> int)
    requires Antisymmetric(cmp)
    requires Ordered(sorted, cmp)
    ensures Ordered(Insert(sorted, x, cmp), cmp)
    decreases |sorted|
  {
    if |sorted| == 0 {
      OrderedSnoc([], x, cmp);
      assert [] + [x] == [x];
    } else {
      var last := sorted[|sorted| - 1];
      if cmp(last, x) <= 0 {
        OrderedSnoc(sorted, x, cmp);
      } else {
        var front := sorted[..|sorted| - 1];
        OrderedFront(sorted, cmp);
        InsertOrdered(front, x, cmp);
        var ins := Insert(front, x, cmp);
        assert ins[|ins| - 1] == x || ins[|ins| - 1] == sorted[|sorted| - 2];
        assert cmp(ins[|ins| - 1], last) <= 0;
        OrderedSnoc(ins, last, cmp);
      }
    }
  }

  /** The sort puts every row in order with its successor. */
  lemma {:induction false} SortByOrdered(data: seq<Value>, cmp: (Value, Value) -> int)
    requires Antisymmetric(cmp)
    ensures Ordered(SortBy(data, cmp), cmp)
    decreases |data|
  {
    if |data| > 0 {
      SortByOrdered(data[..|data| - 1], cmp);
      InsertOrdered(SortBy(data[..|data| - 1], cmp), data[|data| - 1], cmp);
    }
  }

  /** Rows already in order come back unchanged: the sort is stable. */
  lemma {:induction false} SortByKeepsOrdered(data: seq<Value>, cmp: (Value, Value) -> int)
    requires Ordered(data, cmp)
    ensures SortBy(data, cmp) == data
    decreases |data|
  {
    if |data| > 0 {
      var front, last := data[..|data| - 1], data[|data| - 1];
      assert front + [last] == data;
      OrderedFront(data, cmp);
      SortByKeepsOrdered(front, cmp);
      assert SortBy(data, cmp) == Insert(front, last, cmp);
      if |front| > 0 {
        assert cmp(front[|front| - 1], last) <= 0;
        assert Insert(front, last, cmp) == front + [last];
      }
    }
  }

  /** `sortData` leaves every row in order with its successor; rows already
      in that order, and so rows that all tie, come back unchanged, and
      sorting twice is sorting once. */
  lemma SortDataOrdered(data: seq<Value>, field: string, dir: Direction)
    ensures var r := SortData(data, field, dir);
      forall i :: 0 <= i && i + 1 < |r| ==> Compare(FieldOf(r[i], field), FieldOf(r[i + 1], field), field, dir) <= 0
    ensures Ordered(data, RowOrder(field, dir)) ==> SortData(data, field, dir) == data
    ensures SortData(SortData(data, field, dir), field, dir) == SortData(data, field, dir)
  {
    var cmp := RowOrder(field, dir);
    RowOrderAntisymmetric(field, dir);
    SortByOrdered(data, cmp);
    if Ordered(data, cmp) {
      SortByKeepsOrdered(data, cmp);
    }
    SortByKeepsOrdered(SortBy(data, cmp), cmp);
  }

  lemma NullishFollowsNullish(a: Value, b: Value, field: string)
    requires Compare(a, b, field, Asc) <= 0 && IsNullish(a)
    ensures IsNullish(b)
  {
  }

  lemma PresentFollowsPresent(a: Value, b: Value, field: string)
    requires Compare(a, b, field, Desc) <= 0 && !IsNullish(a)
    ensures !IsNullish(b)
  {
    if IsNullish(b) {
      CompareNullish(b, a, field);
    }
  }

  /** In rows ordered ascending, a null or undefined value is followed only
      by such values. */
  lemma {:induction false} NullishChain(r: seq<Value>, field: string, i: nat, j: nat)
    requires i < j < |r|
    requires forall k :: 0 <= k && k + 1 < |r| ==> Compare(FieldOf(r[k], field), FieldOf(r[k + 1], field), field, Asc) <= 0
    ensures IsNullish(FieldOf(r[i], field)) ==> IsNullish(FieldOf(r[j], field))
    decreases j - i
  {
    if i + 1 < j {
      NullishChain(r, field, i, j - 1);
    }
    if IsNullish(FieldOf(r[j - 1], field)) {
      NullishFollowsNullish(FieldOf(r[j - 1], field), FieldOf(r[j], field), field);
    }
  }

  /** In rows ordered descending, a present value is followed only by
      present values. */
  lemma {:induction false} PresentChain(r: seq<Value>, field: string, i: nat, j: nat)
    requires i < j < |r|
    requires forall k :: 0 <= k && k + 1 < |r| ==> Compare(FieldOf(r[k], field), FieldOf(r[k + 1], field), field, Desc) <= 0
    ensures !IsNullish(FieldOf(r[i], field)) ==> !IsNullish(FieldOf(r[j], field))
    decreases j - i
  {
    if i + 1 < j {
      PresentChain(r, field, i, j - 1);
    }
    if !IsNullish(FieldOf(r[j - 1], field)) {
      PresentFollowsPresent(FieldOf(r[j - 1], field), FieldOf(r[j], field), field);
    }
  }

  /** Ascending, a row with a null or undefined value is followed only by
      such rows. */
  lemma NullsLastAscending(data: seq<Value>, field: string)
    ensures var r := SortData(data, field, Asc);
      forall i, j :: 0 <= i < j < |r| && IsNullish(FieldOf(r[i], field)) ==> IsNullish(FieldOf(r[j], field))
  {
    var r := SortData(data, field, Asc);
    SortDataOrdered(data, field, Asc);
    forall i, j | 0 <= i < j < |r| ensures IsNullish(FieldOf(r[i], field)) ==> IsNullish(FieldOf(r[j], field)) {
      NullishChain(r, field, i, j);
    }
  }

  /** Descending, a row with a null or undefined value is preceded only by
      such rows. */
  lemma NullsFirstDescending(data: seq<Value>, field: string)
    ensures var r := SortData(data, field, Desc);
      forall i, j :: 0 <= i < j < |r| && !IsNullish(FieldOf(r[i], field)) ==> !IsNullish(FieldOf(r[j], field))
  {
    var r := SortData(data, field, Desc);
    SortDataOrdered(data, field, Desc);
    forall i, j | 0 <= i < j < |r| ensures !IsNullish(FieldOf(r[i], field)) ==> !IsNullish(FieldOf(r[j], field)) {
      PresentChain(r, field, i, j);
    }
  }

  /** A column holding only numbers sorts non-decreasing ascending and
      non-increasing descending. */
  lemma NumbersSorted(data: seq<Value>, field: string, dir: Direction)
    requires forall i :: 0 <= i < |data| ==> FieldOf(data[i], field).Num?
    ensures var r := SortData(data, field, dir);
      forall i, j :: 0 <= i < j < |r| ==>
        && FieldOf(r[i], field).Num? && FieldOf(r[j], field).Num?
        && (dir == Asc ==> FieldOf(r[i], field).n <= FieldOf(r[j], field).n)
        && (dir == Desc ==> FieldOf(r[i], field).n >= FieldOf(r[j], field).n)
  {
    var r := SortData(data, field, dir);
    SortDataOrdered(data, field, dir);
    forall i | 0 <= i < |r| ensures FieldOf(r[i], field).Num? {
      assert r[i] in multiset(data);
    }
    forall i, j | 0 <= i < j < |r|
      ensures dir == Asc ==> FieldOf(r[i], field).n <= FieldOf(r[j], field).n
      ensures dir == Desc ==> FieldOf(r[i], field).n >= FieldOf(r[j], field).n
    {
      NumberChain(r, field, dir, i, j);
    }
  }

  lemma {:induction false} NumberChain(r: seq<Value>, field: string, dir: Direction, i: nat, j: nat)
    requires i < j < |r|
    requires forall k :: 0 <= k < |r| ==> FieldOf(r[k], field).Num?
    requires forall k :: 0 <= k && k + 1 < |r| ==> Compare(FieldOf(r[k], field), FieldOf(r[k + 1], field), field, dir) <= 0
    ensures dir == Asc ==> FieldOf(r[i], field).n <= FieldOf(r[j], field).n
    ensures dir == Desc ==> FieldOf(r[i], field).n >= FieldOf(r[j], field).n
    decreases j - i
  {
    if i + 1 < j {
      NumberChain(r, field, dir, i, j - 1);
      NumberChain(r, field, dir, j - 1, j);
    } else {
      assert Compare(FieldOf(r[i], field), FieldOf(r[i + 1], field), field, dir) <= 0;
    }
  }
}

=== FILE: startup.dfy ===
/** The start-up checklist of src/lib/stores/startup.ts: five checks shown
    while the app finds the kubeconfig, parses it, loads contexts, connects
    and fetches namespaces; the progress percentage and the label of the
    check in progress. The back-end calls are inputs: each either yields
    what the check reports or fails with an error text. Delays are left out. */
module Startup {
  import opened Wrappers
  import opened Text

  datatype Status = Pending | Running | Success | Failed

  datatype Check = Check(id: string, title: string, status: Status, message: Option<string>)

  /** `Partial<StartupCheck>` as the store uses it: a new status and, when
      given, a message. */
  datatype Update = Update(status: Status, message: Option<string>)

  const Ids: seq<string> := ["kubeconfig", "parse", "contexts", "connection", "namespaces"]

  const InitialChecks: seq<Check> := [
    Check("kubeconfig", "Locating kubeconfig", Pending, None),
    Check("parse", "Parsing configuration", Pending, None),
    Check("contexts", "Loading contexts", Pending, None),
    Check("connection", "Connecting to cluster", Pending, None),
    Check("namespaces", "Fetching namespaces", Pending, None)
  ]

  /** The initial list: the five checks, in order, all pending, with
      distinct ids. */
  lemma InitialChecksShape()
    ensures |InitialChecks| == |Ids| == 5
    ensures forall i :: 0 <= i < 5 ==> InitialChecks[i].id == Ids[i] && InitialChecks[i].status == Pending
    ensures forall i, j :: 0 <= i < j < 5 ==> Ids[i] != Ids[j]
  {
  }

  /** `{ ...check, ...updates }`: a message absent from the update keeps the
      old one. */
  function Merge(c: Check, u: Update): (r: Check)
    ensures r.id == c.id && r.title == c.title && r.status == u.status
    ensures r.message == if u.message.Some? then u.message else c.message
  {
    Check(c.id, c.title, u.status, if u.message.Some? then u.message else c.message)
  }

  /** `updateCheck`. */
  function UpdateCheck(checks: seq<Check>, id: string, u: Update): (r: seq<Check>)
    ensures |r| == |checks|
    ensures forall i :: 0 <= i < |r| ==> r[i].id == checks[i].id && r[i].title == checks[i].title
    ensures forall i :: 0 <= i < |r| && checks[i].id != id ==> r[i] == checks[i]
    ensures forall i :: 0 <= i < |r| && checks[i].id == id ==> r[i].status == u.status
    ensures forall i :: 0 <= i < |r| && checks[i].id == id ==>
      r[i].message == (if u.message.Some? then u.message else checks[i].message)
    ensures forall i :: 0 <= i < |r| && checks[i].id == id ==> r[i] == Merge(checks[i], u)
  {
    seq(|checks|, i requires 0 <= i < |checks| => if checks[i].id == id then Merge(checks[i], u) else checks[i])
  }

  /** The same update applied twice is applied once. */
  lemma UpdateCheckIdempotent(checks: seq<Check>, id: string, u: Update)
    ensures UpdateCheck(UpdateCheck(checks, id, u), id, u) == UpdateCheck(checks, id, u)
  {
  }

  /** The catch block: every running check becomes an error carrying the
      error text; the others are untouched. */
  function MarkFailed(checks: seq<Check>, error: string): (r: seq<Check>)
    ensures |r| == |checks|
    ensures forall i :: 0 <= i < |r| ==> r[i].id == checks[i].id && r[i].title == checks[i].title
    ensures forall i :: 0 <= i < |r| && checks[i].status != Running ==> r[i] == checks[i]
    ensures forall i :: 0 <= i < |r| && checks[i].status == Running ==> r[i].status == Failed && r[i].message == Some(error)
    ensures forall i :: 0 <= i < |r| ==> r[i].status != Running
  {
    seq(|checks|, i requires 0 <= i < |checks| =>
      if checks[i].status == Running then Check(checks[i].id, checks[i].title, Failed, Some(error)) else checks[i])
  }

  function CountSuccess(checks: seq<Check>): (n: nat)
    ensures n <= |checks|
  {
    if |checks| == 0 then 0 else (if checks[0].status == Success then 1 else 0) + CountSuccess(checks[1..])
  }

  /** `Math.round(completed / length * 100)`, rounding halves up; an empty
      list gives NaN, here `None`. */
  function Progress(checks: seq<Check>): (r: Option<nat>)
    ensures r.None? <==> |checks| == 0
    ensures r.Some? ==> r.value <= 100
    ensures r.Some? ==> r.value * (2 * |checks|) <= 200 * CountSuccess(checks) + |checks| < (r.value + 1) * (2 * |checks|)
  {
    if |checks| == 0 then None
    else
      RoundBounds(CountSuccess(checks), |checks|);
      Some((200 * CountSuccess(checks) + |checks|) / (2 * |checks|))
  }

  /** Rounding `100 * c / n` half up stays within 0..100 and within half a
      point of the exact ratio. */
  lemma RoundBounds(c: nat, n: nat)
    requires 0 < n && c <= n
    ensures var q := (200 * c + n) / (2 * n);
      q <= 100 && q * (2 * n) <= 200 * c + n < (q + 1) * (2 * n)
  {
    var a, d := 200 * c + n, 2 * n;
    DivBracket(a, d);
    var q := a / d;
    assert a < 101 * d;
    if q > 100 {
      MulMonotone(101, q, d);
      assert false;
    }
  }

  /** With five checks the progress is 20 per successful check. */
  lemma ProgressOfFive(checks: seq<Check>)
    requires |checks| == 5
    ensures Progress(checks) == Some(20 * CountSuccess(checks))
  {
  }

  /** `currentCheck`: the title of the first running check, or "". */
  function CurrentCheck(checks: seq<Check>): (r: string)
    ensures (forall i :: 0 <= i < |checks| ==> checks[i].status != Running) ==> r == ""
    ensures |checks| > 0 && checks[0].status == Running ==> r == checks[0].title
  {
    if |checks| == 0 then ""
    else if checks[0].status == Running then checks[0].title
    else CurrentCheck(checks[1..])
  }

  /** The title shown belongs to the first running check, and no earlier
      check is running. */
  lemma {:induction false} CurrentCheckIsFirstRunning(checks: seq<Check>, k: nat)
    requires k < |checks| && checks[k].status == Running
    requires forall i :: 0 <= i < k ==> checks[i].status != Running
    ensures CurrentCheck(checks) == checks[k].title
  {
    if k > 0 {
      CurrentCheckIsFirstRunning(checks[1..], k - 1);
    }
  }

  /** What each back-end call gave: the kubeconfig path, whether it parses,
      the number of contexts, the current context after the connection test,
      and the number of namespaces; or the error text of the failing call. */
  datatype Backend = Backend(
    configPath: Result<string, string>,
    validated: Result<(), string>,
    contexts: Result<nat, string>,
    connection: Result<string, string>,
    namespaces: Result<nat, string>)

  /** The message step `k` reports on success, or the error it fails with. */
  function StepOutcome(b: Backend, k: nat): (r: Result<Option<string>, string>)
    requires k < 5
  {
    if k == 0 then (match b.configPath case Ok(path) => Ok(Some(path)) case Err(e) => Err(e))
    else if k == 1 then (match b.validated case Ok(_) => Ok(None) case Err(e) => Err(e))
    else if k == 2 then (match b.contexts case Ok(n) => Ok(Some(NatToString(n) + " contexts found")) case Err(e) => Err(e))
    else if k == 3 then (match b.connection case Ok(ctx) => Ok(Some(ctx)) case Err(e) => Err(e))
    else (match b.namespaces case Ok(n) => Ok(Some(NatToString(n) + " namespaces")) case Err(e) => Err(e))
  }

  /** Steps `k` onward: mark the step running, then successful with its
      message, or stop at the first failure and mark the running step as
      failed. */
  function RunSteps(checks: seq<Check>, b: Backend, k: nat): (r: (seq<Check>, Option<string>))
    requires k <= 5
    ensures |r.0| == |checks|
    decreases 5 - k
  {
    if k == 5 then (checks, None)
    else
      var running := UpdateCheck(checks, Ids[k], Update(Running, None));
      match StepOutcome(b, k)
      case Ok(msg) => RunSteps(UpdateCheck(running, Ids[k], Update(Success, msg)), b, k + 1)
      case Err(e) => (MarkFailed(running, e), Some(e))
  }

  /** The error text of the check for the Tauri runtime, as `String(error)`
      prints a thrown `Error`. */
  const NotTauriError: string :=
    "Error: Not running in Tauri environment. Use \"npm run tauri dev\" to start the app."

  /** `runStartupChecks` from the initial list: whether it succeeded, the
      final checklist and the error shown. */
  function RunStartup(inTauri: bool, b: Backend): (r: (bool, seq<Check>, Option<string>))
    ensures r.0 <==> r.2.None?
    ensures !inTauri ==> r == (false, InitialChecks, Some(NotTauriError))
  {
    if !inTauri then
      assert MarkFailed(InitialChecks, NotTauriError) == InitialChecks;
      (false, MarkFailed(InitialChecks, NotTauriError), Some(NotTauriError))
    else
      var (checks, error) := RunSteps(InitialChecks, b, 0);
      (error.None?, checks, error)
  }

  /** The index of the first failing step, or 5 when none fails. */
  function FirstFailure(b: Backend, k: nat): (f: nat)
    requires k <= 5
    ensures k <= f <= 5
    ensures forall j :: k <= j < f ==> StepOutcome(b, j).Ok?
    ensures f < 5 ==> StepOutcome(b, f).Err?
    decreases 5 - k
  {
    if k == 5 then 5 else if StepOutcome(b, k).Err? then k else FirstFailure(b, k + 1)
  }

  /** The checklist while steps `k` onward run: earlier ones succeeded,
      later ones pending. */
  ghost predicate ShapeAt(checks: seq<Check>, k: nat) {
    && |checks| == 5
    && (forall i :: 0 <= i < 5 ==> checks[i].id == Ids[i] && checks[i].title == InitialChecks[i].title)
    && (forall i :: 0 <= i < k && i < 5 ==> checks[i].status == Success)
    && (forall i :: k <= i < 5 ==> checks[i] == InitialChecks[i])
  }

  /** The checklist and error after the steps stop at `f` (5 when none
      fails): the checks before `f` succeeded, check `f` shows the error,
      the rest are as they started. */
  ghost predicate Finished(r: seq<Check>, error: Option<string>, b: Backend, f: nat) {
    && f <= 5 && |r| == 5
    && (forall i :: 0 <= i < 5 ==> r[i].id == Ids[i] && r[i].title == InitialChecks[i].title)
    && (forall i :: 0 <= i < f ==> r[i].status == Success)
    && (f < 5 ==> StepOutcome(b, f).Err? && r[f].status == Failed && error == Some(StepOutcome(b, f).error) && r[f].message == error)
    && (forall i :: f < i < 5 ==> r[i] == InitialChecks[i])
    && (error.None? <==> f == 5)
  }

  lemma {:induction false} RunStepsShape(checks: seq<Check>, b: Backend, k: nat)
    requires k <= 5 && ShapeAt(checks, k)
    ensures Finished(RunSteps(checks, b, k).0, RunSteps(checks, b, k).1, b, FirstFailure(b, k))
    decreases 5 - k
  {
    if k < 5 {
      var running := UpdateCheck(checks, Ids[k], Update(Running, None));
      match StepOutcome(b, k)
      case Ok(msg) =>
        var next := UpdateCheck(running, Ids[k], Update(Success, msg));
        assert RunSteps(checks, b, k) == RunSteps(next, b, k + 1);
        assert FirstFailure(b, k) == FirstFailure(b, k + 1);
        SuccessStep(checks, k, msg);
        RunStepsShape(next, b, k + 1);
      case Err(e) =>
        FailStep(checks, b, k);
    } else {
      assert RunSteps(checks, b, k) == (checks, None);
    }
  }

  /** The ids of the five checks differ. */
  lemma IdsDistinct(i: nat, j: nat)
    requires i < 5 && j < 5 && i != j
    ensures Ids[i] != Ids[j]
  {
  }

  /** Updating check `k` of a list in shape changes that check alone. */
  lemma UpdateOne(checks: seq<Check>, k: nat, u: Update)
    requires k < 5 && |checks| == 5
    requires forall i :: 0 <= i < 5 ==> checks[i].id == Ids[i]
    ensures var r := UpdateCheck(checks, Ids[k], u);
      && (forall i :: 0 <= i < 5 ==> r[i].id == Ids[i] && r[i].title == checks[i].title)
      && r[k] == Merge(checks[k], u)
      && (forall i :: 0 <= i < 5 && i != k ==> r[i] == checks[i])
  {
    forall i | 0 <= i < 5 && i != k ensures checks[i].id != Ids[k] {
      IdsDistinct(i, k);
    }
  }

  /** A step that succeeds moves the shape one check on. */
  lemma SuccessStep(checks: seq<Check>, k: nat, msg: Option<string>)
    requires k < 5 && ShapeAt(checks, k)
    ensures ShapeAt(UpdateCheck(UpdateCheck(checks, Ids[k], Update(Running, None)), Ids[k], Update(Success, msg)), k + 1)
  {
    var running := UpdateCheck(checks, Ids[k], Update(Running, None));
    UpdateOne(checks, k, Update(Running, None));
    UpdateOne(running, k, Update(Success, msg));
  }

  /** A step that fails ends the run: its check shows the error and
      nothing else changes. */
  lemma FailStep(checks: seq<Check>, b: Backend, k: nat)
    requires k < 5 && ShapeAt(checks, k) && StepOutcome(b, k).Err?
    ensures Finished(RunSteps(checks, b, k).0, RunSteps(checks, b, k).1, b, FirstFailure(b, k))
  {
    var e := StepOutcome(b, k).error;
    var running := UpdateCheck(checks, Ids[k], Update(Running, None));
    var r := MarkFailed(running, e);
    assert RunSteps(checks, b, k) == (r, Some(e));
    assert FirstFailure(b, k) == k;
    UpdateOne(checks, k, Update(Running, None));
    assert forall i :: 0 <= i < 5 && i != k ==> running[i].status != Running;
    assert r[k].status == Failed && r[k].message == Some(e);
    assert forall i :: k < i < 5 ==> r[i] == InitialChecks[i];
  }

  /** A run from the initial list either completes every check, with no
      error, 100% progress and nothing shown as in progress, or stops at the
      first failing call: the checks before it succeeded, it shows the error
      text, the rest stay pending and the progress is 20 per completed check. */
  lemma RunStartupOutcome(b: Backend)
    ensures var f := FirstFailure(b, 0);
      var (ok, checks, error) := RunStartup(true, b);
      && (ok <==> f == 5)
      && (forall i :: 0 <= i < f ==> checks[i].status == Success)
      && (f < 5 ==> checks[f].status == Failed && error == Some(StepOutcome(b, f).error) && checks[f].message == error)
      && (forall i :: f < i < 5 ==> checks[i] == InitialChecks[i])
      && Progress(checks) == Some(20 * f)
      && CurrentCheck(checks) == ""
  {
    assert ShapeAt(InitialChecks, 0);
    RunStepsShape(InitialChecks, b, 0);
    var run := RunSteps(InitialChecks, b, 0);
    assert RunStartup(true, b) == (run.1.None?, run.0, run.1);
    FinishedReadout(run.0, run.1, b, FirstFailure(b, 0));
  }

  /** What the page shows of a finished run: 20% per successful check and
      no check in progress. */
  lemma FinishedReadout(r: seq<Check>, error: Option<string>, b: Backend, f: nat)
    requires Finished(r, error, b, f)
    ensures Progress(r) == Some(20 * f)
    ensures CurrentCheck(r) == ""
  {
    forall i | f <= i < 5 ensures r[i].status != Success && r[i].status != Running {
      if i > f {
        assert r[i] == InitialChecks[i];
      }
    }
    CountPrefix(r, f);
    ProgressOfFive(r);
    assert forall i :: 0 <= i < |r| ==> r[i].status != Running;
  }

  /** A list whose first `f` checks succeeded and the rest did not counts
      `f` successes. */
  lemma {:induction false} CountPrefix(checks: seq<Check>, f: nat)
    requires f <= |checks|
    requires forall i :: 0 <= i < f ==> checks[i].status == Success
    requires forall i :: f <= i < |checks| ==> checks[i].status != Success
    ensures CountSuccess(checks) == f
  {
    if |checks| > 0 {
      CountPrefix(checks[1..], if f > 0 then f - 1 else 0);
    }
  }
}

=== FILE: summaries.dfy ===
/** The decision and formatting helpers src-tauri/src/kubernetes.rs applies
    when it turns cluster objects into the rows the front end shows: age
    strings, job and container states, node status and roles, the pulse
    OK/FAIL counts and the flattening of service endpoints. Objects are
    small records holding only the fields those helpers read; an absent
    object and an absent field are both `None`. */
module Summaries {
  import opened Wrappers
  import opened Text
  import opened Seqs

  const SecondsPerMinute: nat := 60
  const SecondsPerHour: nat := 3600
  const SecondsPerDay: nat := 86400

  /** `get_age`. `elapsed` is the whole seconds between creation and now
      (`num_seconds`); chrono's day, hour and minute counts round toward
      zero. A missing timestamp gives "Unknown". */
  function FormatAge(elapsed: Option<int>): (r: string)
    ensures elapsed.None? <==> r == "Unknown"
    ensures elapsed.Some? && elapsed.value >= SecondsPerDay ==>
      r == NatToString(elapsed.value / SecondsPerDay) + "d"
    ensures elapsed.Some? && SecondsPerHour <= elapsed.value < SecondsPerDay ==>
      r == NatToString(elapsed.value / SecondsPerHour) + "h"
    ensures elapsed.Some? && SecondsPerMinute <= elapsed.value < SecondsPerHour ==>
      r == NatToString(elapsed.value / SecondsPerMinute) + "m"
    ensures elapsed.Some? && elapsed.value < SecondsPerMinute ==> r == IntToString(elapsed.value) + "s"
  {
    match elapsed
    case None => "Unknown"
    case Some(secs) =>
      if TruncDiv(secs, SecondsPerDay) > 0 then WithUnit(TruncDiv(secs, SecondsPerDay), 'd')
      else if TruncDiv(secs, SecondsPerHour) > 0 then WithUnit(TruncDiv(secs, SecondsPerHour), 'h')
      else if TruncDiv(secs, SecondsPerMinute) > 0 then WithUnit(TruncDiv(secs, SecondsPerMinute), 'm')
      else WithUnit(secs, 's')
  }

  /** `format!("{}{unit}", n)`. */
  function WithUnit(n: int, unit: char): (r: string)
    ensures |r| >= 2 && r[|r| - 1] == unit && r[..|r| - 1] == IntToString(n)
  {
    IntToString(n) + [unit]
  }

  /** The unit `FormatAge` picks is the largest one whose count is nonzero,
      and the count is the elapsed time in that unit, rounded down. */
  lemma AgeUnitIsLargestNonzero(secs: nat)
    ensures var r := FormatAge(Some(secs));
      && |r| >= 2
      && (r[|r| - 1] == 'd' ==> secs / SecondsPerDay > 0)
      && (r[|r| - 1] == 'h' ==> secs / SecondsPerDay == 0 && secs / SecondsPerHour > 0)
      && (r[|r| - 1] == 'm' ==> secs / SecondsPerHour == 0 && secs / SecondsPerMinute > 0)
      && (r[|r| - 1] == 's' ==> secs / SecondsPerMinute == 0)
  {
  }

  /** Job state in `list_jobs`. */
  datatype JobState = Complete | Failed | Running | Pending

  function JobStateName(s: JobState): string {
    match s
    case Complete => "Complete"
    case Failed => "Failed"
    case Running => "Running"
    case Pending => "Pending"
  }

  /** The job fields the status needs: `spec.completions` and the
      `succeeded`, `failed` and `active` counts of `status`. */
  datatype Job = Job(completions: Option<int>, succeeded: Option<int>, failed: Option<int>, active: Option<int>)

  /** Job status: completions default to 1, counts to 0; complete beats
      failed beats running beats pending. */
  function ClassifyJob(j: Job): (s: JobState)
    ensures s == Complete <==> j.succeeded.GetOr(0) >= j.completions.GetOr(1)
    ensures s == Failed <==> j.succeeded.GetOr(0) < j.completions.GetOr(1) && j.failed.GetOr(0) > 0
    ensures s == Running <==>
      j.succeeded.GetOr(0) < j.completions.GetOr(1) && j.failed.GetOr(0) <= 0 && j.active.GetOr(0) > 0
    ensures s == Pending <==>
      j.succeeded.GetOr(0) < j.completions.GetOr(1) && j.failed.GetOr(0) <= 0 && j.active.GetOr(0) <= 0
  {
    if j.succeeded.GetOr(0) >= j.completions.GetOr(1) then Complete
    else if j.failed.GetOr(0) > 0 then Failed
    else if j.active.GetOr(0) > 0 then Running
    else Pending
  }

  /** A job with no spec and no status is pending; one success completes a
      job without `completions`. */
  lemma JobDefaults()
    ensures ClassifyJob(Job(None, None, None, None)) == Pending
    ensures ClassifyJob(Job(None, Some(1), Some(3), None)) == Complete
  {
  }

  /** A container's `state`: whether `running` is set and, for `waiting`
      and `terminated`, whether they are set and their `reason`. */
  datatype ContainerState = ContainerState(running: bool, waiting: Option<Option<string>>,
                                           terminated: Option<Option<string>>)

  /** `get_container_state`. `status` is the container's status, absent
      when the pod reports none for it; its `state` may be absent too. */
  function ContainerStateName(status: Option<Option<ContainerState>>): (r: string)
    ensures (status.None? || status.value.None?) ==> r == "Unknown"
    ensures status.Some? && status.value.Some? ==> (
      var st := status.value.value;
      && (st.running ==> r == "Running")
      && (!st.running && st.waiting.Some? ==> r == st.waiting.value.GetOr("Waiting"))
      && (!st.running && st.waiting.None? && st.terminated.Some? ==> r == st.terminated.value.GetOr("Terminated"))
      && (!st.running && st.waiting.None? && st.terminated.None? ==> r == "Unknown"))
  {
    match status
    case None => "Unknown"
    case Some(None) => "Unknown"
    case Some(Some(st)) =>
      if st.running then "Running"
      else if st.waiting.Some? then st.waiting.value.GetOr("Waiting")
      else if st.terminated.Some? then st.terminated.value.GetOr("Terminated")
      else "Unknown"
  }

  /** Running wins over a simultaneous waiting or terminated record. */
  lemma RunningWins(waiting: Option<Option<string>>, terminated: Option<Option<string>>)
    ensures ContainerStateName(Some(Some(ContainerState(true, waiting, terminated)))) == "Running"
  {
  }

  datatype Condition = Condition(kind: string, status: string)

  /** The first condition of the given type. */
  function FindCondition(cs: seq<Condition>, kind: string): (r: Option<Condition>)
    ensures r.Some? ==> (exists i :: (0 <= i < |cs| && cs[i] == r.value && r.value.kind == kind
                                      && forall j :: 0 <= j < i ==> cs[j].kind != kind))
    ensures r.None? <==> forall i :: 0 <= i < |cs| ==> cs[i].kind != kind
  {
    if |cs| == 0 then None
    else if cs[0].kind == kind then Some(cs[0])
    else
      var r := FindCondition(cs[1..], kind);
      if r.Some? then
        ghost var i :| 0 <= i < |cs[1..]| && cs[1..][i] == r.value && r.value.kind == kind
                       && forall j :: 0 <= j < i ==> cs[1..][j].kind != kind;
        assert cs[i + 1] == r.value;
        r
      else r
  }

  /** Node status in `list_nodes`: from the first `Ready` condition,
      "Unknown" without one, with ",SchedulingDisabled" appended for a
      cordoned node. */
  function NodeStatus(conditions: Option<seq<Condition>>, unschedulable: Option<bool>): (r: string)
    ensures EndsWith(r, Cordoned) <==> unschedulable.GetOr(false)
    ensures var base := if unschedulable.GetOr(false) then r[..|r| - |Cordoned|] else r;
      && (base == "Ready" || base == "NotReady" || base == "Unknown")
      && (base == "Unknown" <==> conditions.None? || forall i :: 0 <= i < |conditions.value| ==> conditions.value[i].kind != "Ready")
      && (base == "Ready" <==> conditions.Some? && exists i :: 0 <= i < |conditions.value| && IsFirstReady(conditions.value, i)
                                                             && conditions.value[i].status == "True")
  {
    var ready := if conditions.Some? then FindCondition(conditions.value, "Ready") else None;
    var base := match ready
      case None => "Unknown"
      case Some(c) => if c.status == "True" then "Ready" else "NotReady";
    assert ready.Some? ==> exists i :: 0 <= i < |conditions.value| && IsFirstReady(conditions.value, i) && conditions.value[i] == ready.value;
    assert conditions.Some? ==>
      forall i, k :: 0 <= i < k < |conditions.value| && IsFirstReady(conditions.value, i) ==> !IsFirstReady(conditions.value, k);
    var r := base + (if unschedulable.GetOr(false) then Cordoned else "");
    assert r[..|base|] == base;
    assert unschedulable.GetOr(false) ==> r[|r| - |Cordoned|..] == Cordoned;
    r
  }

  /** The suffix a cordoned node's status carries. */
  const Cordoned: string := ",SchedulingDisabled"

  /** Condition `i` is the first `Ready` condition. */
  predicate IsFirstReady(conditions: seq<Condition>, i: int)
    requires 0 <= i < |conditions|
  {
    conditions[i].kind == "Ready" && forall j :: 0 <= j < i ==> conditions[j].kind != "Ready"
  }

  /** A node is shown "Ready" exactly when it has a `Ready` condition whose
      status is "True" and it is schedulable. */
  lemma NodeReadyIff(conditions: seq<Condition>, unschedulable: Option<bool>)
    ensures NodeStatus(Some(conditions), unschedulable) == "Ready" <==>
      (exists i :: 0 <= i < |conditions| && conditions[i].kind == "Ready"
                   && (forall j :: 0 <= j < i ==> conditions[j].kind != "Ready")
                   && conditions[i].status == "True")
      && !unschedulable.GetOr(false)
  {
    var r := FindCondition(conditions, "Ready");
    if r.Some? {
      ghost var i :| 0 <= i < |conditions| && conditions[i] == r.value && r.value.kind == "Ready"
                     && forall j :: 0 <= j < i ==> conditions[j].kind != "Ready";
      forall k | 0 <= k < |conditions| && conditions[k].kind == "Ready"
                 && (forall j :: 0 <= j < k ==> conditions[j].kind != "Ready")
        ensures k == i
      {
      }
    }
    var s := NodeStatus(Some(conditions), unschedulable);
    if unschedulable.GetOr(false) {
      assert |s| > 5;
    }
  }

  const RolePrefix: string := "node-role.kubernetes.io/"

  /** The role names among the label keys, in key order. */
  function RoleNames(keys: seq<string>): (r: seq<string>)
    ensures |r| <= |keys|
    ensures |r| == 0 <==> forall i :: 0 <= i < |keys| ==> !StartsWith(keys[i], RolePrefix)
    ensures forall role :: role in r <==> exists k :: k in keys && StartsWith(k, RolePrefix)
                                                  && role == TrimStartMatches(k, RolePrefix)
  {
    if |keys| == 0 then []
    else
      var rest := RoleNames(keys[1..]);
      assert forall k :: k in keys <==> k == keys[0] || k in keys[1..];
      if StartsWith(keys[0], RolePrefix) then [TrimStartMatches(keys[0], RolePrefix)] + rest else rest
  }

  /** Node roles in `list_nodes`: the label keys (in the label map's key
      order) that carry the role prefix, with the prefix removed, or
      "<none>" when there is none. */
  function NodeRoles(keys: seq<string>): (r: seq<string>)
    ensures |r| > 0
    ensures (forall i :: 0 <= i < |keys| ==> !StartsWith(keys[i], RolePrefix)) ==> r == ["<none>"]
    ensures (exists i :: 0 <= i < |keys| && StartsWith(keys[i], RolePrefix)) ==> r == RoleNames(keys)
  {
    var roles := RoleNames(keys);
    if |roles| == 0 then ["<none>"] else roles
  }

  /** Label keys name the roles: "node-role.kubernetes.io/control-plane"
      gives "control-plane", other keys are ignored. */
  lemma ControlPlaneRole()
    ensures NodeRoles(["kubernetes.io/os", RolePrefix + "control-plane"]) == ["control-plane"]
  {
    var key := RolePrefix + "control-plane";
    assert StartsWith(key, RolePrefix);
    assert key[|RolePrefix|..] == "control-plane";
    assert !StartsWith("control-plane", RolePrefix);
    assert !StartsWith("kubernetes.io/os", RolePrefix) by {
      assert "kubernetes.io/os"[0] != RolePrefix[0];
    }
    assert TrimStartMatches(key, RolePrefix) == TrimStartMatches("control-plane", RolePrefix) == "control-plane";
    var single: seq<string> := [key];
    assert single[1..] == [];
    assert RoleNames(single) == ["control-plane"];
    assert ["kubernetes.io/os", key][1..] == [key];
    assert RoleNames(["kubernetes.io/os", key]) == ["control-plane"];
  }

  /** A pod counts as OK when its phase is "Running" or "Succeeded". */
  predicate PodOk(phase: Option<string>) {
    phase == Some("Running") || phase == Some("Succeeded")
  }

  datatype Deployment = Deployment(replicas: Option<int>, available: Option<int>)
  datatype StatefulSet = StatefulSet(replicas: Option<int>, ready: Option<int>)
  datatype DaemonSet = DaemonSet(desired: Option<int>, ready: Option<int>)
  datatype ReplicaSet = ReplicaSet(replicas: Option<int>, ready: Option<int>)

  predicate DeploymentOk(d: Deployment) {
    d.replicas.GetOr(0) > 0 && d.available.GetOr(0) == d.replicas.GetOr(0)
  }

  predicate StatefulSetOk(s: StatefulSet) {
    s.replicas.GetOr(0) > 0 && s.ready.GetOr(0) == s.replicas.GetOr(0)
  }

  predicate DaemonSetOk(d: DaemonSet) {
    d.desired.GetOr(0) > 0 && d.ready.GetOr(0) == d.desired.GetOr(0)
  }

  /** A replica set scaled to zero counts as OK. */
  predicate ReplicaSetOk(r: ReplicaSet) {
    r.replicas.GetOr(0) == 0 || r.ready.GetOr(0) == r.replicas.GetOr(0)
  }

  predicate JobOk(j: Job) {
    (j.succeeded.GetOr(0) > 0 && j.failed.GetOr(0) == 0) || j.active.GetOr(0) > 0
  }

  predicate JobFailed(j: Job) {
    j.failed.GetOr(0) > 0
  }

  datatype Tally = Tally(ok: int, fail: int)

  /** The OK/FAIL pair for one kind: fail is whatever is not OK. */
  function TallyOf<T>(xs: seq<T>, ok: T -> bool): (t: Tally)
    ensures t.ok + t.fail == |xs|
    ensures 0 <= t.ok && 0 <= t.fail
    ensures t.fail == 0 <==> forall i :: 0 <= i < |xs| ==> ok(xs[i])
  {
    var n := CountWhere(xs, ok);
    Tally(n, |xs| - n)
  }

  datatype Pulse = Pulse(pods: Tally, deployments: Tally, statefulSets: Tally, daemonSets: Tally,
                         replicaSets: Tally, jobs: Tally)

  /** The OK/FAIL counts of `get_pulse_metrics`. */
  function PulseCounts(pods: seq<Option<string>>, deployments: seq<Deployment>, statefulSets: seq<StatefulSet>,
                       daemonSets: seq<DaemonSet>, replicaSets: seq<ReplicaSet>, jobs: seq<Job>): (r: Pulse)
    ensures r.pods.ok + r.pods.fail == |pods|
    ensures r.deployments.ok + r.deployments.fail == |deployments|
    ensures r.statefulSets.ok + r.statefulSets.fail == |statefulSets|
    ensures r.daemonSets.ok + r.daemonSets.fail == |daemonSets|
    ensures r.replicaSets.ok + r.replicaSets.fail == |replicaSets|
    ensures r.pods.ok == CountWhere(pods, PodOk)
    ensures r.deployments.ok == CountWhere(deployments, DeploymentOk)
    ensures r.statefulSets.ok == CountWhere(statefulSets, StatefulSetOk)
    ensures r.daemonSets.ok == CountWhere(daemonSets, DaemonSetOk)
    ensures r.replicaSets.ok == CountWhere(replicaSets, ReplicaSetOk)
    ensures r.jobs.ok == CountWhere(jobs, JobOk) && r.jobs.fail == CountWhere(jobs, JobFailed)
  {
    Pulse(TallyOf(pods, PodOk), TallyOf(deployments, DeploymentOk), TallyOf(statefulSets, StatefulSetOk),
          TallyOf(daemonSets, DaemonSetOk), TallyOf(replicaSets, ReplicaSetOk),
          Tally(CountWhere(jobs, JobOk), CountWhere(jobs, JobFailed)))
  }

  /** Job counts are independent: an active job with a failed attempt
      counts as OK and as failed, and a job neither active nor successful
      with no failures counts as neither. */
  lemma JobCountsIndependent()
    ensures var r := PulseCounts([], [], [], [], [], [Job(None, Some(0), Some(1), Some(1))]);
      r.jobs.ok == 1 && r.jobs.fail == 1
    ensures var r := PulseCounts([], [], [], [], [], [Job(None, None, None, None)]);
      r.jobs.ok == 0 && r.jobs.fail == 0
  {
  }

  /** An endpoint address: `ip`, the target pod name and the node name. */
  datatype Address = Address(ip: string, podName: Option<string>, nodeName: Option<string>)

  datatype EndpointPort = EndpointPort(port: int, protocol: Option<string>)

  datatype Subset = Subset(addresses: Option<seq<Address>>, notReady: Option<seq<Address>>,
                           ports: Option<seq<EndpointPort>>)

  /** `ServiceEndpoint`. */
  datatype Endpoint = Endpoint(ip: string, port: int, protocol: string, podName: Option<string>,
                               nodeName: Option<string>, ready: bool)

  function MakeEndpoint(a: Address, p: EndpointPort, ready: bool): Endpoint {
    Endpoint(a.ip, p.port, p.protocol.GetOr("TCP"), a.podName, a.nodeName, ready)
  }

  /** Every address paired with every port, address-major. */
  function Cross(addrs: seq<Address>, ports: seq<EndpointPort>, ready: bool): (r: seq<Endpoint>)
    ensures |r| == |addrs| * |ports|
  {
    if |addrs| == 0 then []
    else Row(addrs[0], ports, ready) + Cross(addrs[1..], ports, ready)
  }

  function Row(a: Address, ports: seq<EndpointPort>, ready: bool): (r: seq<Endpoint>)
    ensures |r| == |ports|
    ensures forall j :: 0 <= j < |ports| ==> r[j] == MakeEndpoint(a, ports[j], ready)
  {
    seq(|ports|, j requires 0 <= j < |ports| => MakeEndpoint(a, ports[j], ready))
  }

  /** Where the pair of the `i`-th address and the `j`-th of `width` ports
      sits in an address-major listing. */
  function Slot(i: nat, j: nat, width: nat): nat {
    i * width + j
  }

  /** Entry `Slot(i, j, |ports|)` pairs address `i` with port `j`. */
  lemma {:induction false} CrossAt(addrs: seq<Address>, ports: seq<EndpointPort>, ready: bool)
    ensures var r := Cross(addrs, ports, ready);
      forall i, j :: 0 <= i < |addrs| && 0 <= j < |ports| ==>
        Slot(i, j, |ports|) < |r| && r[Slot(i, j, |ports|)] == MakeEndpoint(addrs[i], ports[j], ready)
    decreases |addrs|
  {
    if |addrs| > 0 {
      var w := |ports|;
      CrossAt(addrs[1..], ports, ready);
      var head, tail := Row(addrs[0], ports, ready), Cross(addrs[1..], ports, ready);
      assert Cross(addrs, ports, ready) == head + tail;
      forall i, j | 0 <= i < |addrs| && 0 <= j < w
        ensures Slot(i, j, w) < |head + tail| && (head + tail)[Slot(i, j, w)] == MakeEndpoint(addrs[i], ports[j], ready)
      {
        if i > 0 {
          assert Slot(i, j, w) == w + Slot(i - 1, j, w);
          assert addrs[i] == addrs[1..][i - 1];
        }
      }
    }
  }

  /** Indexing a concatenation past its first part indexes the second. */
  lemma ConcatEntries(a: seq<Endpoint>, b: seq<Endpoint>)
    ensures forall k :: 0 <= k < |a| ==> (a + b)[k] == a[k]
    ensures forall k :: 0 <= k < |b| ==> |a| + k < |a + b| && (a + b)[|a| + k] == b[k]
  {
  }

  function SubsetEndpoints(s: Subset): (r: seq<Endpoint>)
    ensures var ports := s.ports.GetOr([]);
      |r| == (|s.addresses.GetOr([])| + |s.notReady.GetOr([])|) * |ports|
    ensures forall k :: 0 <= k < |r| ==>
      (r[k].ready <==> k < |s.addresses.GetOr([])| * |s.ports.GetOr([])|)
    ensures var addrs, ports := s.addresses.GetOr([]), s.ports.GetOr([]);
      forall i, j :: 0 <= i < |addrs| && 0 <= j < |ports| ==>
        Slot(i, j, |ports|) < |r| && r[Slot(i, j, |ports|)] == MakeEndpoint(addrs[i], ports[j], true)
    ensures var addrs, notReady, ports := s.addresses.GetOr([]), s.notReady.GetOr([]), s.ports.GetOr([]);
      forall i, j :: 0 <= i < |notReady| && 0 <= j < |ports| ==>
        |addrs| * |ports| + Slot(i, j, |ports|) < |r|
        && r[|addrs| * |ports| + Slot(i, j, |ports|)] == MakeEndpoint(notReady[i], ports[j], false)
  {
    var addrs, notReady, ports := s.addresses.GetOr([]), s.notReady.GetOr([]), s.ports.GetOr([]);
    PairsShape(addrs, notReady, ports);
    ReadyPairs(addrs, notReady, ports);
    NotReadyPairs(addrs, notReady, ports);
    Cross(addrs, ports, true) + Cross(notReady, ports, false)
  }

  lemma PairsShape(addrs: seq<Address>, notReady: seq<Address>, ports: seq<EndpointPort>)
    ensures var r := Cross(addrs, ports, true) + Cross(notReady, ports, false);
      && |r| == (|addrs| + |notReady|) * |ports|
      && forall k :: 0 <= k < |r| ==> (r[k].ready <==> k < |addrs| * |ports|)
  {
    var ready: seq<Endpoint>, rest: seq<Endpoint> := Cross(addrs, ports, true), Cross(notReady, ports, false);
    ReadyFlag(addrs, ports, true);
    ReadyFlag(notReady, ports, false);
    assert (|addrs| + |notReady|) * |ports| == |addrs| * |ports| + |notReady| * |ports|;
    forall k | 0 <= k < |ready + rest| ensures (ready + rest)[k].ready <==> k < |ready| {
      if k < |ready| {
        assert (ready + rest)[k] in ready;
      } else {
        assert (ready + rest)[k] in rest;
      }
    }
  }

  lemma ReadyPairs(addrs: seq<Address>, notReady: seq<Address>, ports: seq<EndpointPort>)
    ensures var r := Cross(addrs, ports, true) + Cross(notReady, ports, false);
      forall i, j :: 0 <= i < |addrs| && 0 <= j < |ports| ==>
        Slot(i, j, |ports|) < |r| && r[Slot(i, j, |ports|)] == MakeEndpoint(addrs[i], ports[j], true)
  {
    CrossAt(addrs, ports, true);
    ConcatEntries(Cross(addrs, ports, true), Cross(notReady, ports, false));
  }

  lemma NotReadyPairs(addrs: seq<Address>, notReady: seq<Address>, ports: seq<EndpointPort>)
    ensures var r := Cross(addrs, ports, true) + Cross(notReady, ports, false);
      forall i, j :: 0 <= i < |notReady| && 0 <= j < |ports| ==>
        |addrs| * |ports| + Slot(i, j, |ports|) < |r|
        && r[|addrs| * |ports| + Slot(i, j, |ports|)] == MakeEndpoint(notReady[i], ports[j], false)
  {
    var ready: seq<Endpoint>, rest: seq<Endpoint> := Cross(addrs, ports, true), Cross(notReady, ports, false);
    var offset := |addrs| * |ports|;
    assert |ready| == offset;
    CrossAt(notReady, ports, false);
    forall i, j | 0 <= i < |notReady| && 0 <= j < |ports|
      ensures offset + Slot(i, j, |ports|) < |ready + rest|
      ensures (ready + rest)[offset + Slot(i, j, |ports|)] == MakeEndpoint(notReady[i], ports[j], false)
    {
      var k := Slot(i, j, |ports|);
      assert (ready + rest)[|ready| + k] == rest[k];
    }
  }

  /** Every entry of a cross product carries the flag it was built with. */
  lemma {:induction false} ReadyFlag(addrs: seq<Address>, ports: seq<EndpointPort>, ready: bool)
    ensures forall e :: e in Cross(addrs, ports, ready) ==> e.ready == ready
  {
    if |addrs| > 0 {
      ReadyFlag(addrs[1..], ports, ready);
    }
  }

  /** `get_service_endpoints`: a failed lookup gives no endpoints; otherwise
      the subsets' endpoints in order, ready addresses before not-ready ones
      within each subset. */
  function ServiceEndpoints(lookup: Option<Option<seq<Subset>>>): (r: seq<Endpoint>)
    ensures lookup.None? ==> r == []
    ensures lookup.Some? ==> r == Flatten(lookup.value.GetOr([]))
  {
    if lookup.None? then [] else Flatten(lookup.value.GetOr([]))
  }

  function Flatten(subsets: seq<Subset>): (r: seq<Endpoint>)
    ensures |r| == Size(subsets)
  {
    if |subsets| == 0 then [] else SubsetEndpoints(subsets[0]) + Flatten(subsets[1..])
  }

  /** Flattening two runs of subsets one after the other gives their
      endpoints one after the other. */
  lemma {:induction false} FlattenConcat(a: seq<Subset>, b: seq<Subset>)
    ensures Flatten(a + b) == Flatten(a) + Flatten(b)
    decreases |a|
  {
    if |a| > 0 {
      assert (a + b)[1..] == a[1..] + b;
      FlattenConcat(a[1..], b);
    } else {
      assert a + b == b;
    }
  }

  /** The number of (address, port) pairs over all subsets. */
  function Size(subsets: seq<Subset>): nat {
    if |subsets| == 0 then 0
    else
      var s := subsets[0];
      (|s.addresses.GetOr([])| + |s.notReady.GetOr([])|) * |s.ports.GetOr([])| + Size(subsets[1..])
  }

  /** A subset with addresses but no ports contributes nothing. */
  lemma PortlessSubset(addrs: seq<Address>)
    ensures ServiceEndpoints(Some(Some([Subset(Some(addrs), None, None)]))) == []
  {
  }
}

=== FILE: text.dfy ===
/** Character and string helpers shared by the Rust back end and the
    TypeScript front end: decimal digits, Rust's `i64` parser, the two
    languages' notions of whitespace, ASCII lower-casing and substring search. */
module Text {
  import opened Wrappers

  const I64Min: int := -0x8000_0000_0000_0000
  const I64Max: int := 0x7FFF_FFFF_FFFF_FFFF

  predicate IsDigit(c: char) {
    '0' <= c <= '9'
  }

  predicate AllDigits(s: string) {
    forall i :: 0 <= i < |s| ==> IsDigit(s[i])
  }

  function DigitValue(c: char): nat
    requires IsDigit(c)
  {
    (c as int) - ('0' as int)
  }

  function DigitChar(d: nat): (c: char)
    requires d < 10
    ensures IsDigit(c) && DigitValue(c) == d
  {
    (('0' as int) + d) as char
  }

  /** The value of a string of decimal digits, most significant first. */
  function DigitsValue(s: string): nat
    requires AllDigits(s)
  {
    if |s| == 0 then 0 else DigitsValue(s[..|s| - 1]) * 10 + DigitValue(s[|s| - 1])
  }

  /** Decimal rendering of a natural number, as Rust's `{}` and JavaScript's
      `String(n)` print it: no sign, no leading zeros, "0" for zero. */
  function NatToString(n: nat): (s: string)
    ensures |s| > 0 && AllDigits(s)
    ensures n > 0 ==> s[0] != '0'
    ensures n < 10 <==> |s| == 1
  {
    if n < 10 then [DigitChar(n)] else NatToString(n / 10) + [DigitChar(n % 10)]
  }

  /** Decimal rendering of an integer, with a leading '-' for negatives. */
  function IntToString(i: int): (s: string)
    ensures |s| > 0
    ensures i >= 0 ==> s == NatToString(i)
    ensures i < 0 ==> s[0] == '-' && s[1..] == NatToString(-i)
  {
    if i < 0 then "-" + NatToString(-i) else NatToString(i)
  }

  /** Reading back a rendered natural number gives the number. */
  lemma {:induction false} NatToStringRoundTrip(n: nat)
    ensures DigitsValue(NatToString(n)) == n
  {
    if n >= 10 {
      var s := NatToString(n);
      assert s[..|s| - 1] == NatToString(n / 10);
      NatToStringRoundTrip(n / 10);
    }
  }

  /** Rendering is injective: different numbers print differently. */
  lemma NatToStringInjective(a: nat, b: nat)
    requires NatToString(a) == NatToString(b)
    ensures a == b
  {
    NatToStringRoundTrip(a);
    NatToStringRoundTrip(b);
  }

  /** Rust's `str::parse::<i64>()`: an optional '+' or '-' followed by at
      least one ASCII digit and nothing else, within the `i64` range. */
  function ParseI64(s: string): (r: Option<int>)
    ensures r.Some? ==> I64Min <= r.value <= I64Max
    ensures |s| > 0 && AllDigits(s) && DigitsValue(s) <= I64Max ==> r == Some(DigitsValue(s))
    ensures |s| == 0 ==> r.None?
  {
    if |s| == 0 then None
    else
      var neg := s[0] == '-';
      var digits := if s[0] == '+' || s[0] == '-' then s[1..] else s;
      if |digits| == 0 || !AllDigits(digits) then None
      else
        var v: int := if neg then -(DigitsValue(digits) as int) else DigitsValue(digits);
        if I64Min <= v <= I64Max then Some(v) else None
  }

  /** Every rendered integer in the `i64` range parses back to itself. */
  lemma ParseI64OfIntToString(i: int)
    requires I64Min <= i <= I64Max
    ensures ParseI64(IntToString(i)) == Some(i)
  {
    NatToStringRoundTrip(if i < 0 then -i else i);
    if i < 0 {
      assert IntToString(i)[1..] == NatToString(-i);
    }
  }

  /** Integer division rounding toward zero, as Rust's `/` on `i64` does
      (Dafny's own `/` is Euclidean). */
  function TruncDiv(a: int, b: int): (q: int)
    requires b > 0
    ensures a >= 0 ==> 0 <= q && q * b <= a < (q + 1) * b
    ensures a < 0 ==> q <= 0 && (q - 1) * b < a <= q * b
  {
    if a >= 0 then FloorDiv(a, b)
    else
      var p: int := FloorDiv(-a, b);
      NegatedProducts(p, b);
      -p
  }

  /** Division of a non-negative number, bracketed by multiples of `b`. */
  function FloorDiv(a: nat, b: int): (q: nat)
    requires b > 0
    ensures q * b <= a < (q + 1) * b
  {
    DivBracket(a, b);
    a / b
  }

  lemma NegatedProducts(p: int, b: int)
    ensures (-p) * b == -(p * b) && (-p - 1) * b == -((p + 1) * b)
  {
  }

  /** Euclidean division brackets its dividend between consecutive multiples. */
  lemma DivBracket(a: nat, d: nat)
    requires d > 0
    ensures (a / d) * d <= a < (a / d + 1) * d
  {
    assert a == (a / d) * d + a % d;
    assert (a / d + 1) * d == (a / d) * d + d;
  }

  lemma MulMonotone(x: nat, y: nat, d: nat)
    requires x <= y
    ensures x * d <= y * d
  {
    assert y * d == x * d + (y - x) * d;
  }

  /** `char::is_whitespace`: the Unicode White_Space property. */
  predicate IsRustWhitespace(c: char) {
    ('\U{0009}' <= c <= '\U{000D}') || c == ' ' || c == '\U{0085}' || c == '\U{00A0}'
    || c == '\U{1680}' || ('\U{2000}' <= c <= '\U{200A}') || c == '\U{2028}' || c == '\U{2029}'
    || c == '\U{202F}' || c == '\U{205F}' || c == '\U{3000}'
  }

  /** The characters JavaScript's `String.prototype.trim` removes: WhiteSpace
      and LineTerminator of ECMAScript (U+FEFF yes, U+0085 no). */
  predicate IsJsWhitespace(c: char) {
    ('\U{0009}' <= c <= '\U{000D}') || c == ' ' || c == '\U{00A0}' || c == '\U{FEFF}'
    || c == '\U{1680}' || ('\U{2000}' <= c <= '\U{200A}') || c == '\U{2028}' || c == '\U{2029}'
    || c == '\U{202F}' || c == '\U{205F}' || c == '\U{3000}'
  }

  /** `query.trim()` is the empty string. */
  predicate IsJsBlank(s: string) {
    forall i :: 0 <= i < |s| ==> IsJsWhitespace(s[i])
  }

  function TrimStartRust(s: string): (r: string)
    ensures |r| <= |s| && r == s[|s| - |r|..]
    ensures |r| > 0 ==> !IsRustWhitespace(r[0])
    ensures forall i :: 0 <= i < |s| - |r| ==> IsRustWhitespace(s[i])
  {
    if |s| > 0 && IsRustWhitespace(s[0]) then
      var r := TrimStartRust(s[1..]);
      assert s[1..][|s| - 1 - |r|..] == s[|s| - |r|..];
      assert forall i :: 1 <= i < |s| - |r| ==> s[i] == s[1..][i - 1];
      r
    else s
  }

  function TrimEndRust(s: string): (r: string)
    ensures |r| <= |s| && r == s[..|r|]
    ensures |r| > 0 ==> !IsRustWhitespace(r[|r| - 1])
    ensures forall i :: |r| <= i < |s| ==> IsRustWhitespace(s[i])
  {
    if |s| > 0 && IsRustWhitespace(s[|s| - 1]) then TrimEndRust(s[..|s| - 1]) else s
  }

  /** Rust's `str::trim`. */
  function TrimRust(s: string): string {
    TrimEndRust(TrimStartRust(s))
  }

  /** A string with no whitespace at either end is its own trim. */
  lemma TrimRustIdentity(s: string)
    requires |s| > 0 && !IsRustWhitespace(s[0]) && !IsRustWhitespace(s[|s| - 1])
    ensures TrimRust(s) == s
  {
  }

  predicate EndsWith(s: string, suffix: string) {
    |suffix| <= |s| && s[|s| - |suffix|..] == suffix
  }

  predicate StartsWith(s: string, prefix: string) {
    |prefix| <= |s| && s[..|prefix|] == prefix
  }

  /** Rust's `str::trim_start_matches` with a string pattern: removes the
      prefix as many times as it repeats. */
  function TrimStartMatches(s: string, prefix: string): (r: string)
    requires |prefix| > 0
    ensures |r| <= |s| && r == s[|s| - |r|..]
    ensures !StartsWith(r, prefix)
    decreases |s|
  {
    if StartsWith(s, prefix) then TrimStartMatches(s[|prefix|..], prefix) else s
  }

  function LowerChar(c: char): (d: char)
    ensures 'A' <= c <= 'Z' ==> 'a' <= d <= 'z'
    ensures !('A' <= d <= 'Z')
  {
    if 'A' <= c <= 'Z' then (c as int + 32) as char else c
  }

  /** `toLowerCase`, restricted to ASCII letters. */
  function ToLowerAscii(s: string): (r: string)
    ensures |r| == |s|
    ensures forall i :: 0 <= i < |s| ==> r[i] == LowerChar(s[i])
  {
    seq(|s|, i requires 0 <= i < |s| => LowerChar(s[i]))
  }

  /** The first char upper-cased (ASCII), the rest unchanged; "" stays "". */
  function CapitalizeAscii(s: string): (r: string)
    ensures |r| == |s|
    ensures |s| > 0 ==> r[1..] == s[1..]
    ensures |s| > 0 && 'a' <= s[0] <= 'z' ==> r[0] == (s[0] as int - 32) as char
    ensures |s| > 0 && !('a' <= s[0] <= 'z') ==> r[0] == s[0]
  {
    if |s| == 0 then s
    else if 'a' <= s[0] <= 'z' then [(s[0] as int - 32) as char] + s[1..]
    else s
  }

  /** JavaScript `hay.includes(needle)` / Rust `contains`. */
  predicate Contains(hay: string, needle: string) {
    exists i | 0 <= i <= |hay| - |needle| :: OccursAt(hay, needle, i)
  }

  predicate OccursAt(hay: string, needle: string, i: int) {
    0 <= i && i + |needle| <= |hay| && hay[i..i + |needle|] == needle
  }

  /** Every string contains the empty string and itself. */
  lemma ContainsBasics(s: string)
    ensures Contains(s, "")
    ensures Contains(s, s)
  {
    assert OccursAt(s, "", 0);
    assert OccursAt(s, s, 0);
  }

  /** The index of the first occurrence of `c`. */
  function IndexOf(s: string, c: char): (r: Option<nat>)
    ensures r.None? <==> c !in s
    ensures r.Some? ==> r.value < |s| && s[r.value] == c && c !in s[..r.value]
  {
    if |s| == 0 then None
    else if s[0] == c then Some(0)
    else
      match IndexOf(s[1..], c)
      case None => None
      case Some(i) =>
        assert s[..i + 1] == [s[0]] + s[1..][..i];
        Some(i + 1)
  }

  /** JavaScript's `s.split(sep)` for a one-character separator: the
      pieces between separators, so never an empty list. */
  function Split(s: string, sep: char): (r: seq<string>)
    ensures |r| >= 1
    ensures forall i :: 0 <= i < |r| ==> sep !in r[i]
    ensures sep !in s ==> r == [s]
    decreases |s|
  {
    match IndexOf(s, sep)
    case None => [s]
    case Some(i) => [s[..i]] + Split(s[i + 1..], sep)
  }

  /** `parts.join(sep)`. */
  function JoinWith(parts: seq<string>, sep: char): string
    requires |parts| >= 1
  {
    if |parts| == 1 then parts[0] else parts[0] + [sep] + JoinWith(parts[1..], sep)
  }

  /** Splitting loses nothing: joining the pieces gives the string back. */
  lemma {:induction false} SplitJoin(s: string, sep: char)
    ensures JoinWith(Split(s, sep), sep) == s
    decreases |s|
  {
    if sep in s {
      var i := SplitFirst(s, sep);
      var rest := Split(s[i + 1..], sep);
      JoinCons(s[..i], rest, sep);
      SplitJoin(s[i + 1..], sep);
    }
  }

  /** Where a separator occurs, the first piece ends at the first one and
      the rest is the split of what follows it. */
  lemma SplitFirst(s: string, sep: char) returns (i: nat)
    requires sep in s
    ensures i < |s| && s == s[..i] + [sep] + s[i + 1..]
    ensures Split(s, sep) == [s[..i]] + Split(s[i + 1..], sep)
  {
    i := IndexOf(s, sep).value;
    assert s == s[..i] + [s[i]] + s[i + 1..];
  }

  lemma JoinCons(first: string, rest: seq<string>, sep: char)
    requires |rest| >= 1
    ensures JoinWith([first] + rest, sep) == first + [sep] + JoinWith(rest, sep)
  {
    assert ([first] + rest)[1..] == rest;
  }

  /** Lexicographic `<` on strings, by character code (JavaScript's
      relational comparison of two strings). */
  predicate LessThan(a: string, b: string) {
    if |a| == 0 then |b| > 0
    else if |b| == 0 then false
    else if a[0] != b[0] then a[0] < b[0]
    else LessThan(a[1..], b[1..])
  }

  lemma {:induction false} LessThanIrreflexive(a: string)
    ensures !LessThan(a, a)
  {
    if |a| > 0 {
      LessThanIrreflexive(a[1..]);
    }
  }

  /** Two different strings are ordered one way or the other. */
  lemma {:induction false} LessThanTotal(a: string, b: string)
    requires a != b
    ensures LessThan(a, b) || LessThan(b, a)
  {
    if |a| > 0 && |b| > 0 && a[0] == b[0] {
      assert a == [a[0]] + a[1..] && b == [b[0]] + b[1..];
      LessThanTotal(a[1..], b[1..]);
    }
  }

  lemma {:induction false} LessThanAsymmetric(a: string, b: string)
    ensures !(LessThan(a, b) && LessThan(b, a))
  {
    if |a| > 0 && |b| > 0 && a[0] == b[0] {
      LessThanAsymmetric(a[1..], b[1..]);
    }
  }
}

=== FILE: theme.dfy ===
/** The theme store of src/lib/stores/theme.ts: the chosen theme (light,
    dark or follow the system), the appearance actually applied, and the
    toggle button. Whether a window exists, the stored preference and the
    system's dark-mode setting are inputs. */
module ThemeStore {
  import opened Wrappers

  datatype Theme = Light | Dark | System

  /** What is applied to the document: always light or dark. */
  datatype Appearance = LightLook | DarkLook

  /** The value persisted under the theme key. */
  function Name(t: Theme): string {
    match t
    case Light => "light"
    case Dark => "dark"
    case System => "system"
  }

  /** `getInitialTheme`: the stored value when it names a theme exactly,
      otherwise (and always without a window) "system". */
  function InitialTheme(hasWindow: bool, stored: Option<string>): (t: Theme)
    ensures !hasWindow ==> t == System
    ensures t != System ==> hasWindow && stored == Some(Name(t))
    ensures hasWindow && stored.Some? && stored.value !in {"light", "dark", "system"} ==> t == System
  {
    if !hasWindow then System
    else
      match stored
      case Some(s) =>
        if s == "light" then Light else if s == "dark" then Dark else if s == "system" then System else System
      case None => System
  }

  /** What the store saves is what it reads back at the next start. */
  lemma PersistRoundTrip(t: Theme)
    ensures InitialTheme(true, Some(Name(t))) == t
  {
  }

  /** `getSystemTheme`: dark without a window, else the media query. */
  function SystemAppearance(hasWindow: bool, prefersDark: bool): (a: Appearance)
    ensures a == LightLook <==> hasWindow && !prefersDark
  {
    if !hasWindow then DarkLook else if prefersDark then DarkLook else LightLook
  }

  /** `resolvedTheme`: the chosen theme, or the system's appearance when it
      follows the system. */
  function Resolve(t: Theme, system: Appearance): (a: Appearance)
    ensures t == Light ==> a == LightLook
    ensures t == Dark ==> a == DarkLook
    ensures t == System ==> a == system
  {
    match t
    case Light => LightLook
    case Dark => DarkLook
    case System => system
  }

  /** While following the system, a change of the system's setting is
      applied at once; otherwise it is ignored. */
  lemma ResolveFollowsSystem(t: Theme, before: Appearance, after: Appearance)
    ensures t == System ==> Resolve(t, after) == after
    ensures t != System ==> Resolve(t, after) == Resolve(t, before)
  {
  }

  function Opposite(a: Appearance): Appearance {
    if a == DarkLook then LightLook else DarkLook
  }

  /** `toggleTheme`: light and dark swap; following the system switches to
      the opposite of what the system shows. */
  function ToggleTheme(t: Theme, system: Appearance): (r: Theme)
    ensures r != System
    ensures t == Light ==> r == Dark
    ensures t == Dark ==> r == Light
    ensures Resolve(r, system) != Resolve(t, system)
  {
    match t
    case Light => Dark
    case Dark => Light
    case System => if system == DarkLook then Light else Dark
  }

  /** Toggling twice comes back to a fixed theme, and from "system" lands on
      the fixed theme the system was showing. */
  lemma ToggleTwice(t: Theme, system: Appearance)
    ensures t != System ==> ToggleTheme(ToggleTheme(t, system), system) == t
    ensures t == System ==> Resolve(ToggleTheme(ToggleTheme(t, system), system), system) == system
  {
  }
}

=== FILE: windows.dfy ===
/** The window commands of src-tauri/src/commands.rs: `open_resource_detail`
    and `open_terminal_window` derive a window label from the resource,
    focus the window that already has that label, or create one with a
    title naming the resource. Open windows are a map from label to title;
    whether the windowing system builds a new window is an input. */
module Windows {
  import opened Wrappers
  import opened Text

  /** The characters a label must not contain. */
  predicate IsSeparator(c: char) {
    c == '.' || c == '/' || c == '\\' || c == ' '
  }

  /** `replace(['.', '/', '\\', ' '], "-")`. */
  function Sanitize(s: string): (r: string)
    ensures |r| == |s|
    ensures forall i :: 0 <= i < |s| ==> r[i] == (if IsSeparator(s[i]) then '-' else s[i])
  {
    seq(|s|, i requires 0 <= i < |s| => if IsSeparator(s[i]) then '-' else s[i])
  }

  /** Sanitised text holds no separator, and sanitising it again changes
      nothing. */
  lemma SanitizeClean(s: string)
    ensures forall i :: 0 <= i < |s| ==> !IsSeparator(Sanitize(s)[i])
    ensures Sanitize(Sanitize(s)) == Sanitize(s)
  {
  }

  /** Text without separators is its own sanitisation. */
  lemma SanitizeIdentity(s: string)
    requires forall i :: 0 <= i < |s| ==> !IsSeparator(s[i])
    ensures Sanitize(s) == s
  {
  }

  /** The label of a resource detail window. The resource type is used as
      given; namespace and name are sanitised. */
  function DetailLabel(kind: string, namespace: string, name: string): (r: string)
    ensures StartsWith(r, "detail-")
    ensures |r| == 9 + |kind| + |namespace| + |name|
    ensures r[7..7 + |kind|] == kind
    ensures r[7 + |kind|] == '-' && r[8 + |kind| + |namespace|] == '-'
    ensures r[8 + |kind|..8 + |kind| + |namespace|] == Sanitize(namespace)
    ensures r[|r| - |name|..] == Sanitize(name)
  {
    "detail-" + kind + "-" + Sanitize(namespace) + "-" + Sanitize(name)
  }

  /** The label of a terminal window: namespace, pod and, when given, the
      container, each sanitised. */
  function TerminalLabel(namespace: string, pod: string, container: Option<string>): (r: string)
    ensures StartsWith(r, "terminal-")
    ensures container.None? ==> |r| == 10 + |namespace| + |pod|
    ensures container.Some? ==> |r| == 11 + |namespace| + |pod| + |container.value|
    ensures r[9..9 + |namespace|] == Sanitize(namespace)
    ensures r[9 + |namespace|] == '-'
    ensures container.Some? ==> r[10 + |namespace| + |pod|] == '-'
    ensures r[10 + |namespace|..10 + |namespace| + |pod|] == Sanitize(pod)
    ensures container.Some? ==> r[|r| - |container.value|..] == Sanitize(container.value)
  {
    match container
    case Some(c) => "terminal-" + Sanitize(namespace) + "-" + Sanitize(pod) + "-" + Sanitize(c)
    case None => "terminal-" + Sanitize(namespace) + "-" + Sanitize(pod)
  }

  /** Sanitising distributes over concatenation. */
  lemma {:induction false} SanitizeConcat(a: string, b: string)
    ensures Sanitize(a + b) == Sanitize(a) + Sanitize(b)
  {
    assert forall i :: 0 <= i < |a + b| ==> Sanitize(a + b)[i] == (Sanitize(a) + Sanitize(b))[i];
  }

  /** A detail label holds no separator outside its resource type, so
      sanitising the label only sanitises the type. */
  lemma {:induction false} DetailLabelSanitized(kind: string, namespace: string, name: string)
    ensures Sanitize(DetailLabel(kind, namespace, name)) == DetailLabel(Sanitize(kind), namespace, name)
  {
    var ns, nm := Sanitize(namespace), Sanitize(name);
    SanitizeClean(namespace);
    SanitizeClean(name);
    SanitizeIdentity(ns);
    SanitizeIdentity(nm);
    SanitizeIdentity("detail-");
    SanitizeIdentity("-");
    SanitizeConcat("detail-", kind);
    SanitizeConcat("detail-" + kind, "-");
    SanitizeConcat("detail-" + kind + "-", ns);
    SanitizeConcat("detail-" + kind + "-" + ns, "-");
    SanitizeConcat("detail-" + kind + "-" + ns + "-", nm);
  }

  /** A terminal label holds no separator, whatever its parts hold. */
  lemma TerminalLabelClean(namespace: string, pod: string, container: Option<string>)
    ensures var r := TerminalLabel(namespace, pod, container);
      forall i :: 0 <= i < |r| ==> !IsSeparator(r[i])
  {
    SanitizeClean(namespace);
    SanitizeClean(pod);
    if container.Some? {
      SanitizeClean(container.value);
    }
  }

  /** The title of a detail window: "Kind: name (context/namespace)" with
      the first letter of the resource type capitalised. */
  function DetailTitle(kind: string, name: string, context: string, namespace: string): (r: string)
    ensures |r| == |kind| + |name| + |context| + |namespace| + 6
    ensures |kind| > 0 ==> r[1..|kind|] == kind[1..]
    ensures r[..|kind|] == CapitalizeAscii(kind)
    ensures r[|kind|..|kind| + 2] == ": "
    ensures r[|kind| + 2..] == name + " (" + context + "/" + namespace + ")"
  {
    CapitalizeAscii(kind) + ": " + name + " (" + context + "/" + namespace + ")"
  }

  /** The title of a terminal window; the container appears in parentheses
      only when one is given. */
  function TerminalTitle(pod: string, context: string, namespace: string, container: Option<string>): (r: string)
    ensures StartsWith(r, "Terminal: " + pod)
    ensures container.None? ==> r == "Terminal: " + pod + " - " + context + "/" + namespace
    ensures container.Some? ==>
      r == "Terminal: " + pod + " (" + container.value + ") - " + context + "/" + namespace
  {
    match container
    case Some(c) => "Terminal: " + pod + " (" + c + ") - " + context + "/" + namespace
    case None => "Terminal: " + pod + " - " + context + "/" + namespace
  }

  type OpenWindows = map<string, string>

  datatype WindowError = BuildFailed

  /** Focus the window carrying `windowLabel` if there is one; otherwise build a
      new one with `title`, which `built` says succeeded. */
  function OpenOrFocus(windows: OpenWindows, windowLabel: string, title: string, built: bool)
    : (r: (Result<(), WindowError>, OpenWindows))
    ensures windowLabel in windows ==> r == (Ok(()), windows)
    ensures windowLabel !in windows && built ==> r.0.Ok? && r.1 == windows[windowLabel := title]
    ensures windowLabel !in windows && !built ==> r == (Err(BuildFailed), windows)
    ensures windowLabel in r.1 <==> r.0.Ok?
  {
    if windowLabel in windows then (Ok(()), windows)
    else if built then (Ok(()), windows[windowLabel := title])
    else (Err(BuildFailed), windows)
  }

  /** `open_resource_detail`. */
  function OpenResourceDetail(windows: OpenWindows, kind: string, name: string, namespace: string,
                              context: string, built: bool): (r: (Result<(), WindowError>, OpenWindows))
    ensures DetailLabel(kind, namespace, name) in windows ==> r == (Ok(()), windows)
    ensures r.0.Ok? ==> DetailLabel(kind, namespace, name) in r.1
    ensures forall l :: l in windows ==> l in r.1 && r.1[l] == windows[l]
  {
    OpenOrFocus(windows, DetailLabel(kind, namespace, name), DetailTitle(kind, name, context, namespace), built)
  }

  /** `open_terminal_window`. */
  function OpenTerminal(windows: OpenWindows, pod: string, namespace: string, context: string,
                        container: Option<string>, built: bool): (r: (Result<(), WindowError>, OpenWindows))
    ensures TerminalLabel(namespace, pod, container) in windows ==> r == (Ok(()), windows)
    ensures r.0.Ok? ==> TerminalLabel(namespace, pod, container) in r.1
    ensures forall l :: l in windows ==> l in r.1 && r.1[l] == windows[l]
  {
    OpenOrFocus(windows, TerminalLabel(namespace, pod, container), TerminalTitle(pod, context, namespace, container), built)
  }

  /** Opening the same detail twice creates at most one window: the second
      call only focuses. */
  lemma OpenDetailTwice(windows: OpenWindows, kind: string, name: string, namespace: string, context: string,
                        built: bool, builtAgain: bool)
    ensures var first := OpenResourceDetail(windows, kind, name, namespace, context, built);
      first.0.Ok? ==> OpenResourceDetail(first.1, kind, name, namespace, context, builtAgain) == (Ok(()), first.1)
  {
  }

  /** A detail window is the same whatever context it was opened for: the
      context is in the title but not the label. */
  lemma DetailIgnoresContext(windows: OpenWindows, kind: string, name: string, namespace: string,
                             context: string, other: string)
    requires DetailLabel(kind, namespace, name) in windows
    ensures OpenResourceDetail(windows, kind, name, namespace, other, true) == (Ok(()), windows)
  {
  }

  /** Labels are not unique: a pod "b-c" in namespace "a" and a pod "c" in
      namespace "a-b" share a label, and so do names differing only in a
      separator, so opening one focuses the other's window. */
  lemma DetailLabelsCollide()
    ensures DetailLabel("pod", "a", "b-c") == DetailLabel("pod", "a-b", "c")
    ensures DetailLabel("pod", "ns", "web.1") == DetailLabel("pod", "ns", "web-1")
  {
    assert Sanitize("a") == "a" && Sanitize("b-c") == "b-c";
    assert Sanitize("a-b") == "a-b" && Sanitize("c") == "c";
    assert Sanitize("ns") == "ns" && Sanitize("web-1") == "web-1";
    assert Sanitize("web.1") == "web-1";
  }
}

=== FILE: wrappers.dfy ===
/** Option and Result, the two failure-carrying shapes the model uses for
    Rust's `Option<T>` / `Result<T, AppError>` and TypeScript's nullable values. */
module Wrappers {

  datatype Option<+T> = None | Some(value: T) {

    /** Returns the value in Some, or `default` for None (Rust `unwrap_or`). */
    function GetOr(default: T): T {
      match this
      case Some(v) => v
      case None => default
    }
  }

  datatype Result<+R, +E> = Ok(value: R) | Err(error: E)
}
